=== FILE: README.md ===
# low_bandwith_test core, modelled in Dafny

This project models three cores of the low_bandwith_test tools:

- **net_mhm_itf, the "mayhem" TAP interface.** A `BufferMixin`/`MemoryBuffer` byte buffer has a cursor, a written length and a capacity, with big-endian readers and writers. The EBML variable-length integer writer `wmkvuint` lives in the same buffer. The Ethernet, ARP, IPv4 and IPv6 headers are parsed and serialized on top of the buffer, and the text helpers render MAC addresses and hex dumps. The ARP responder in `MayhemInterface::run` answers broadcast requests for the local address and re-broadcasts other ARP broadcasts at most once per second per sender. Hex lines typed on standard input are written to the device as frames.
- **playback_test's HLS playlist parser.** `HLSManifestParser::parse` reads a playlist line by line. It collects variant streams, target duration, media sequence and media segments. A segment is accepted only when its sequence number exceeds the last one kept. `fetchContentFromURI` keeps the base URI, `resolveUri` resolves segment URIs, and `extract_sequence_number` reads `-<n>.ts` from a segment URI.
- **network_monitor's traffic accounting.** `PacketProcessor::processPacket` counts the IPv4 payload bytes of each captured frame. Counts are kept per direction and per client. `print` closes a reporting period.

Exceptions become `Result` values (`Errors.Error`). A fixed buffer (`BufferMixin`) and a growing one (`MemoryBuffer`) share one `Buffer` datatype that carries a policy. Bytes are integers in `[0, 256)`, and C++ integer widths are written out where they matter. Examples: `ToInt32` for the `long` to `int` store of the refresh interval, two's complement for `ru64`, and truncating division. The device, standard input, the network fetch and the clock are parameters:

- a frame is a byte sequence;
- a fetch result is `Option<string>`;
- standard input is text arriving over time;
- `now` is an integer.

Modules: `Errors`, `Bytes` (big-endian arithmetic), `Buffers`, `MemoryBuffers`, `Ebml`, `TextCodec`, `Protocol`, `Interface`, `Loop`, `HlsText`, `Hls`, `Traffic`.

## Model

Source paths are relative to the repository root.

| member | source | states |
|---|---|---|
| Buffers.AccessorsPartition | tools/net_mhm_itf/src/binary_parser.hpp:98-106 | `tell`, `bytes_left`, `capacity_left` and `len` are never negative; read part plus unread part is the data, and data plus free capacity is the allocation |
| Buffers.FromExternalMemory | tools/net_mhm_itf/src/binary_parser.cpp:53-59 | the buffer borrows the memory (not owning, fixed size) with the given data size and the cursor at 0; it is well formed exactly when the data size fits the memory |
| Buffers.Seek | tools/net_mhm_itf/src/binary_parser.cpp:94-99 | seeking succeeds exactly when the target is not past the data, and then only the cursor changes; otherwise `BufferReadError(position - len)`; a negative target is accepted and leaves a buffer that is no longer well formed |
| Buffers.Clear | tools/net_mhm_itf/src/binary_parser.cpp:101-104 | no data and cursor at 0, with the same storage, ownership and policy |
| Buffers.Clone | tools/net_mhm_itf/src/binary_parser.cpp:61-70 | an owning fixed buffer with the same capacity and the same data, cursor at 0 |
| Buffers.ReadBytes | tools/net_mhm_itf/src/binary_parser.cpp:697-716 | `rbytes`/`rbytes_into`/`rstring` succeed exactly when `n` bytes are unread; they return exactly those bytes and advance the cursor by `n`; otherwise `BufferReadError(len - (position + n))` and nothing moves |
| Buffers.ReadUInt | tools/net_mhm_itf/src/binary_parser.cpp:554-640 | `ru8`..`ru64` succeed exactly when `width` bytes are unread, with the shortfall the source reports (1 for `ru8`); the value's big-endian bytes are the bytes read; below 8 bytes the value is unsigned, at 8 bytes it is the signed 64-bit reading |
| Buffers.ReadUIntIsBeValue | tools/net_mhm_itf/src/binary_parser.cpp:110-209 | below 8 bytes, a fixed-width read is the big-endian value of the bytes under the cursor |
| Buffers.ReadBe | tools/net_mhm_itf/src/binary_parser.cpp:110-200 | `ru8`..`ru56` as a big-endian read: same success condition and error as `ReadUInt`, and the value of the bytes under the cursor |
| Buffers.ReadSInt | tools/net_mhm_itf/src/binary_parser.cpp:122-218 | `rs16`..`rs64` succeed exactly when `width` bytes are unread; the result lies in the signed range of the width and its two's complement bytes are the bytes read |
| Buffers.SignedEncoding | tools/net_mhm_itf/src/binary_parser.cpp:138-145 | sign extension from bit `8n-1` keeps the `n` bytes and lands in the signed range |
| Buffers.SignBit | tools/net_mhm_itf/src/binary_parser.cpp:138-145 | a signed read is negative exactly when the top bit of the first byte is set |
| Buffers.ReadBytesAtMost | tools/net_mhm_itf/src/binary_parser.cpp:708-711 | returns `min(max, bytes_left)` unread bytes, nothing exactly when `max` is 0 or the data is exhausted, and advances past them |
| Buffers.ReadNullTerminated | tools/net_mhm_itf/src/binary_parser.cpp:261-270 | returns the unread bytes before the first NUL, or all unread bytes when there is no NUL; the cursor stops on the terminator or at the end |
| Buffers.ReadNullTerminatedTwice | tools/net_mhm_itf/src/binary_parser.cpp:261-270 | because the terminator is not consumed, a second read returns the empty string and changes nothing |
| Buffers.FindBinary | tools/net_mhm_itf/src/binary_parser.cpp:756-762 | -1 exactly when the needle occurs nowhere in the unread data; otherwise the first offset where it occurs |
| Buffers.Put | tools/net_mhm_itf/src/binary_parser.cpp:398-402 | the data sits at the old cursor, every other stored byte is unchanged, the cursor moves past the data and the written length becomes the larger of the old one and the new cursor |
| Buffers.ReserveFromPosition | tools/net_mhm_itf/src/binary_parser.cpp:930-939 | keeps the stored bytes, cursor and length; ensures `needed` bytes of room after the cursor and grows to exactly `position + needed + 8192` when it grows |
| Buffers.Write | tools/net_mhm_itf/src/binary_parser.cpp:487-547 | a fixed buffer raises `BufferWriteError` exactly when the data does not fit after the cursor; a memory buffer always succeeds; on success the data is stored as `Written` describes |
| Buffers.WriteUInt | tools/net_mhm_itf/src/binary_parser.cpp:295-392 | `wu8`..`wu64` store the `width` low-order bytes, most significant first, with the source's shortfall amounts |
| Buffers.WriteU16Le | tools/net_mhm_itf/src/binary_parser.cpp:308-314 | the two low-order bytes, least significant first |
| Buffers.WriteU32Le | tools/net_mhm_itf/src/binary_parser.cpp:332-340 | the four low-order bytes, least significant first |
| Buffers.WriteBytes | tools/net_mhm_itf/src/binary_parser.cpp:398-409 | `wbytes`/`wstring` store the bytes at the cursor, or raise when a fixed buffer lacks room |
| Buffers.WriteUIntBytes | tools/net_mhm_itf/src/binary_parser.cpp:323-331 | byte `i` of a big-endian write is `(v >> 8*(width-1-i)) & 0xFF` |
| Buffers.LittleEndianMirrors | tools/net_mhm_itf/src/binary_parser.cpp:301-340 | `wu16le`/`wu32le` succeed exactly when `wu16`/`wu32` do and store the same bytes reversed |
| Buffers.WriteSeekReadUInt | tools/net_mhm_itf/src/binary_parser.cpp:295-392 | writing `v` in `width` bytes, seeking back and reading gives `v mod 256^width`, or its signed reading for 8 bytes |
| Buffers.WriteSeekReadSInt | tools/net_mhm_itf/src/binary_parser.cpp:122-218 | a value in the signed range of the width survives write, seek back, signed read |
| Buffers.SeekReadSIntAfterWrite | tools/net_mhm_itf/src/binary_parser.cpp:122-218 | the same round trip for any buffer holding the written bytes |
| Buffers.WriteSeekReadBytes | tools/net_mhm_itf/src/binary_parser.cpp:398-402 | `wbytes`, seek back, `rbytes` gives the bytes back |
| Buffers.BorByteGuardAdmitsEnd | tools/net_mhm_itf/src/binary_parser.cpp:549-552 | the guard as written admits `pos == allocated`, one past the storage, which the corrected `BorByte` refuses |
| Buffers.BorByte | tools/net_mhm_itf/src/binary_parser.cpp:549-552 | with the bounds check the source evidently intends: succeeds exactly for positions inside the storage, ORs the mask into that byte and leaves every other byte unchanged |
| Buffers.ConsumeBytesAsWritten | tools/net_mhm_itf/src/binary_parser.cpp:764-770 | raises exactly when the new cursor passes the capacity, and then leaves the buffer with its cursor already past the capacity |
| Buffers.ConsumeBytes | tools/net_mhm_itf/src/binary_parser.cpp:764-770 | the corrected version: succeeds exactly when the new cursor fits, moves it and extends the length to it; on error nothing changes |
| Buffers.ConsumeBytesAgree | tools/net_mhm_itf/src/binary_parser.cpp:764-770 | the two versions raise in the same cases and agree whenever nothing is raised; on error only the as-written one breaks the buffer |
| Buffers.BytesAppendedAsWritten | tools/net_mhm_itf/src/binary_parser.cpp:772-778 | the length always grows; the buffer is broken exactly when the error is raised |
| Buffers.BytesAppended | tools/net_mhm_itf/src/binary_parser.cpp:772-778 | the corrected version: succeeds exactly when the amount fits the free capacity and only the length grows |
| Buffers.BytesAppendedAgree | tools/net_mhm_itf/src/binary_parser.cpp:772-778 | both versions raise in the same cases and agree when nothing is raised |
| Buffers.HexGuardAdmitsOverRead | tools/net_mhm_itf/src/binary_parser.cpp:78-82 | the dump `ARPHeader::parse` asks for on a full 1518-byte frame passes the as-written guard although it runs past the allocation; the corrected `Hex` refuses it |
| Buffers.Hex | tools/net_mhm_itf/src/binary_parser.cpp:78-82 | with the range check evidently intended: succeeds exactly when the whole dumped range lies in the data; `2*len` digits, each from the uppercase table `0123456789ABCDEF`, that decode back to that range |
| MemoryBuffers.Empty | tools/net_mhm_itf/src/binary_parser.cpp:815-821 | no storage, no data, cursor at 0 |
| MemoryBuffers.WithCapacity | tools/net_mhm_itf/src/binary_parser.cpp:822-828 | capacity `initial_size`, no data, cursor at 0 |
| MemoryBuffers.FromData | tools/net_mhm_itf/src/binary_parser.cpp:829-836 | an exact-size copy: the data is the given bytes, all unread |
| MemoryBuffers.Copy | tools/net_mhm_itf/src/binary_parser.cpp:838-857 | copy construction and assignment keep the data and the cursor, in an allocation exactly as large as the data |
| MemoryBuffers.Move | tools/net_mhm_itf/src/binary_parser.cpp:859-884 | the target takes over storage, length and cursor; the source is left empty |
| MemoryBuffers.EliminateParsedData | tools/net_mhm_itf/src/binary_parser.cpp:890-902 | never changes the unread data or the capacity; a fully read buffer is cleared; compaction moves the unread data to the front when forced or when the read part exceeds 8 times the unread part; otherwise nothing changes |
| MemoryBuffers.EliminateTwice | tools/net_mhm_itf/src/binary_parser.cpp:890-902 | a second call keeps the unread data, and after a compaction it keeps the whole data |
| MemoryBuffers.ReserveFromEnd | tools/net_mhm_itf/src/binary_parser.cpp:918-928 | keeps bytes, cursor and length; ensures `needed` bytes of free capacity, and grows to exactly `needed + len + 8192` when it grows |
| MemoryBuffers.WriteToEnd | tools/net_mhm_itf/src/binary_parser.cpp:941-945 | the data is appended after the old data; the cursor does not move |
| MemoryBuffers.AppendBuffer | tools/net_mhm_itf/src/binary_parser.cpp:1017-1022 | the destination's data is followed by the source's whole data; the cursor is restored |
| MemoryBuffers.AppendIsWriteToEnd | tools/net_mhm_itf/src/binary_parser.cpp:1017-1022 | `append_buffer` has the effect of `write_to_end` with the source's data |
| MemoryBuffers.LoadPayload | tools/net_mhm_itf/src/binary_parser.cpp:947-952 | succeeds exactly when the input has `size` unread bytes; the buffer then holds exactly those bytes from position 0 and the input advances by `size`; on a short input the raised `BufferReadError` leaves the buffer already cleared and reserved: empty, cursor 0, and grown to `size + 8192` when it held less than `size` |
| MemoryBuffers.LoadThenRead | tools/net_mhm_itf/src/binary_parser.cpp:947-952 | reading `size` bytes from a loaded payload gives the input's bytes back |
| Ebml.MkvWidth | tools/net_mhm_itf/src/binary_parser.cpp:458-485 | the width `wmkvuint` picks lies in 1..8; the value is below that width's reserved all-ones value and not below the previous width's |
| Ebml.Marker | tools/net_mhm_itf/src/binary_parser.cpp:458-485 | the length marker of width `w` is the bit `0x80 >> (w-1)` |
| Ebml.WriteMkvUint | tools/net_mhm_itf/src/binary_parser.cpp:458-547 | raises exactly when fewer than 8 bytes of capacity follow the cursor; otherwise the `w` big-endian bytes are written with the marker ORed into the first one, and nothing else changes |
| Ebml.MaskTables | tools/net_mhm_itf/src/binary_parser.cpp:654-683 | the reserved value of width `w` is `2^(7w) - 1`, the negative mask is its top payload bit, and the signed mask covers the bits above the payload |
| Ebml.SizeTableEntry | tools/net_mhm_itf/src/binary_parser.cpp:644-652 | `byte_to_size_table` maps a first byte whose highest set bit is marker `w` to `w` |
| Ebml.MkvWrittenBytes | tools/net_mhm_itf/src/binary_parser.cpp:458-485 | for values below `2^56` the marker lands on a clear bit, so the first byte is the value's first byte plus the marker |
| Ebml.MkvRoundTrip | tools/net_mhm_itf/src/binary_parser.cpp:458-485 | for values below `2^56`, the size table applied to the written first byte gives the width back, and the bytes minus the marker bit give the value back |
| Ebml.WidthIsMinimal | tools/net_mhm_itf/src/binary_parser.cpp:458-485 | every width whose payload can hold the value (reserved value excluded) is at least the width chosen |
| TextCodec.HexCharToByte | tools/net_mhm_itf/src/constants.hpp:111-162 | succeeds exactly on hex digits of either case, with the digit's value; anything else raises `invalid_argument` |
| TextCodec.HexDigitsDecode | tools/net_mhm_itf/src/constants.hpp:111-162 | every digit of the upper- and lowercase tables decodes to its own index |
| TextCodec.StringToHex | tools/net_mhm_itf/src/binary_parser.cpp:803-813 | two digits per byte, every one from the uppercase table `0123456789ABCDEF`; with `HexRoundTrip` this fixes the text |
| TextCodec.UpperHexTable | tools/net_mhm_itf/src/binary_parser.cpp:804 | the uppercase digits are exactly the characters of `string_to_hex`'s table |
| TextCodec.HexPairs | tools/net_mhm_itf/src/constants.hpp:171-175 | the digit pairs decode exactly when every character is a hex digit, into one byte per pair; the first bad digit raises `invalid_argument` |
| TextCodec.HexPairsIndex | tools/net_mhm_itf/src/constants.hpp:171-175 | byte `i` of a successful decoding is `16*val(hex[2i]) + val(hex[2i+1])` |
| TextCodec.HexPairsOfDump | tools/net_mhm_itf/src/constants.hpp:171-175 | the digit pairs of an uppercase dump decode back to the dumped bytes |
| TextCodec.HexStringToBytes | tools/net_mhm_itf/src/constants.hpp:165-177 | an odd length raises; otherwise it succeeds exactly when all characters are hex digits and yields half as many bytes, each from its digit pair |
| TextCodec.HexRoundTrip | tools/net_mhm_itf/src/constants.hpp:165-177 | `hexStringToBytes` of `string_to_hex(s)` is `s` |
| TextCodec.LowerHexPair | tools/net_mhm_itf/src/constants.hpp:56-69 | the two zero-padded lowercase digits decode to the high and low nibble |
| TextCodec.JoinHex | tools/net_mhm_itf/src/constants.hpp:95-107 | `3n - 1` characters for `n` bytes, empty for none |
| TextCodec.JoinHexIndex | tools/net_mhm_itf/src/constants.hpp:95-107 | characters `3i` and `3i+1` are the digits of byte `i`, and the separator follows every byte but the last |
| TextCodec.JoinHexDigits | tools/net_mhm_itf/src/constants.hpp:95-107 | the same for all indices at once |
| TextCodec.MacToString | tools/net_mhm_itf/src/constants.hpp:56-69 | 17 characters: two lowercase digits per byte that decode back to the byte, colons between |
| TextCodec.BufferToHexString | tools/net_mhm_itf/src/constants.hpp:88-108 | a null buffer raises `invalid_argument`; otherwise two lowercase digits per byte that decode back to it, separated by single spaces |
| TextCodec.Split | tools/net_mhm_itf/src/constants.hpp:78 | the pieces `getline(stream, piece, ':')` yields: none for empty text, and no piece contains the delimiter |
| TextCodec.SplitCons | tools/net_mhm_itf/src/constants.hpp:78 | a delimiter-free piece, the delimiter and more text split into that piece and the split of the rest |
| TextCodec.SplitNoDelimiter | tools/net_mhm_itf/src/constants.hpp:78 | non-empty text without the delimiter is one piece |
| TextCodec.HexMagnitude | tools/net_mhm_itf/src/constants.hpp:80 | the magnitude `strtoul` reads lies in the `unsigned long` range; a missing number or an overflow raises; `HexMagnitudeReads` pins the value |
| TextCodec.HexMagnitudeReads | tools/net_mhm_itf/src/constants.hpp:80 | after an optional `0x`/`0X`, the longest run of hex digits is read: its value, or `out_of_range` above `ULONG_MAX` |
| TextCodec.DropPrefixBeforeDigits | tools/net_mhm_itf/src/constants.hpp:80 | a `0x`/`0X` before hex digits is skipped; a lone `0` not followed by `x` and a digit is a digit |
| TextCodec.Stoul16 | tools/net_mhm_itf/src/constants.hpp:80 | `stoul(s, nullptr, 16)` returns an `unsigned long` or raises `invalid_argument`/`out_of_range`; `Stoul16Reads` and `Stoul16NoDigits` pin what it reads |
| TextCodec.Stoul16Reads | tools/net_mhm_itf/src/constants.hpp:80 | blanks, an optional sign, an optional `0x`, a run of hex digits and anything after it read as the run's value, negated modulo 2^64 after `-`, or `out_of_range` above `ULONG_MAX` |
| TextCodec.Stoul16Signed | tools/net_mhm_itf/src/constants.hpp:80 | blanks and a sign before a magnitude: the sign applied to what `HexMagnitude` reads |
| TextCodec.Stoul16NoDigits | tools/net_mhm_itf/src/constants.hpp:80 | blanks and a sign followed by no hex digit raise `invalid_argument` |
| TextCodec.SignedText | tools/net_mhm_itf/src/constants.hpp:80 | leading blanks are skipped and one sign dropped, and only `-` negates |
| TextCodec.Stoul16Pair | tools/net_mhm_itf/src/constants.hpp:80 | two hex digits read back as their value |
| TextCodec.MacStringToBytes | tools/net_mhm_itf/src/constants.hpp:71-85 | succeeds exactly when every ':'-separated piece is accepted by `stoul`, with one byte per piece holding its value truncated to 8 bits |
| TextCodec.ParsePieces | tools/net_mhm_itf/src/constants.hpp:78-83 | the loop over the pieces, with the same success condition and contents |
| TextCodec.SplitJoinHex | tools/net_mhm_itf/src/constants.hpp:56-85 | splitting a colon-joined rendering gives back one two-digit piece per byte |
| TextCodec.ParsePiecesCons | tools/net_mhm_itf/src/constants.hpp:78-83 | a parsed piece in front of parsed pieces gives its byte in front of their bytes |
| TextCodec.Stoul16LowerPair | tools/net_mhm_itf/src/constants.hpp:80 | a zero-padded lowercase pair reads back as its byte and holds no colon |
| TextCodec.ParseJoinHex | tools/net_mhm_itf/src/constants.hpp:56-85 | parsing the pieces of a colon-joined rendering gives the bytes back |
| TextCodec.MacRoundTrip | tools/net_mhm_itf/src/constants.hpp:56-85 | `mac_string_to_bytes(mac_to_string(m))` is `m`, in six pieces |
| TextCodec.BroadcastRendering | tools/net_mhm_itf/src/interface.cpp:530 | the broadcast address renders as `ff:ff:ff:ff:ff:ff` |
| TextCodec.MacBroadcastText | tools/net_mhm_itf/src/interface.cpp:530 | the text comparison of the responder holds exactly for the broadcast address |
| Protocol.ParseEthernet | tools/net_mhm_itf/src/protocol.hpp:73-80 | succeeds exactly when 14 bytes are unread, with the error of the first read that fails; the two MACs and the EtherType are the bytes under the cursor, which advances 14 |
| Protocol.ParseArpFixed | tools/net_mhm_itf/src/protocol.hpp:189-193 | the five fixed fields need 8 unread bytes and are read big-endian at the cursor |
| Protocol.ParseArpAddresses | tools/net_mhm_itf/src/protocol.hpp:194-197 | the four addresses need `2*hlen + 2*plen` unread bytes and are the consecutive slices at the cursor |
| Protocol.ParseArp | tools/net_mhm_itf/src/protocol.hpp:186-198 | succeeds exactly when the whole header its own lengths announce fits in the data; the header is the RFC 826 layout at the cursor, which advances `8 + 2*hlen + 2*plen` |
| Protocol.PatchAt | tools/net_mhm_itf/src/protocol.hpp:142-151 | `seek` then `wbytes`: fails with a read error when the offset passes the data and with a write error when a fixed buffer lacks room; otherwise the data is stored at the offset |
| Protocol.PatchRestore | tools/net_mhm_itf/src/protocol.hpp:164-176 | a patch followed by the seek back leaves the data at the offset, every other byte and the cursor as they were |
| Protocol.PatchTwiceRestore | tools/net_mhm_itf/src/protocol.hpp:142-162 | two disjoint patches then the seek back: both pieces are stored and nothing else of the data changes |
| Protocol.ComposePatches | tools/net_mhm_itf/src/protocol.hpp:142-162 | two disjoint absolute writes compose into one double patch |
| Protocol.SetDestMac | tools/net_mhm_itf/src/protocol.hpp:142-151 | the MAC is stored at offsets 0 and 22 (hardware length assumed 6), and nothing else changes; this fails exactly when the frame is shorter than 22 bytes or the buffer lacks room |
| Protocol.SetSrcMac | tools/net_mhm_itf/src/protocol.hpp:153-162 | the MAC is stored at offsets 6 and `28 + plen`, and nothing else changes |
| Protocol.SetSrcIp | tools/net_mhm_itf/src/protocol.hpp:171-176 | `plen` bytes at offset 28 |
| Protocol.SetDestIp | tools/net_mhm_itf/src/protocol.hpp:164-169 | `plen` bytes at offset `34 + plen` |
| Protocol.SetOperation | tools/net_mhm_itf/src/protocol.hpp:178-184 | the header field becomes `value mod 2^16` and the same value is stored big-endian at offset 20 |
| Protocol.ParseIpv4 | tools/net_mhm_itf/src/protocol.hpp:216-228 | the fields fit their C++ widths |
| Protocol.Ipv4Bytes | tools/net_mhm_itf/src/protocol.hpp:236-255 | `serialize` stores 20 bytes |
| Protocol.SerializeIpv4 | tools/net_mhm_itf/src/protocol.hpp:230-256 | raises exactly when the length is below 20; otherwise the first 20 bytes are the header and the rest of the buffer is untouched |
| Protocol.Ipv4ParseOfBytes | tools/net_mhm_itf/src/protocol.hpp:216-256 | parsing the 20 serialized bytes gives the header back |
| Protocol.Ipv4ParseOfSerialize | tools/net_mhm_itf/src/protocol.hpp:216-256 | parsing what `serialize` wrote gives the header back |
| Protocol.Ipv4BytesOfParse | tools/net_mhm_itf/src/protocol.hpp:216-256 | serializing a parsed header reproduces the 20 bytes it was read from |
| Protocol.Ipv4SerializeOfParse | tools/net_mhm_itf/src/protocol.hpp:216-256 | serializing a parsed header into its own bytes changes nothing |
| Protocol.Ipv4Version | tools/net_mhm_itf/src/protocol.hpp:258-261 | the version is the high nibble of `version_ihl` |
| Protocol.Ipv4HeaderLength | tools/net_mhm_itf/src/protocol.hpp:263-266 | a multiple of 4 up to 60 |
| Protocol.Ipv4NibblesRecompose | tools/net_mhm_itf/src/protocol.hpp:258-266 | the two getters split `version_ihl` without losing a bit |
| Protocol.ParseIpv6Fixed | tools/net_mhm_itf/src/protocol.hpp:283-287 | the four fixed fields need 8 unread bytes and are read big-endian at the cursor |
| Protocol.ParseIpv6 | tools/net_mhm_itf/src/protocol.hpp:280-290 | succeeds exactly when 40 bytes are unread; the header is the RFC 8200 layout at the cursor, which advances 40 |
| Protocol.Ipv6Bytes | tools/net_mhm_itf/src/protocol.hpp:298-307 | `serialize` stores 40 bytes |
| Protocol.SerializeIpv6 | tools/net_mhm_itf/src/protocol.hpp:292-308 | raises exactly when the length is below 40; otherwise the first 40 bytes are the header and the rest is untouched |
| Protocol.Ipv6ParseOfSerialize | tools/net_mhm_itf/src/protocol.hpp:280-308 | parsing what `serialize` wrote gives the header back |
| Protocol.Ipv6SerializeOfParse | tools/net_mhm_itf/src/protocol.hpp:280-308 | serializing a parsed header reproduces its 40 bytes |
| Protocol.Ipv6Version | tools/net_mhm_itf/src/protocol.hpp:310-313 | a 4-bit version |
| Protocol.Ipv6VersionOfBytes | tools/net_mhm_itf/src/protocol.hpp:310-313 | the version is the high nibble of the header's first byte |
| Interface.Received | tools/net_mhm_itf/src/binary_parser.cpp:36-51 | a successful device read gives an owning fixed buffer of 1518 bytes holding the frame, cursor at 0 |
| Interface.ReadIpv6Payload | tools/net_mhm_itf/src/interface.cpp:369-377 | succeeds exactly when the IPv6 header is there and its payload length equals the bytes left after it; a short header is a read error, a mismatch a runtime error |
| Interface.ReadArpPayload | tools/net_mhm_itf/src/interface.cpp:378-385 | succeeds exactly when the ARP header fits and ends the data; trailing bytes are a runtime error |
| Interface.ReadPacket | tools/net_mhm_itf/src/interface.cpp:360-392 | fewer than 14 bytes is a read error; an accepted packet's Ethernet header is the frame's first bytes, and an accepted ARP packet has EtherType 0x0806, a header ending exactly at the end of the data, and the parser at the end |
| Interface.ReadPacketIpv4 | tools/net_mhm_itf/src/interface.cpp:365-368 | an IPv4 frame is accepted after the Ethernet header alone |
| Interface.ReadPacketIpv6 | tools/net_mhm_itf/src/interface.cpp:369-377 | an IPv6 frame is accepted or refused exactly as its IPv6 part is |
| Interface.ReadPacketArp | tools/net_mhm_itf/src/interface.cpp:378-385 | an ARP frame is accepted or refused exactly as its ARP part is |
| Interface.ReadPacketUnsupported | tools/net_mhm_itf/src/interface.cpp:386-387 | every other EtherType raises "Unsupported protocol" with that type |
| Interface.ArpIpText | tools/net_mhm_itf/src/interface.cpp:419-441 | an ARP address is rendered exactly when its length is 4 or 16; any other length raises "Unsupported adress length" |
| Interface.PrintPacketAsWritten | tools/net_mhm_itf/src/interface.cpp:403-496 | as written, every IPv4 packet falls through to the IPv6 rendering of addresses that were never set; an IPv6 packet prints its IPv6 addresses; only an ARP packet whose protocol length is neither 4 nor 16 raises |
| Interface.Ipv4Addresses | tools/net_mhm_itf/src/protocol.hpp:216-228 | the destination and source address bytes of a frame are the `dest_ip` and `source_ip` fields of the IPv4 header after the Ethernet header |
| Interface.PrintPacket | tools/net_mhm_itf/src/interface.cpp:403-496 | corrected: an IPv4 packet prints the addresses of its IPv4 header, an IPv6 packet those of its IPv6 header; printing fails exactly for an ARP packet whose protocol length is neither 4 nor 16 |
| Interface.PrintAgreesOffIpv4 | tools/net_mhm_itf/src/interface.cpp:403-496 | for IPv6 and ARP packets the corrected print is the print as written |
| Interface.Ipv4FrameReadsUnset | tools/net_mhm_itf/src/interface.cpp:365-368 | every frame with EtherType 0x0800 is accepted, and printing it as written reads the unset IPv6 addresses, where the corrected print renders bytes 30-33 and 26-29 |
| Interface.ReplyBytes | tools/net_mhm_itf/src/interface.cpp:539-545 | the reply is as long as the request, or 34 + plen when that is longer |
| Interface.ReplyFields | tools/net_mhm_itf/src/interface.cpp:539-545 | for `hlen == 6`, field by field: destination MAC = sender MAC of the request, source MAC = local MAC, operation 2, the sender hardware and IP fields kept, target MAC = local MAC, the rest unchanged (the IP fields are not swapped) |
| Interface.PatchesGiveReply | tools/net_mhm_itf/src/interface.cpp:539-545 | the three setters applied to the clone in the source's order produce `ReplyBytes` |
| Interface.FinishReply | tools/net_mhm_itf/src/interface.cpp:543-545 | after `set_src_mac`, `set_dest_mac` then `set_operation` leave a buffer holding `ReplyBytes` |
| Interface.PatchReply | tools/net_mhm_itf/src/interface.cpp:539-545 | the setters succeed exactly when the request reaches offset `28 + plen`, and then produce `ReplyBytes` |
| Interface.ArpFrameFacts | tools/net_mhm_itf/src/interface.cpp:360-392 | an ARP frame read from the device has the ARP layout, and its protocol length, operation and target address are the frame's bytes 19, 20-21 and the target field |
| Interface.ArpFrameOfLayout | tools/net_mhm_itf/src/interface.cpp:360-392 | a frame with the ARP layout is read as an ARP packet |
| Interface.ArpLayoutIff | tools/net_mhm_itf/src/interface.cpp:360-392 | a frame is read as ARP exactly when its bytes have the ARP layout |
| Interface.ReadFacts | tools/net_mhm_itf/src/interface.cpp:360-392 | every accepted frame is described by its bytes as `ReadsAs` states |
| Interface.CloneRereads | tools/net_mhm_itf/src/interface.cpp:614-619 | cloning the parser of a read ARP frame gives back the freshly received buffer |
| Interface.CloneOfReceived | tools/net_mhm_itf/src/binary_parser.cpp:61-70 | the clone of a received frame does not depend on its cursor |
| Interface.Reply | tools/net_mhm_itf/src/interface.cpp:539-548 | the reply to an ARP frame exists exactly when the frame reaches offset `28 + plen`, and is then `ReplyBytes` |
| Interface.Answer | tools/net_mhm_itf/src/interface.cpp:536-547 | answering writes exactly one frame and leaves the broadcast table alone |
| Interface.Decide | tools/net_mhm_itf/src/interface.cpp:526-569 | a rebroadcast is decided only for the frame's own sender, and only when that sender is due |
| Interface.Perform | tools/net_mhm_itf/src/interface.cpp:547-567 | the table only gains senders, and an entry that changes is set to `now` |
| Interface.Respond | tools/net_mhm_itf/src/interface.cpp:525-570 | the same table discipline for everything `run` does after a read |
| Interface.Step | tools/net_mhm_itf/src/interface.cpp:509-573 | the same table discipline for one pass over a device frame |
| Interface.StepThroughRespond | tools/net_mhm_itf/src/interface.cpp:509-524 | a frame `read_packet` rejects ends the loop with that exception; an accepted one goes on to the response |
| Interface.RespondNotArp | tools/net_mhm_itf/src/interface.cpp:525-526 | IPv4 and IPv6 frames write nothing and leave the table alone; for IPv4 this holds with the corrected `Interface.PrintPacket`, since the print as written reads unset addresses first |
| Interface.RespondUnsupportedLength | tools/net_mhm_itf/src/interface.cpp:463-479 | an ARP frame whose protocol length is neither 4 nor 16 ends the loop with "Unsupported adress length" |
| Interface.DecideNotBroadcast | tools/net_mhm_itf/src/interface.cpp:530 | an ARP frame not sent to ff:ff:ff:ff:ff:ff is ignored |
| Interface.DecideReply | tools/net_mhm_itf/src/interface.cpp:534-548 | a broadcast request for the local IP is answered |
| Interface.DecideRebroadcast | tools/net_mhm_itf/src/interface.cpp:549-568 | any other broadcast is written back exactly when its sender was never seen or was last written more than 1000 ms ago |
| Interface.AnswerIsReply | tools/net_mhm_itf/src/interface.cpp:539-547 | the answer is `ReplyBytes` with the parsed local MAC, or the MAC parse error, or the read error of a short frame |
| Loop.UpToNul | tools/net_mhm_itf/src/interface.cpp:594 | `std::string(buffer)` keeps the prefix before the first NUL |
| Loop.Gather | tools/net_mhm_itf/src/interface.cpp:584-610 | text not ending a line is kept; a complete line is dropped and yields at most one frame |
| Loop.ProcessStdin | tools/net_mhm_itf/src/interface.cpp:577-612 | the buffer never exceeds 2999 characters; an empty read changes nothing; a chunk not ending a line is appended; a chunk ending a line empties the buffer |
| Loop.StdinFrameFits | tools/net_mhm_itf/src/interface.cpp:590-594 | every frame decoded from standard input fits the 1500-byte array |
| Loop.StdinLineRoundTrip | tools/net_mhm_itf/src/interface.cpp:577-612 | a frame typed as uppercase hex on a line of its own is written as exactly that frame |
| Loop.StdinChunking | tools/net_mhm_itf/src/interface.cpp:580-586 | a line arriving in two chunks has the effect of one chunk |
| Loop.StdinStall | tools/net_mhm_itf/src/interface.cpp:580 | once 2999 characters are held without a newline, nothing more is ever taken in |
| Loop.FrameHandler | tools/net_mhm_itf/src/interface.cpp:509-512 | a frame is truncated to 1518 bytes by the device read and then handled by `Step` |
| Loop.FrameHandlerKeepsSenders | tools/net_mhm_itf/src/interface.cpp:552-566 | the handler of `run` never drops a sender from the broadcast table |
| Loop.Pass | tools/net_mhm_itf/src/interface.cpp:505-519 | a pass keeps the buffer bound and never takes back a written frame; a pass without device data always succeeds and leaves the table alone |
| Loop.Run | tools/net_mhm_itf/src/interface.cpp:498-575 | a run keeps the stdin buffer bound |
| Loop.RunAppend | tools/net_mhm_itf/src/interface.cpp:505-574 | running two event sequences one after the other is running their concatenation, and an exception ends the run |
| Loop.RunExtends | tools/net_mhm_itf/src/interface.cpp:498-575 | over a whole run the table never loses a sender and written frames are never taken back |
| Loop.TypedFrame | tools/net_mhm_itf/src/interface.cpp:577-612 | with an idle device and empty input, a typed hex line is written as that frame and nothing else changes |
| Loop.IdleLine | tools/net_mhm_itf/src/interface.cpp:580-586 | with nothing gathered and nothing waiting, arriving text that fits is taken in as one chunk |
| HlsText.Trim | playback/playback_test/src/hls_parser.cpp:281-286 | empty exactly when the line is all blanks; otherwise it begins and ends with a non-blank |
| HlsText.TrimUnique | playback/playback_test/src/hls_parser.cpp:281-286 | the trim is the unique infix between two blank margins whose ends are non-blank |
| HlsText.TrimIdempotent | playback/playback_test/src/hls_parser.cpp:281-286 | trimming twice is trimming once |
| HlsText.BaseUri | playback/playback_test/src/hls_parser.cpp:119-128 | a prefix of the URI, empty only for an empty URI; with a '/' it ends at the last '/', and without one it is the whole URI |
| HlsText.BaseUriIdempotent | playback/playback_test/src/hls_parser.cpp:119-128 | the base of a base is itself |
| HlsText.ResolveUri | playback/playback_test/src/hls_parser.cpp:244-278 | fails (the `nullptr` return) exactly when there is no next line |
| HlsText.ResolveShape | playback/playback_test/src/hls_parser.cpp:251-271 | an absolute trimmed line is returned as is; otherwise the result starts with the base and ends with the trimmed line, and a '/' is inserted exactly when neither side provides one |
| HlsText.StrToInt | playback/playback_test/src/hls_parser.cpp:182-189 | `strtol` in base 10 with a range: the result lies in the range; otherwise `invalid_argument` or `out_of_range`; `StrToIntReads` and `StrToIntNoDigits` pin what it reads |
| HlsText.StrToIntReads | playback/playback_test/src/hls_parser.cpp:182-189 | blanks, an optional sign, a run of digits and anything after it read as the run's signed value, or `out_of_range` outside the range |
| HlsText.StrToIntNoDigits | playback/playback_test/src/hls_parser.cpp:182-189 | blanks and a sign followed by no digit raise `invalid_argument` |
| HlsText.Stoi | playback/playback_test/src/hls_parser.cpp:189 | `std::stoi` returns an `int` |
| HlsText.Stol | playback/playback_test/src/hls_parser.cpp:182 | `std::stol` returns a `long` |
| HlsText.StoiOfDecimal | playback/playback_test/src/hls_parser.cpp:189 | `stoi` reads back the decimal digits of any value up to `INT_MAX` |
| HlsText.ExtractSequenceNumber | playback/playback_test/src/constants.hpp:50-66 | a successful result lies in 0..`INT_MAX`; when it fails and what it reads are stated by `HlsText.SequenceSuffixIff` and `HlsText.SequenceOfDigits` |
| HlsText.SequenceOfStem | playback/playback_test/src/constants.hpp:25 | the number of `-(\d+)` at the end of the stem lies in 0..`INT_MAX` |
| HlsText.StemIgnoresPrefix | playback/playback_test/src/constants.hpp:25 | text before a stem that starts with '-' does not change its match |
| HlsText.SequenceOfName | playback/playback_test/src/constants.hpp:25-66 | any URI `<anything>-<n>.ts` with `n` up to `INT_MAX` has sequence number `n` |
| HlsText.SequenceSuffixIff | playback/playback_test/src/constants.hpp:50-66 | the "Failed to find sequence number" `runtime_error` is raised exactly when the URI does not end in `-<digits>.ts`; every success has that suffix |
| HlsText.SequenceOfDigits | playback/playback_test/src/constants.hpp:50-66 | for `<anything>-<digits>.ts`, leading zeros included, the result is the value of the digits, or `out_of_range` when it exceeds `INT_MAX` |
| HlsText.SequenceIgnoresPrefix | playback/playback_test/src/constants.hpp:50-66 | whatever precedes a suffix starting with '-' does not change the result |
| Hls.Fresh | playback/playback_test/src/hls_parser.hpp:70-87 | a new parser has no segments or variants, is marked master, and uses the given refresh interval |
| Hls.ToInt32 | playback/playback_test/src/hls_parser.cpp:183 | the store of a `long` into an `int` keeps the value modulo `2^32` in the `int` range, and keeps every value already in range |
| Hls.Bandwidth | playback/playback_test/src/hls_parser.cpp:155-173 | with no `BANDWIDTH` token the bandwidth is unchanged; a `stoi` failure on a bandwidth value ends the parse |
| Hls.BandwidthOfDecimal | playback/playback_test/src/hls_parser.cpp:153-173 | the attribute list `BANDWIDTH=<n>` sets the bandwidth to `n` |
| Hls.BandwidthKey | playback/playback_test/src/hls_parser.cpp:157-163 | in `BANDWIDTH=<value>` the '=' is at 9 and the trimmed key is `BANDWIDTH` |
| Hls.BandwidthSingle | playback/playback_test/src/hls_parser.cpp:157-166 | a single bandwidth token sets the bandwidth to `stoi` of its value |
| Hls.NextLine | playback/playback_test/src/hls_parser.cpp:248 | `getline` yields the next line exactly when one remains |
| Hls.LastSequence | playback/playback_test/src/hls_parser.cpp:210-213 | -1 without segments, otherwise the last segment's number |
| Hls.Classify | playback/playback_test/src/hls_parser.cpp:142-196 | each branch is taken only when its tag is a prefix of the line, in the source's order of tests |
| Hls.HandleLine | playback/playback_test/src/hls_parser.cpp:139-234 | the base URI and the local interfaces of the loop never change; a line handled consumes at most one more line |
| Hls.TargetDuration | playback/playback_test/src/hls_parser.cpp:178-184 | the parse stops exactly when `stol` fails; otherwise the target duration is the value, the refresh interval is its truncated half stored into an `int`, and that half is exact for durations in range |
| Hls.StreamInf | playback/playback_test/src/hls_parser.cpp:149-177 | the playlist is marked master; a variant is added with the bandwidth and resolved URI, or the parse stops with the bandwidth or URI error; the next line is consumed |
| Hls.MediaSegment | playback/playback_test/src/hls_parser.cpp:196-234 | a duration `stod` refuses, a missing URI line or a URI without sequence number stops the parse; a segment equal to the base URI or not numbered above the last is skipped; otherwise exactly that segment is appended |
| Hls.ParseLines | playback/playback_test/src/hls_parser.cpp:133-241 | the base URI never changes during a parse |
| Hls.Parse | playback/playback_test/src/hls_parser.cpp:133-241 | the base URI never changes during a parse |
| Hls.Refresh | playback/playback_test/src/hls_parser.cpp:64-130 | a failed fetch changes nothing; a successful one sets the base URI and parses only a body longer than 10 characters (the URL is non-empty then, since curl refuses an empty one) |
| Hls.AppendIncreasing | playback/playback_test/src/hls_parser.cpp:216-219 | appending a segment numbered above the last keeps the numbers strictly increasing |
| Hls.StreamInfExtends | playback/playback_test/src/hls_parser.cpp:149-177 | a variant line only adds a variant |
| Hls.MediaSegmentExtends | playback/playback_test/src/hls_parser.cpp:196-234 | a segment line adds at most one segment, numbered above the last and carrying its URI's number |
| Hls.HandleLineExtends | playback/playback_test/src/hls_parser.cpp:139-234 | handling one line only extends the playlist |
| Hls.ParseLinesExtends | playback/playback_test/src/hls_parser.cpp:133-241 | `parse` removes nothing, and the segment numbers stay strictly increasing and match their URIs, even when the parse stops on an exception |
| Hls.RefreshesKeepIncreasing | playback/playback_test/src/hls_parser.cpp:64-89 | round after round of `parseFromURI`, the segment list only grows and its numbers stay strictly increasing, so no segment is ever taken twice |
| Hls.RefreshExtends | playback/playback_test/src/hls_parser.cpp:64-130 | one round only extends the segments and variants |
| Hls.UriLineIgnored | playback/playback_test/src/hls_parser.cpp:142 | a line that is not empty and does not start with '#' after trimming is skipped |
| Hls.TagLineTrimmed | playback/playback_test/src/hls_parser.cpp:141 | a tag line ending in a non-blank is its own trim |
| Hls.StandardDiscontinuityIgnored | playback/playback_test/src/hls_parser.cpp:21 | the standard `#EXT-X-DISCONTINUITY` line, without a colon, matches no branch and changes nothing |
| Hls.ClassifyTargetDuration | playback/playback_test/src/hls_parser.cpp:178 | whatever follows `#EXT-X-TARGETDURATION:`, the line takes that branch |
| Hls.ClassifyExtInf | playback/playback_test/src/hls_parser.cpp:196 | whatever follows `#EXTINF:`, the line takes the segment branch |
| Hls.ClassifyStreamInf | playback/playback_test/src/hls_parser.cpp:149 | whatever follows `#EXT-X-STREAM-INF:`, the line takes the variant branch |
| Hls.TargetDurationLine | playback/playback_test/src/hls_parser.cpp:178-184 | `#EXT-X-TARGETDURATION:<n>` sets the target duration to `n` and the refresh interval to `n/2` when that fits an `int` |
| Hls.StolOfDecimal | playback/playback_test/src/hls_parser.cpp:182 | `stol` reads back the digits of a value up to `LONG_MAX` |
| Hls.SegmentAcceptance | playback/playback_test/src/hls_parser.cpp:196-234 | an accepted duration followed by a URI line whose resolution carries a number: the segment is appended exactly when it is not the base URI and its number exceeds the last one |
| Hls.ExtInfLine | playback/playback_test/src/hls_parser.cpp:196-200 | a trimmed `#EXTINF:` line is handled as a segment line with the rest of the line as its duration |
| Hls.SegmentNotRepeated | playback/playback_test/src/hls_parser.cpp:216-232 | a segment numbered at or below the last kept one is never appended again |
| Hls.VariantLine | playback/playback_test/src/hls_parser.cpp:149-177 | `#EXT-X-STREAM-INF:` followed by a URI line adds one variant with the attributes' bandwidth and the resolved URI |
| Traffic.Start | tools/network_monitor/src/packet_processor.cpp:45-70 | the processor starts with the local addresses, no clients and zero totals |
| Traffic.IsIncoming | tools/network_monitor/src/packet_processor.cpp:82-92 | incoming exactly when the address is one of the local addresses |
| Traffic.FindClient | tools/network_monitor/src/packet_processor.cpp:102-108 | the first client with the key, or the end of the list when there is none |
| Traffic.NewClient | tools/network_monitor/src/packet_processor.cpp:14-24 | a new client has the key, the peer and all counters at zero |
| Traffic.ClientFor | tools/network_monitor/src/packet_processor.cpp:100-112 | the result has the key and is its first occurrence; an existing key leaves the list alone, and a new key appends one fresh client at the end |
| Traffic.ClientForUnique | tools/network_monitor/src/packet_processor.cpp:100-112 | `getClientForIp` never creates a second client for a key |
| Traffic.HeaderLength | tools/network_monitor/src/packet_processor.cpp:129 | `ip_hl * 4` is a multiple of 4 up to 60 |
| Traffic.TotalLengthAsWritten | tools/network_monitor/src/packet_processor.cpp:130 | `ip_len` as read, without `ntohs`, is a 16-bit value |
| Traffic.TotalLength | tools/network_monitor/src/packet_processor.cpp:130 | the IPv4 total length is a 16-bit value |
| Traffic.PayloadLengthDeclared | tools/network_monitor/src/packet_processor.cpp:128-130 | with the byte order corrected, the payload length is the declared total length minus `4 * ihl` |
| Traffic.PayloadLengthSwapped | tools/network_monitor/src/packet_processor.cpp:130 | a 60-byte datagram with a 20-byte header counts 15340 bytes as written, against 40 when corrected |
| Traffic.ProcessPacket | tools/network_monitor/src/packet_processor.cpp:114-154 | a frame shorter than 34 bytes or not IPv4 changes nothing; the local addresses and the packet counters never change; any other frame is credited with the payload as written, `ip_len` without `ntohs` minus `ip_hl*4` (`IncomingFrame`, `OutgoingFrame`) |
| Traffic.Account | tools/network_monitor/src/packet_processor.cpp:136-153 | crediting a payload keeps the local addresses and the packet counters |
| Traffic.AccountIncoming | tools/network_monitor/src/packet_processor.cpp:136-144 | a frame to a local address adds the payload to the received total and `1 + payload` to the received period, and credits the client keyed by the destination as sender |
| Traffic.AccountOutgoing | tools/network_monitor/src/packet_processor.cpp:145-153 | any other frame adds the payload to the sent total and `1 + payload` to the sent period, and credits the client keyed by the source as receiver |
| Traffic.ProcessPacketCorrected | tools/network_monitor/src/packet_processor.cpp:114-154 | with `ntohs`: the same filtering, and the local addresses and packet counters kept |
| Traffic.CorrectedCountsDeclared | tools/network_monitor/src/packet_processor.cpp:128-144 | with `ntohs`, an incoming frame adds exactly the declared total length minus `4 * ihl` |
| Traffic.ProcessPacketSwapped | tools/network_monitor/src/packet_processor.cpp:130-142 | an incoming 60-byte datagram with a 20-byte header adds 15340 to the received total as written, and 40 with `ntohs` |
| Traffic.ClientPrint | tools/network_monitor/src/packet_processor.cpp:26-43 | either way the client's period counters end at zero and nothing else changes |
| Traffic.Print | tools/network_monitor/src/packet_processor.cpp:182-206 | every period counter is reset, for the processor and for each client; totals, clients and local addresses are kept |
| Traffic.PrintClients | tools/network_monitor/src/packet_processor.cpp:192-195 | each client is printed in place |
| Traffic.IncomingFrame | tools/network_monitor/src/packet_processor.cpp:128-144 | a frame to a local address adds the payload as written (`ip_len` unswapped minus `ip_hl*4`) to the received total and `1 + payload` to the received period, and credits the client keyed by the destination as sender |
| Traffic.OutgoingFrame | tools/network_monitor/src/packet_processor.cpp:128-153 | any other frame adds the same payload as written to the sent total and `1 + payload` to the sent period, and credits the client keyed by the source as receiver |
| Traffic.ClientForSums | tools/network_monitor/src/packet_processor.cpp:100-112 | finding or creating a client does not change the sums of the client counters |
| Traffic.ProcessPacketKeeps | tools/network_monitor/src/packet_processor.cpp:136-153 | after each packet, the clients' sent bytes still add up to the processor's received total and their received bytes to its sent total, with keys unique |
| Traffic.AccountKeeps | tools/network_monitor/src/packet_processor.cpp:136-153 | crediting any payload keeps the balance and the unique keys |
| Traffic.ProcessPacketCorrectedKeeps | tools/network_monitor/src/packet_processor.cpp:136-153 | the corrected reading keeps them too |
| Traffic.PrintKeeps | tools/network_monitor/src/packet_processor.cpp:182-206 | `print` keeps that balance and the unique keys |
| Traffic.PrintSums | tools/network_monitor/src/packet_processor.cpp:192-195 | printing the clients keeps their totals |
| Traffic.Replay | tools/network_monitor/src/packet_processor.cpp:114-206 | a sequence of packets and prints never changes the local addresses |
| Traffic.RunKeeps | tools/network_monitor/src/packet_processor.cpp:114-206 | over any sequence of packets and prints, the balance and the unique keys hold |
| Traffic.StartBalanced | tools/network_monitor/src/packet_processor.cpp:45-48 | the processor starts balanced with unique keys |

## Left out

- Device and system set-up (`createInterface`, `get_mac`, `set_mac_address`, `add_to_bridge`, `add_ip_address`, `add_default_route`, `bring_up_interface`, `set_non_blocking`) are left out: they are ioctl calls into the kernel.
- The worker threads, mutexes, the destructors and `stop_running` are left out. The model is sequential, and a run ends only with an exception or when the events run out.
- `from_file_descripto`'s error branch is left out: a failed read is "no data" (`Loop.Event.NoData`). The condition `errno == EAGAIN \|\| errno == EWOULDBLOCK \|\| ENOENT` is always true, so a read error never reaches the `runtime_error`.
- `Interface.Received` takes frames of up to 1518 bytes; the device read truncates longer ones (`Loop.FrameHandler`).
- Fresh storage from `malloc` holds zeros in the model (`Buffers.Zeros`), because its real contents are unspecified.
- `write_packet` and the stdin `write` are treated as always succeeding: the source only logs a short write.
- `rdouble`, `rfloat`, `rfloat_le`, `wdouble`, `wfloat` and `wfloat_le` are left out: floating point is not modelled.
- `debug`, `todbgstr` and the logger calls are left out: they are diagnostics only.
- `ReaderCache`, `IOStream`, `FileInterface` and `WriteInterface::wb` are left out: they are file I/O outside the core.
- `inet_ntop` and `inet_ntoa` are a function parameter (`Interface.ArpIpText`), or addresses are compared as their four bytes (`Traffic`); the dotted text is one-to-one with the bytes.
- Interface.PrintPacketAsWritten: the read of the unset IPv6 address pointers for an IPv4 frame is undefined behaviour, modelled only as the outcome `UnsetAddresses`, not as any text. The packet object is reused between frames, so the pointers may also be left over from an earlier IPv6 frame; that is not modelled.
- Interface.PrintPacket: the corrected IPv4 rendering prints nothing when the frame is too short to hold an IPv4 header; the commented-out code would read past the data.
- TextCodec.MacStringToBytes and Interface.Config.Valid: the MAC text is restricted to at most six (`MacStringToBytes`) and exactly six (`Config.Valid`) ':'-separated pieces, though `-m` accepts any text. With more pieces `mac_string_to_bytes` writes past its 6-byte allocation, and with fewer the reply copies bytes that were never set. Both are undefined behaviour and are excluded rather than modelled.
- `ethernet_type_to_str` is left out; it only produces log text.
- `Protocol.ParseArp` and `Protocol.ParseIpv6` state their failures only as `BufferReadError` of some amount, not the exact amount of each read.
- The reverse DNS name of a network client (`ip_to_hostname`) is left out; it is not part of the accounting.
- The speeds and averages in both `print` functions are left out: they are divisions by clock readings used only for logging.
- Overflow of the `long` counters of the traffic monitor is not modelled.
- `HLSManifestParser` threads and `waitForParsingToComplete` are left out. The refresh sleep and `started_timestamp` are left out too, because they depend on the clock.
- curl is a parameter: a fetch result is `Option<string>`. A curl error and a failed `curl_easy_init` are both `None`; the `runtime_error` from the latter is caught by `parseFromURI` and changes nothing in either case.
- Hls.StodAccepts: `std::stod` is modelled only as whether it accepts the text (optional blanks and sign, then a digit or '.' and a digit). Hex floats, `inf`/`nan` and overflow are not modelled, and the declared duration is not kept.
- The decoders and the playback pipeline (`Decoder`, `Encoder`, `queue`, `log_parser`, `main`) are left out: they are FFmpeg and CLI code outside the core.
- `resolveUri` returning `nullptr` constructs a `std::string` from a null pointer; the model raises `NullString`, ending the parse as that exception does.
- HlsText.IsAbsolute: the regex `.` is taken to match every character except `\n` and `\r`.
- HlsText.Stoi and HlsText.Stol state only the result range in their own contracts; what they read is stated by `HlsText.StrToIntReads` and `HlsText.StrToIntNoDigits`, and digit strings read back by `HlsText.StoiOfDecimal` and `Hls.StolOfDecimal`.
- TextCodec.Stoul16 and HlsText.StrToInt: the grammar lemmas do not cover text whose sign is followed by a second sign or a blank; the definitions read such text as no number, as `strtoul`/`strtol` do.
- Interface.Decide: `run` reads `get_utc()` twice, once for the 1000 ms comparison and once for the stored time; the model uses one `now` for both, so time passing between the two reads is not modelled.
- Buffers.ReadBytes, Buffers.ReadBytesAtMost, Buffers.BorByte, Buffers.ConsumeBytes and Buffers.BytesAppended (with their as-written versions) take amounts and positions as `nat`, where the source takes `int64_t`; a negative amount, which would move the cursor or the length backwards, is not modelled. Every caller in the core passes a non-negative amount.
- `realloc` failure is left out: `Buffers.Write`, `Buffers.ReserveFromPosition` and `MemoryBuffers.ReserveFromEnd` take allocation to succeed, so the `ErrorBase` they would throw is never raised.
- The RESOLUTION attribute of a variant is ignored, as in the source.
- network_monitor's `monitor` (pcap) and `main` are left out: a captured packet is an event of `Traffic.Replay`.

Behaviour the model keeps as written:

- `EXT_X_DISCONTINUITY` is spelled with a trailing colon, so the standard tag line is ignored (`Hls.StandardDiscontinuityIgnored`).
- `masterPlaylist` starts true.
- `setUri` extracts the sequence number before the base-URI comparison, so an empty URI line after `#EXTINF:` raises unless the base URI itself ends in `-<n>.ts`.
- The traffic monitor keys a client by the destination of an incoming packet and by the source of an outgoing one, which is usually the local address in both cases.
- The packet counters of the traffic monitor are never incremented.
- `processPacket` uses `ip_len` without `ntohs` (`Traffic.ProcessPacket`, `Traffic.ProcessPacketSwapped`); the corrected `Traffic.ProcessPacketCorrected` keeps the same balance (`Traffic.ProcessPacketCorrectedKeeps`).
- The ARP reply does not swap the IP fields.
- The MAC setters assume a 6-byte hardware address.
- Standard input stalls once 2999 characters arrive without a newline (`Loop.StdinStall`).

## Findings

| source | as written | input that shows it | evidently intended | confidence | as-written member | corrected member |
|---|---|---|---|---|---|---|
| tools/net_mhm_itf/src/binary_parser.cpp:78-82 | `hex(pos, len)` checks only `pos`, then copies `len` bytes | `ARPHeader::parse` logs `hex(14, 1518)` on a full 1518-byte frame: 14 bytes past the allocation | refuse a range that does not lie within the data | not executed | Buffers.HexGuardAdmitsOverRead | Buffers.Hex |
| tools/net_mhm_itf/src/binary_parser.cpp:549-552 | `bor_byte` refuses only `pos > allocated` | `pos == allocated` ORs into the byte one past the storage | refuse `pos >= allocated` | not executed | Buffers.BorByteGuardAdmitsEnd | Buffers.BorByte |
| tools/net_mhm_itf/src/binary_parser.cpp:764-770 | `consume_bytes` moves the cursor before the capacity check | capacity 0, `consume_bytes(1)`: raises with the cursor left at 1 | check first, leave the buffer unchanged on error | not executed | Buffers.ConsumeBytesAsWritten | Buffers.ConsumeBytes |
| tools/net_mhm_itf/src/binary_parser.cpp:772-778 | `bytes_appended` grows the length before the capacity check | capacity 0, `bytes_appended(1)`: raises with length 1 | check first, leave the buffer unchanged on error | not executed | Buffers.BytesAppendedAsWritten | Buffers.BytesAppended |
| tools/network_monitor/src/packet_processor.cpp:130 | `ip_len` is used without `ntohs` | on a little-endian host, total length 60 with a 20-byte header (bytes 0x00 0x3C) counts 15340 payload bytes | `ntohs(ip_len) - ip_hl*4` = 40 | not executed | Traffic.ProcessPacketSwapped | Traffic.CorrectedCountsDeclared |
| tools/net_mhm_itf/src/interface.cpp:403-461 | the IPv4 cases of `get_src_ip`/`get_dst_ip` hold only commented-out code and no `break`, so they fall into the IPv6 case and call `inet_ntop` on `ipv6_header` pointers that `read_packet` never set | any IPv4 frame, e.g. 14 bytes with EtherType 0x0800, which `run` prints right after reading it | render the IPv4 header's addresses as the commented-out `inet_ntoa` code does | not executed | Interface.Ipv4FrameReadsUnset | Interface.PrintPacket |

=== FILE: buffer.dfy ===
/** The cursor-based byte buffer of the packet stack.

    One record models both C++ classes: a `Fixed` buffer is a `BufferMixin`
    (given memory, every overflow raises), a `Growable` one is a
    `MemoryBuffer` (writes reallocate instead of raising). The allocated size
    is the length of `storage`; `written` is `_bytes_written` and `position`
    is `_position`.
 */
module Buffers {
  import opened Bytes
  import opened Errors
  import TextCodec

  /** `_CHUNK_SIZE_`: the slack a `MemoryBuffer` adds whenever it grows. */
  const CHUNK_SIZE := 8192

  datatype Policy = Fixed | Growable

  datatype Buffer = Buffer(storage: seq<Byte>, written: int, position: int, owning: bool, policy: Policy)
  {
    /** `0 <= position <= bytes_written <= bytes_allocated`. */
    predicate Valid() {
      0 <= position <= written <= |storage|
    }

    function Allocated(): int { |storage| }
    function BytesLeft(): int { written - position }
    function CapacityLeft(): int { |storage| - written }
    function Len(): int { written }
    function Tell(): int { position }

    /** The useful data, `storage[0 .. len())`. */
    function Data(): seq<Byte>
      requires Valid()
    {
      storage[..written]
    }

    /** The bytes still to be read, `start_of_data() .. end_of_data()`. */
    function Unread(): seq<Byte>
      requires Valid()
    {
      storage[position..written]
    }
  }

  function Zeros(n: nat): (r: seq<Byte>)
    ensures |r| == n
  {
    seq(n, _ => 0)
  }

  /** The accessors partition the allocation: what was read, what is left to
      read, and the free capacity add up to the allocated size. */
  lemma AccessorsPartition(b: Buffer)
    requires b.Valid()
    ensures b.Tell() >= 0 && b.BytesLeft() >= 0 && b.CapacityLeft() >= 0
    ensures b.Tell() + b.BytesLeft() == b.Len()
    ensures b.Len() + b.CapacityLeft() == b.Allocated()
    ensures |b.Unread()| == b.BytesLeft() && b.Data() == b.storage[..b.position] + b.Unread()
  {
  }

  // ---------------------------------------------------------------------------
  // Construction, cursor movement
  // ---------------------------------------------------------------------------

  /** `from_external_memory`: borrows `memory` (not owning) with `dataSize`
      bytes of data and the cursor at 0; the sizes are not checked. */
  function FromExternalMemory(memory: seq<Byte>, dataSize: int): (r: Buffer)
    ensures r.Valid() <==> 0 <= dataSize <= |memory|
    ensures r.storage == memory && r.Len() == dataSize && r.Tell() == 0
    ensures !r.owning && r.policy == Fixed
  {
    Buffer(memory, dataSize, 0, false, Fixed)
  }

  /** `seek`: refuses a position past the data; anything else (even a negative
      position) is stored as is. */
  function Seek(b: Buffer, p: int): (r: Result<Buffer>)
    ensures r.Ok? <==> p <= b.written
    ensures r.Err? ==> r.error == BufferReadError(p - b.written)
    ensures r.Ok? ==> r.value.position == p && r.value == b.(position := p)
    ensures r.Ok? && b.Valid() ==> (r.value.Valid() <==> p >= 0)
  {
    if p > b.written then Err(BufferReadError(p - b.written)) else Ok(b.(position := p))
  }

  /** `clear`: forgets the data but keeps storage and capacity. */
  function Clear(b: Buffer): (r: Buffer)
    ensures r.Valid() && r.Len() == 0 && r.Tell() == 0
    ensures r.storage == b.storage && r.owning == b.owning && r.policy == b.policy
  {
    b.(written := 0, position := 0)
  }

  /** `clone`: a fresh owning `BufferMixin` of the same capacity holding a copy
      of the data, read from the start. Bytes past the data are left as `malloc`
      returns them; here they are zero. */
  function Clone(b: Buffer): (r: Buffer)
    requires b.Valid()
    ensures r.Valid() && r.owning && r.policy == Fixed
    ensures r.Allocated() == b.Allocated() && r.Len() == b.Len() && r.Tell() == 0
    ensures r.Data() == b.Data()
  {
    Buffer(b.storage[..b.written] + Zeros(|b.storage| - b.written), b.written, 0, true, Fixed)
  }

  // ---------------------------------------------------------------------------
  // Reads
  // ---------------------------------------------------------------------------

  /** `rbytes`, `rbytes_into` and `rstring` (member versions): exactly `n`
      bytes from the cursor, or `BufferReadError(written - (position + n))`. */
  function ReadBytes(b: Buffer, n: nat): (r: Result<(seq<Byte>, Buffer)>)
    requires b.Valid()
    ensures r.Ok? <==> n <= b.BytesLeft()
    ensures r.Err? ==> r.error == BufferReadError(b.written - (b.position + n))
    ensures r.Ok? ==> r.value.0 == b.Unread()[..n] && r.value.1 == b.(position := b.position + n)
    ensures r.Ok? ==> r.value.0 == b.storage[b.position..b.position + n]
    ensures r.Ok? ==> r.value.1.Valid() && r.value.1.BytesLeft() == b.BytesLeft() - n
  {
    if b.position + n > b.written then Err(BufferReadError(b.written - (b.position + n)))
    else
      UnreadPrefix(b, n);
      Ok((b.storage[b.position..b.position + n], b.(position := b.position + n)))
  }

  /** The first `n` unread bytes are the `n` stored bytes at the cursor. */
  lemma UnreadPrefix(b: Buffer, n: nat)
    requires b.Valid() && n <= b.BytesLeft()
    ensures b.Unread()[..n] == b.storage[b.position..b.position + n]
  {
    assert forall i :: 0 <= i < n ==> b.Unread()[..n][i] == b.storage[b.position + i];
  }

  /** The amount a fixed-width read reports when it would pass the data: `ru8`
      reports 1, the wider readers report the missing byte count. */
  function ReadShortfall(b: Buffer, width: nat): int {
    if width == 1 then 1 else width - b.written + b.position
  }

  /** `ru8` ... `ru64`. The 8-byte reader returns an `int64` built from a
      `uint64`, so its result is the two's complement reading of the 8 bytes
      (the same as `rs64`). */
  function ReadUInt(b: Buffer, width: nat): (r: Result<(int, Buffer)>)
    requires b.Valid() && 1 <= width <= 8
    ensures r.Ok? <==> width <= b.BytesLeft()
    ensures r.Err? ==> r.error == BufferReadError(ReadShortfall(b, width))
    ensures r.Ok? ==> BeBytes(r.value.0, width) == b.Unread()[..width]
    ensures r.Ok? && width < 8 ==> 0 <= r.value.0 < Pow256(width)
    ensures r.Ok? && width == 8 ==> -(Pow256(7) * 128) <= r.value.0 < Pow256(7) * 128
    ensures r.Ok? ==> r.value.1 == b.(position := b.position + width) && r.value.1.Valid()
  {
    if b.position + width > b.written then Err(BufferReadError(ReadShortfall(b, width)))
    else
      var bytes := b.storage[b.position..b.position + width];
      UnreadPrefix(b, width);
      var u := BeValue(bytes);
      BeValueBound(bytes);
      BeBytesOfValue(bytes);
      if width == 8 then
        SignedEncoding(u, 8);
        Ok((ToSigned(u, 8), b.(position := b.position + width)))
      else
        Ok((u, b.(position := b.position + width)))
  }

  /** Below 8 bytes a fixed-width read is the plain big-endian value of the
      bytes at the cursor. */
  lemma ReadUIntIsBeValue(b: Buffer, width: nat)
    requires b.Valid() && 1 <= width < 8 && width <= b.BytesLeft()
    ensures ReadUInt(b, width).value.0 == BeValue(b.Unread()[..width])
    ensures ReadUInt(b, width).value.0 == BeValue(b.storage[b.position..b.position + width])
  {
    UnreadPrefix(b, width);
  }

  /** `ru8` ... `ru56` seen as a big-endian read of the bytes at the cursor. */
  function ReadBe(b: Buffer, width: nat): (r: Result<(int, Buffer)>)
    requires b.Valid() && 1 <= width < 8
    ensures r.Ok? <==> width <= b.BytesLeft()
    ensures r.Err? ==> r == ReadUInt(b, width)
    ensures r.Ok? ==> r.value.0 == BeValue(b.storage[b.position..b.position + width])
    ensures r.Ok? ==> r.value.1 == b.(position := b.position + width) && r.value.1.Valid()
  {
    var (v, b1) :- ReadUInt(b, width);
    ReadUIntIsBeValue(b, width);
    Ok((v, b1))
  }

  /** `rs16` ... `rs64`: sign extension from bit `8*width - 1`. */
  function ReadSInt(b: Buffer, width: nat): (r: Result<(int, Buffer)>)
    requires b.Valid() && 2 <= width <= 8
    ensures r.Ok? <==> width <= b.BytesLeft()
    ensures r.Err? ==> r.error == BufferReadError(width - b.written + b.position)
    ensures r.Ok? ==> BeBytes(r.value.0, width) == b.Unread()[..width]
    ensures r.Ok? ==> -(Pow256(width - 1) * 128) <= r.value.0 < Pow256(width - 1) * 128
    ensures r.Ok? ==> r.value.1 == b.(position := b.position + width) && r.value.1.Valid()
  {
    if b.position + width > b.written then Err(BufferReadError(width - b.written + b.position))
    else
      var bytes := b.storage[b.position..b.position + width];
      UnreadPrefix(b, width);
      var u := BeValue(bytes);
      BeValueBound(bytes);
      BeBytesOfValue(bytes);
      SignedEncoding(u, width);
      Ok((ToSigned(u, width), b.(position := b.position + width)))
  }

  /** The two's complement reading of an in-range unsigned value has the same
      n-byte encoding and lies in the signed range. */
  lemma SignedEncoding(u: int, n: nat)
    requires n >= 1 && 0 <= u < Pow256(n)
    ensures BeBytes(ToSigned(u, n), n) == BeBytes(u, n)
    ensures -(Pow256(n - 1) * 128) <= ToSigned(u, n) < Pow256(n - 1) * 128
  {
    assert Pow256(n) == Pow256(n - 1) * 256;
    var s := ToSigned(u, n);
    if s != u {
      DivModUnique(s, Pow256(n), -1, u);
      DivModUnique(u, Pow256(n), 0, u);
      BeBytesMod(s, n);
      BeBytesMod(u, n);
    }
  }

  /** A signed read is negative exactly when the first byte has its top bit set. */
  lemma SignBit(b: Buffer, width: nat)
    requires b.Valid() && 2 <= width <= 8 && width <= b.BytesLeft()
    ensures ReadSInt(b, width).value.0 < 0 <==> b.storage[b.position] >= 128
  {
    var bytes := b.storage[b.position..b.position + width];
    assert ReadSInt(b, width).value.0 == ToSigned(BeValue(bytes), width);
    SignedNegativeIffTopBit(bytes);
  }

  /** `rbytes_at_most`: up to `max` bytes; `received` is how many were
      returned, and 0 means the data is exhausted (or nothing was asked). */
  function ReadBytesAtMost(b: Buffer, max: nat): (r: (seq<Byte>, Buffer))
    requires b.Valid()
    ensures |r.0| == Min(max, b.BytesLeft())
    ensures |r.0| == 0 <==> max == 0 || b.BytesLeft() == 0
    ensures r.0 == b.Unread()[..|r.0|]
    ensures r.1 == b.(position := b.position + |r.0|) && r.1.Valid()
  {
    var n := if b.position + max > b.written then b.written - b.position else max;
    assert n == Min(max, b.BytesLeft());
    var bytes := b.storage[b.position..b.position + n];
    UnreadPrefix(b, n);
    (bytes, b.(position := b.position + n))
  }

  /** Index of the first zero byte in `s`, or `|s|` when there is none (`memchr`). */
  function FirstZero(s: seq<Byte>): (r: nat)
    ensures r <= |s|
    ensures r < |s| ==> s[r] == 0
    ensures forall i :: 0 <= i < r ==> s[i] != 0
  {
    if |s| == 0 then 0
    else if s[0] == 0 then 0
    else 1 + FirstZero(s[1..])
  }

  /** `rnullterminatedstring`: the bytes before the first NUL of the unread
      data (all of it when there is none). The cursor stops ON the NUL. */
  function ReadNullTerminated(b: Buffer): (r: (seq<Byte>, Buffer))
    requires b.Valid()
    ensures r.1.Valid() && r.1 == b.(position := b.position + |r.0|)
    ensures r.0 == b.Unread()[..|r.0|]
    ensures forall i :: 0 <= i < |r.0| ==> r.0[i] != 0
    ensures r.1.BytesLeft() == 0 || r.1.storage[r.1.position] == 0
  {
    var n := FirstZero(b.Unread());
    (b.Unread()[..n], b.(position := b.position + n))
  }

  /** Because the cursor is left on the terminator, a second C-string read
      returns the empty string and does not move. */
  lemma ReadNullTerminatedTwice(b: Buffer)
    requires b.Valid()
    ensures var (_, b1) := ReadNullTerminated(b); ReadNullTerminated(b1) == ([], b1)
  {
    var (_, b1) := ReadNullTerminated(b);
    if b1.BytesLeft() > 0 {
      assert b1.Unread()[0] == 0;
    }
  }

  /** `needle` occurs in `hay` at offset `i`. */
  predicate OccursAt(hay: seq<Byte>, needle: seq<Byte>, i: int) {
    0 <= i && i + |needle| <= |hay| && hay[i..i + |needle|] == needle
  }

  /** `find_binary` (`memmem` over the unread data): the offset from the
      cursor of the first occurrence of `needle`, or -1. An empty needle is
      found at offset 0. */
  method FindBinary(b: Buffer, needle: seq<Byte>) returns (r: int)
    requires b.Valid()
    ensures r == -1 <==> forall i :: 0 <= i <= |b.Unread()| ==> !OccursAt(b.Unread(), needle, i)
    ensures r != -1 ==> OccursAt(b.Unread(), needle, r)
    ensures r != -1 ==> forall i :: 0 <= i < r ==> !OccursAt(b.Unread(), needle, i)
  {
    var hay := b.Unread();
    var i := 0;
    while i + |needle| <= |hay|
      invariant 0 <= i
      invariant i + |needle| <= |hay| + 1 || i == 0
      invariant forall k :: 0 <= k < i ==> !OccursAt(hay, needle, k)
    {
      if hay[i..i + |needle|] == needle {
        assert OccursAt(hay, needle, i);
        return i;
      }
      i := i + 1;
    }
    return -1;
  }

  // ---------------------------------------------------------------------------
  // Writes
  // ---------------------------------------------------------------------------

  /** The raw store shared by every writer: copy `data` at the cursor, advance
      it, and extend `written` when the cursor passes it. */
  function Put(b: Buffer, data: seq<Byte>): (r: Buffer)
    requires b.Valid() && b.position + |data| <= |b.storage|
    ensures r.Valid() && |r.storage| == |b.storage|
    ensures r.storage[b.position..b.position + |data|] == data
    ensures forall i :: 0 <= i < |b.storage| && !(b.position <= i < b.position + |data|) ==> r.storage[i] == b.storage[i]
    ensures r.position == b.position + |data| && r.written == Max(b.written, r.position)
    ensures r.owning == b.owning && r.policy == b.policy
  {
    var p := b.position + |data|;
    b.(storage := b.storage[..b.position] + data + b.storage[p..], position := p, written := Max(b.written, p))
  }

  /** `MemoryBuffer::reserve_capacity_from_position`: when fewer than `needed`
      bytes fit after the cursor, grow to `needed + position + CHUNK_SIZE`. */
  function ReserveFromPosition(b: Buffer, needed: nat): (r: Buffer)
    requires b.Valid()
    ensures r.Valid() && r.position == b.position && r.written == b.written
    ensures |r.storage| >= |b.storage| && r.storage[..|b.storage|] == b.storage
    ensures |r.storage| >= b.position + needed
    ensures |b.storage| < b.position + needed ==> |r.storage| == b.position + needed + CHUNK_SIZE
    ensures |b.storage| >= b.position + needed ==> r == b
    ensures r.owning == b.owning && r.policy == b.policy
  {
    if |b.storage| < needed + b.position then
      b.(storage := b.storage + Zeros(needed + b.position + CHUNK_SIZE - |b.storage|))
    else b
  }

  /** One write of `data` at the cursor. A fixed buffer raises
      `BufferWriteError(shortfall)` when the bytes do not fit; a growable one
      reserves room first and cannot fail. */
  function Write(b: Buffer, data: seq<Byte>, shortfall: int): (r: Result<Buffer>)
    requires b.Valid()
    ensures r.Ok? <==> b.policy == Growable || b.position + |data| <= |b.storage|
    ensures r.Err? ==> r.error == BufferWriteError(shortfall)
    ensures r.Ok? ==> Written(b, data, r.value)
  {
    match b.policy
    case Fixed =>
      if b.position + |data| > |b.storage| then Err(BufferWriteError(shortfall)) else Ok(Put(b, data))
    case Growable =>
      Ok(Put(ReserveFromPosition(b, |data|), data))
  }

  /** What a successful write promises: `data` sits at the old cursor, the
      cursor moved past it, `written` became `max(written, cursor)`, no other
      byte of the old allocation changed, and capacity never shrank. */
  predicate Written(b: Buffer, data: seq<Byte>, r: Buffer)
    requires b.Valid()
  {
    r.Valid()
    && |r.storage| >= |b.storage|
    && r.position == b.position + |data|
    && r.written == Max(b.written, r.position)
    && r.storage[b.position..r.position] == data
    && (forall i :: 0 <= i < |b.storage| && !(b.position <= i < r.position) ==> r.storage[i] == b.storage[i])
    && r.owning == b.owning && r.policy == b.policy
  }

  /** Shortfall reported by the fixed-width writers: `wu8` reports 1, the
      others `width - allocated + position`. */
  function WriteShortfall(b: Buffer, width: nat): int {
    if width == 1 then 1 else width - |b.storage| + b.position
  }

  /** `wu8` ... `wu64`: the `width` low-order bytes of `v`, most significant first. */
  function WriteUInt(b: Buffer, v: int, width: nat): (r: Result<Buffer>)
    requires b.Valid() && 1 <= width <= 8
    ensures r.Ok? <==> b.policy == Growable || b.position + width <= |b.storage|
    ensures r.Err? ==> r.error == BufferWriteError(WriteShortfall(b, width))
    ensures r.Ok? ==> Written(b, BeBytes(v, width), r.value)
  {
    Write(b, BeBytes(v, width), WriteShortfall(b, width))
  }

  /** `wu16le`: the two low-order bytes of `v`, least significant first. */
  function WriteU16Le(b: Buffer, v: int): (r: Result<Buffer>)
    requires b.Valid()
    ensures r.Ok? <==> b.policy == Growable || b.position + 2 <= |b.storage|
    ensures r.Err? ==> r.error == BufferWriteError(WriteShortfall(b, 2))
    ensures r.Ok? ==> Written(b, Reverse(BeBytes(v, 2)), r.value)
  {
    Write(b, Reverse(BeBytes(v, 2)), WriteShortfall(b, 2))
  }

  /** `wu32le`: the four low-order bytes of `v`, least significant first. */
  function WriteU32Le(b: Buffer, v: int): (r: Result<Buffer>)
    requires b.Valid()
    ensures r.Ok? <==> b.policy == Growable || b.position + 4 <= |b.storage|
    ensures r.Err? ==> r.error == BufferWriteError(WriteShortfall(b, 4))
    ensures r.Ok? ==> Written(b, Reverse(BeBytes(v, 4)), r.value)
  {
    Write(b, Reverse(BeBytes(v, 4)), WriteShortfall(b, 4))
  }

  /** `wbytes` and `wstring`. */
  function WriteBytes(b: Buffer, data: seq<Byte>): (r: Result<Buffer>)
    requires b.Valid()
    ensures r.Ok? <==> b.policy == Growable || b.position + |data| <= |b.storage|
    ensures r.Err? ==> r.error == BufferWriteError(|data| - |b.storage| + b.position)
    ensures r.Ok? ==> Written(b, data, r.value)
  {
    Write(b, data, |data| - |b.storage| + b.position)
  }

  /** Byte i of a big-endian write is `(char)(v >> 8*(width-1-i))`, the way
      each writer spells it out. */
  lemma WriteUIntBytes(b: Buffer, v: int, width: nat, i: nat)
    requires b.Valid() && 1 <= width <= 8 && i < width
    requires WriteUInt(b, v, width).Ok?
    ensures WriteUInt(b, v, width).value.storage[b.position + i] == (v / Pow256(width - 1 - i)) % 256
  {
    var r := WriteUInt(b, v, width).value;
    assert r.storage[b.position..r.position][i] == BeBytes(v, width)[i];
    BeBytesIndex(v, width, i);
  }

  /** `wu16le`/`wu32le` succeed exactly when `wu16`/`wu32` do and store the
      same bytes in reverse order. */
  lemma LittleEndianMirrors(b: Buffer, v: int)
    requires b.Valid()
    ensures WriteU16Le(b, v).Ok? == WriteUInt(b, v, 2).Ok?
    ensures WriteU32Le(b, v).Ok? == WriteUInt(b, v, 4).Ok?
    ensures WriteU16Le(b, v).Ok? ==>
      WriteU16Le(b, v).value.storage[b.position..b.position + 2]
        == Reverse(WriteUInt(b, v, 2).value.storage[b.position..b.position + 2])
    ensures WriteU32Le(b, v).Ok? ==>
      WriteU32Le(b, v).value.storage[b.position..b.position + 4]
        == Reverse(WriteUInt(b, v, 4).value.storage[b.position..b.position + 4])
  {
  }

  /** Big-endian round trip: write `width` bytes of `v`, seek back, read them:
      the reader returns `v mod 2^(8*width)` (two's complement for 8 bytes)
      and ends exactly where the writer left the buffer. */
  lemma {:induction false} WriteSeekReadUInt(b: Buffer, v: int, width: nat)
    requires b.Valid() && 1 <= width <= 8
    requires WriteUInt(b, v, width).Ok?
    ensures var w := WriteUInt(b, v, width).value;
      Seek(w, b.position).Ok? &&
      ReadUInt(Seek(w, b.position).value, width)
        == Ok((if width < 8 then v % Pow256(width) else ToSigned(v % Pow256(8), 8), w))
  {
    var w := WriteUInt(b, v, width).value;
    var s := Seek(w, b.position).value;
    var bytes := s.storage[s.position..s.position + width];
    assert bytes == BeBytes(v, width);
    BeRoundTrip(v, width);
    assert s.(position := s.position + width) == w;
  }

  /** Signed round trip: a value in the signed range of the width comes back
      unchanged from `rsN` after `wuN` and a seek back. */
  lemma WriteSeekReadSInt(b: Buffer, v: int, width: nat)
    requires b.Valid() && 2 <= width <= 8
    requires -(Pow256(width - 1) * 128) <= v < Pow256(width - 1) * 128
    requires WriteUInt(b, v, width).Ok?
    ensures var w := WriteUInt(b, v, width).value;
      Seek(w, b.position).Ok? && ReadSInt(Seek(w, b.position).value, width) == Ok((v, w))
  {
    SeekReadSIntAfterWrite(b, WriteUInt(b, v, width).value, v, width);
  }

  lemma SeekReadSIntAfterWrite(b: Buffer, w: Buffer, v: int, width: nat)
    requires b.Valid() && 2 <= width <= 8
    requires -(Pow256(width - 1) * 128) <= v < Pow256(width - 1) * 128
    requires Written(b, BeBytes(v, width), w)
    ensures Seek(w, b.position).Ok? && ReadSInt(Seek(w, b.position).value, width) == Ok((v, w))
  {
    var s := w.(position := b.position);
    assert Seek(w, b.position) == Ok(s) && s.Valid();
    assert s.storage[s.position..s.position + width] == BeBytes(v, width);
    var r := ReadSInt(s, width);
    UnreadPrefix(s, width);
    var x := r.value.0;
    assert BeBytes(x, width) == BeBytes(v, width);
    SignedRoundTrip(x, width);
    SignedRoundTrip(v, width);
    assert r.value.1 == w;
  }

  /** Bytes round trip: `wbytes` then seek back then `rbytes` gives the bytes back. */
  lemma WriteSeekReadBytes(b: Buffer, data: seq<Byte>)
    requires b.Valid() && WriteBytes(b, data).Ok?
    ensures var w := WriteBytes(b, data).value;
      Seek(w, b.position).Ok? && ReadBytes(Seek(w, b.position).value, |data|) == Ok((data, w))
  {
    var w := WriteBytes(b, data).value;
    var s := Seek(w, b.position).value;
    assert s.(position := s.position + |data|) == w;
  }

  // ---------------------------------------------------------------------------
  // Byte patching, cursor bookkeeping and dumps
  // ---------------------------------------------------------------------------

  /** The guard of `BufferMixin::bor_byte` as written: it refuses only
      `pos > allocated`. */
  predicate BorByteGuardAsWritten(b: Buffer, pos: int) {
    !(pos > |b.storage|)
  }

  /** The as-written guard lets `pos == allocated` through, one past the last
      byte of the storage. */
  lemma BorByteGuardAdmitsEnd(b: Buffer)
    ensures BorByteGuardAsWritten(b, |b.storage|)
    ensures BorByte(b, |b.storage|, 0).Err?
  {
  }

  /** `bor_byte` with the bounds check it evidently intends: OR `mask` (its low
      byte) into `storage[pos]`, raising when `pos` is not inside the storage. */
  function BorByte(b: Buffer, pos: nat, mask: int): (r: Result<Buffer>)
    ensures r.Ok? <==> pos < |b.storage|
    ensures r.Err? ==> r.error == BufferWriteError(pos - |b.storage|)
    ensures r.Ok? ==> |r.value.storage| == |b.storage| && r.value.storage[pos] == ByteOr(b.storage[pos], mask)
    ensures r.Ok? ==> r.value == b.(storage := r.value.storage)
    ensures r.Ok? ==> forall i :: 0 <= i < |b.storage| && i != pos ==> r.value.storage[i] == b.storage[i]
  {
    if pos >= |b.storage| then Err(BufferWriteError(pos - |b.storage|))
    else Ok(b.(storage := b.storage[pos := ByteOr(b.storage[pos], mask)]))
  }

  /** `consume_bytes` as written: the cursor moves before the capacity check,
      so the buffer is left past its allocation when the error is raised. */
  function ConsumeBytesAsWritten(b: Buffer, amount: nat): (r: (Buffer, Option<Error>))
    requires b.Valid()
    ensures r.1.Some? <==> b.position + amount > |b.storage|
    ensures r.1.Some? ==> !r.0.Valid() && r.0.position == b.position + amount
  {
    var moved := b.(position := b.position + amount);
    if moved.position > |b.storage| then (moved, Some(BufferWriteError(moved.position - |b.storage|)))
    else (moved.(written := Max(b.written, moved.position)), None)
  }

  /** `consume_bytes` checking before it moves: on overflow the buffer is untouched. */
  function ConsumeBytes(b: Buffer, amount: nat): (r: Result<Buffer>)
    requires b.Valid()
    ensures r.Ok? <==> b.position + amount <= |b.storage|
    ensures r.Err? ==> r.error == BufferWriteError(b.position + amount - |b.storage|)
    ensures r.Ok? ==> r.value.Valid() && r.value.position == b.position + amount
    ensures r.Ok? ==> r.value.written == Max(b.written, r.value.position) && r.value.storage == b.storage
  {
    var p := b.position + amount;
    if p > |b.storage| then Err(BufferWriteError(p - |b.storage|))
    else Ok(b.(position := p, written := Max(b.written, p)))
  }

  /** The two versions agree whenever no error is raised; on error only the
      as-written one leaves a broken buffer behind. */
  lemma ConsumeBytesAgree(b: Buffer, amount: nat)
    requires b.Valid()
    ensures ConsumeBytes(b, amount).Ok? <==> ConsumeBytesAsWritten(b, amount).1.None?
    ensures ConsumeBytes(b, amount).Ok? ==> ConsumeBytes(b, amount).value == ConsumeBytesAsWritten(b, amount).0
    ensures ConsumeBytes(b, amount).Err? ==>
      ConsumeBytesAsWritten(b, amount).1 == Some(ConsumeBytes(b, amount).error) && !ConsumeBytesAsWritten(b, amount).0.Valid()
  {
  }

  /** `bytes_appended` as written: `written` grows before the capacity check. */
  function BytesAppendedAsWritten(b: Buffer, amount: nat): (r: (Buffer, Option<Error>))
    requires b.Valid()
    ensures r.1.Some? <==> b.written + amount > |b.storage|
    ensures r.0.written == b.written + amount
    ensures r.1.Some? ==> !r.0.Valid()
  {
    var grown := b.(written := b.written + amount);
    if grown.written > |b.storage| then (grown, Some(BufferWriteError(grown.written - |b.storage|))) else (grown, None)
  }

  /** `bytes_appended` checking before it grows `written`. */
  function BytesAppended(b: Buffer, amount: nat): (r: Result<Buffer>)
    requires b.Valid()
    ensures r.Ok? <==> amount <= b.CapacityLeft()
    ensures r.Err? ==> r.error == BufferWriteError(b.written + amount - |b.storage|)
    ensures r.Ok? ==> r.value.Valid() && r.value.Len() == b.Len() + amount && r.value == b.(written := r.value.written)
  {
    var w := b.written + amount;
    if w > |b.storage| then Err(BufferWriteError(w - |b.storage|)) else Ok(b.(written := w))
  }

  lemma BytesAppendedAgree(b: Buffer, amount: nat)
    requires b.Valid()
    ensures BytesAppended(b, amount).Ok? <==> BytesAppendedAsWritten(b, amount).1.None?
    ensures BytesAppended(b, amount).Ok? ==> BytesAppended(b, amount).value == BytesAppendedAsWritten(b, amount).0
    ensures BytesAppended(b, amount).Err? ==> !BytesAppendedAsWritten(b, amount).0.Valid()
  {
  }

  /** The guard of `BufferMixin::hex` as written: only `pos` is checked. */
  predicate HexGuardAsWritten(b: Buffer, pos: int, len: int) {
    !(pos < 0 || pos > b.Len())
  }

  /** `ARPHeader::parse` dumps `hex(position, bytes_written)` after the
      Ethernet header: on a full 1518-byte frame in the 1518-byte device
      buffer the guard passes although the dump runs 14 bytes past the
      allocation, and the intended check refuses it. */
  lemma HexGuardAdmitsOverRead(storage: seq<Byte>)
    requires |storage| == 1518
    ensures var b := Buffer(storage, 1518, 14, true, Fixed);
      b.Valid() && HexGuardAsWritten(b, b.position, b.written) && b.position + b.written > b.Allocated()
      && Hex(b, b.position, b.written).Err?
  {
  }

  /** `hex(pos, len)` with the evidently intended check that the dumped range
      lies inside the data: uppercase hex of `storage[pos .. pos+len)`. */
  function Hex(b: Buffer, pos: int, len: nat): (r: Result<string>)
    requires b.Valid()
    ensures r.Ok? <==> 0 <= pos && pos + len <= b.Len()
    ensures r.Err? ==> r.error == ArgumentError
    ensures r.Ok? ==> |r.value| == 2 * len
    ensures r.Ok? ==> forall i :: 0 <= i < |r.value| ==> TextCodec.IsUpperHexChar(r.value[i])
    ensures r.Ok? ==> TextCodec.HexStringToBytes(r.value) == Ok(b.Data()[pos..pos + len])
  {
    if pos < 0 || pos + len > b.Len() then Err(ArgumentError)
    else
      var bytes := b.storage[pos..pos + len];
      TextCodec.HexRoundTrip(bytes);
      assert bytes == b.Data()[pos..pos + len];
      Ok(TextCodec.StringToHex(bytes))
  }
}

=== FILE: bytes.dfy ===
/** Octets, big-endian integers and the bit operations the buffer uses.

    `BufferMixin`'s readers and writers pack and unpack integers with shifts
    and masks on fixed-width C++ integers; here those are stated on unbounded integers, with the
    truncation to 8 bits and the two's complement reinterpretation written out.
 */
module Bytes {

  /** One octet of storage (`uint8_t`). */
  type Byte = b: int | 0 <= b < 256

  function Pow256(n: nat): (r: nat)
    ensures r >= 1
  {
    if n == 0 then 1 else 256 * Pow256(n - 1)
  }

  function Max(a: int, b: int): int {
    if a >= b then a else b
  }

  function Min(a: int, b: int): int {
    if a <= b then a else b
  }

  /** Big-endian unsigned value of a byte string: the first byte is the most significant. */
  function BeValue(s: seq<Byte>): nat
  {
    if |s| == 0 then 0 else BeValue(s[..|s| - 1]) * 256 + s[|s| - 1]
  }

  /** The `n` low-order bytes of `v`, most significant first. */
  function BeBytes(v: int, n: nat): (r: seq<Byte>)
    ensures |r| == n
    decreases n
  {
    if n == 0 then [] else BeBytes(v / 256, n - 1) + [v % 256]
  }

  function Reverse<T>(s: seq<T>): (r: seq<T>)
    ensures |r| == |s|
    ensures forall i :: 0 <= i < |s| ==> r[i] == s[|s| - 1 - i]
  {
    if |s| == 0 then [] else Reverse(s[1..]) + [s[0]]
  }

  /** Two's complement reading of an `n`-byte unsigned value `u`: the top bit
      (bit 8n-1) has weight -2^(8n-1). */
  function ToSigned(u: int, n: nat): int
    requires n >= 1
  {
    if u >= Pow256(n - 1) * 128 then u - Pow256(n) else u
  }

  /** Bitwise OR of two non-negative integers. */
  function BitOr(a: nat, b: nat): nat
    decreases a + b
  {
    if a == 0 then b
    else if b == 0 then a
    else 2 * BitOr(a / 2, b / 2) + (if a % 2 == 1 || b % 2 == 1 then 1 else 0)
  }

  function Pow2(k: nat): (r: nat)
    ensures r >= 1
  {
    if k == 0 then 1 else 2 * Pow2(k - 1)
  }

  /** `storage[pos] |= mask` on a `uint8_t`: the OR is taken on the low byte of
      the (possibly negative) int mask, and the result is truncated to 8 bits. */
  function ByteOr(a: Byte, mask: int): Byte
  {
    BitOr(a, mask % 256) % 256
  }

  // ---------------------------------------------------------------------------
  // Division facts (Dafny's / and % on a positive divisor are floor division,
  // which is what an arithmetic right shift computes).
  // ---------------------------------------------------------------------------

  lemma MulAtLeast(d: int, k: int)
    requires d > 0 && k >= 1
    ensures d * k >= d
  {
  }

  lemma MulMonotone(a: int, x: int, y: int)
    requires a >= 0 && x <= y
    ensures a * x <= a * y
  {
    assert a * y - a * x == a * (y - x);
  }

  lemma DivModUnique(v: int, d: int, q: int, r: int)
    requires d > 0 && 0 <= r < d && v == d * q + r
    ensures v / d == q && v % d == r
  {
    var q', r' := v / d, v % d;
    assert v == d * q' + r';
    assert d * (q - q') == r' - r;
    if q' < q {
      MulAtLeast(d, q - q');
      assert false;
    } else if q' > q {
      assert d * (q' - q) == r - r';
      MulAtLeast(d, q' - q);
      assert false;
    }
  }

  lemma DivDiv(v: int, a: int, b: int)
    requires a > 0 && b > 0
    ensures (v / a) / b == v / (a * b)
  {
    var q, r := v / a, v % a;
    var q2, r2 := q / b, q % b;
    assert v == a * q + r;
    assert q == b * q2 + r2;
    assert a * q == (a * b) * q2 + a * r2 by {
      assert a * q == a * (b * q2 + r2);
      assert a * (b * q2 + r2) == a * (b * q2) + a * r2;
      assert a * (b * q2) == (a * b) * q2;
    }
    MulMonotone(a, r2, b - 1);
    assert a * (b - 1) == a * b - a;
    DivModUnique(v, a * b, q2, a * r2 + r);
  }

  lemma ModSplit(v: int, p: int)
    requires p > 0
    ensures ((v / 256) % p) * 256 + v % 256 == v % (256 * p)
  {
    var q, r := v / 256, v % 256;
    var q2, r2 := q / p, q % p;
    assert v == (256 * p) * q2 + (r2 * 256 + r) by {
      calc {
        v;
        256 * q + r;
        256 * (p * q2 + r2) + r;
        (256 * p) * q2 + (r2 * 256 + r);
      }
    }
    assert r2 * 256 <= (p - 1) * 256 by {
      assert (p - 1) * 256 - r2 * 256 == (p - 1 - r2) * 256;
    }
    DivModUnique(v, 256 * p, q2, r2 * 256 + r);
  }

  // ---------------------------------------------------------------------------
  // Big-endian encoding
  // ---------------------------------------------------------------------------

  /** A big-endian value of n bytes is below 256^n. */
  lemma {:induction false} BeValueBound(s: seq<Byte>)
    ensures BeValue(s) < Pow256(|s|)
  {
    if |s| > 0 {
      var init := s[..|s| - 1];
      BeValueBound(init);
      assert BeValue(init) <= Pow256(|s| - 1) - 1;
      assert BeValue(init) * 256 <= (Pow256(|s| - 1) - 1) * 256;
    }
  }

  /** Decoding the n bytes written for v yields v modulo 256^n. */
  lemma {:induction false} BeRoundTrip(v: int, n: nat)
    ensures BeValue(BeBytes(v, n)) == v % Pow256(n)
    decreases n
  {
    if n == 0 {
      assert v % 1 == 0;
    } else {
      var s := BeBytes(v, n);
      assert s[..n - 1] == BeBytes(v / 256, n - 1);
      BeRoundTrip(v / 256, n - 1);
      ModSplit(v, Pow256(n - 1));
    }
  }

  /** Encoding the value of a byte string at its own width gives the string back. */
  lemma {:induction false} BeBytesOfValue(s: seq<Byte>)
    ensures BeBytes(BeValue(s), |s|) == s
  {
    if |s| > 0 {
      var init := s[..|s| - 1];
      var v := BeValue(s);
      DivModUnique(v, 256, BeValue(init), s[|s| - 1]);
      BeBytesOfValue(init);
      assert s == init + [s[|s| - 1]];
    }
  }

  /** Byte i of the n-byte encoding is `(v >> 8*(n-1-i)) & 0xFF`, which is how
      every writer in the buffer spells it out. */
  lemma {:induction false} BeBytesIndex(v: int, n: nat, i: nat)
    requires i < n
    ensures BeBytes(v, n)[i] == (v / Pow256(n - 1 - i)) % 256
    decreases n
  {
    if i == n - 1 {
      assert v / 1 == v;
    } else {
      BeBytesIndex(v / 256, n - 1, i);
      DivDiv(v, 256, Pow256(n - 2 - i));
    }
  }

  /** Only the value modulo 256^n matters to the n-byte encoding. */
  lemma {:induction false} BeBytesMod(v: int, n: nat)
    ensures BeBytes(v % Pow256(n), n) == BeBytes(v, n)
    decreases n
  {
    if n > 0 {
      var p := Pow256(n - 1);
      var m := v % (256 * p);
      ModSplit(v, p);
      DivModUnique(m, 256, (v / 256) % p, v % 256);
      BeBytesMod(v / 256, n - 1);
    }
  }

  /** Values below 256^n survive the n-byte round trip unchanged. */
  lemma BeRoundTripInRange(v: int, n: nat)
    requires 0 <= v < Pow256(n)
    ensures BeValue(BeBytes(v, n)) == v
  {
    BeRoundTrip(v, n);
    DivModUnique(v, Pow256(n), 0, v);
  }

  /** A two's complement value of width n survives writing n bytes and reading them back signed. */
  lemma SignedRoundTrip(v: int, n: nat)
    requires n >= 1
    requires -(Pow256(n - 1) * 128) <= v < Pow256(n - 1) * 128
    ensures ToSigned(BeValue(BeBytes(v, n)), n) == v
  {
    BeRoundTrip(v, n);
    var m := Pow256(n);
    assert m == Pow256(n - 1) * 256;
    if v >= 0 {
      DivModUnique(v, m, 0, v);
    } else {
      DivModUnique(v, m, -1, v + m);
    }
  }

  /** The two's complement reading of a big-endian string is negative exactly
      when the top bit of its first byte is set. */
  lemma SignedNegativeIffTopBit(s: seq<Byte>)
    requires |s| >= 1
    ensures ToSigned(BeValue(s), |s|) < 0 <==> s[0] >= 128
  {
    BeValueSplitFirst(s);
    BeValueBound(s);
    BeValueBound(s[1..]);
    var p := Pow256(|s| - 1);
    assert Pow256(|s|) == 256 * p;
    if s[0] >= 128 {
      MulMonotone(p, 128, s[0]);
    } else {
      MulMonotone(p, s[0], 127);
    }
  }

  lemma ShiftDistributes(a: int, p: int, x: int, last: int)
    ensures (a * p + x) * 256 + last == a * (256 * p) + (x * 256 + last)
  {
  }

  /** The low 8(n-1) bits of the big-endian value are the value of the tail. */
  lemma {:induction false} BeValueSplitFirst(s: seq<Byte>)
    requires |s| >= 1
    ensures BeValue(s) == s[0] * Pow256(|s| - 1) + BeValue(s[1..])
  {
    if |s| > 1 {
      var init, t, last := s[..|s| - 1], s[1..], s[|s| - 1];
      BeValueSplitFirst(init);
      assert init[1..] == t[..|t| - 1];
      assert t[|t| - 1] == last;
      var a, p, x := s[0], Pow256(|s| - 2), BeValue(init[1..]);
      assert BeValue(init) == a * p + x;
      assert BeValue(t) == x * 256 + last;
      assert Pow256(|s| - 1) == 256 * p;
      ShiftDistributes(a, p, x, last);
    } else {
      assert s[..0] == [];
      assert s[1..] == [];
    }
  }

  // ---------------------------------------------------------------------------
  // OR with a single bit
  // ---------------------------------------------------------------------------

  /** OR-ing a power of two into a value below it adds the power of two: the
      marker bit lands in a position the value leaves clear. */
  lemma {:induction false} BitOrFreshBit(a: nat, k: nat)
    requires a < Pow2(k)
    ensures BitOr(a, Pow2(k)) == a + Pow2(k)
  {
    if a == 0 {
    } else {
      assert k >= 1;
      assert Pow2(k) / 2 == Pow2(k - 1) && Pow2(k) % 2 == 0;
      BitOrFreshBit(a / 2, k - 1);
      assert BitOr(a, Pow2(k)) == 2 * BitOr(a / 2, Pow2(k - 1)) + a % 2;
    }
  }
}

=== FILE: ebml.dfy ===
/** The Matroska variable-size integer writer (`wmkvuint`) and its lookup
    tables, as described in section 4 of RFC 8794 (EBML): a width marker bit
    followed by the value in big-endian order. A value that fits in `7w` bits
    (with the all-ones pattern reserved) is written in `w` bytes and the first
    byte carries the marker `0x80 >> (w-1)`.
 */
module Ebml {
  import opened Bytes
  import opened Errors
  import opened Buffers

  /** `byte_to_size_table`: the width announced by a first byte, i.e. the
      position of its highest set bit counted from the top (0 maps to 8). */
  const SIZE_TABLE: seq<int> :=
    [8, 8] + seq(2, _ => 7) + seq(4, _ => 6) + seq(8, _ => 5)
    + seq(16, _ => 4) + seq(32, _ => 3) + seq(64, _ => 2) + seq(128, _ => 1)

  /** `bytecount_to_minusone`: the reserved all-ones value of each width. */
  const MINUS_ONE: seq<int> :=
    [0x7F, 0x3FFF, 0x1FFFFF, 0x0FFFFFFF, 0x07FFFFFFFF, 0x03FFFFFFFFFF, 0x01FFFFFFFFFFFF, 0x00FFFFFFFFFFFFFF]

  /** `bytecount_to_negative_mask`: the sign bit of the 7w-bit payload. */
  const NEGATIVE_MASK: seq<int> :=
    [0x40, 0x2000, 0x100000, 0x8000000, 0x400000000, 0x20000000000, 0x1000000000000, 0x80000000000000]

  /** `bytecount_to_signed_mask`: the 64-bit bits above the 7w-bit payload. */
  const SIGNED_MASK: seq<int> :=
    [0xFFFFFFFFFFFFFF80, 0xFFFFFFFFFFFFC000, 0xFFFFFFFFFFE00000, 0xFFFFFFFFF0000000,
     0xFFFFFFF800000000, 0xFFFFFC0000000000, 0xFFFE000000000000, 0xFF00000000000000]

  /** Width picked by `wmkvuint`: the first w whose reserved value is still
      strictly above the number, 8 when none is. The comparisons are strict,
      so 0x7F itself takes two bytes. */
  function MkvWidth(n: int): (w: nat)
    ensures 1 <= w <= 8
    ensures w < 8 ==> n < MINUS_ONE[w - 1]
    ensures w > 1 ==> n >= MINUS_ONE[w - 2]
  {
    if n < 0x7F then 1
    else if n < 0x3FFF then 2
    else if n < 0x1FFFFF then 3
    else if n < 0xFFFFFFF then 4
    else if n < 0x07FFFFFFFF then 5
    else if n < 0x03FFFFFFFFFF then 6
    else if n < 0x01FFFFFFFFFFFF then 7
    else 8
  }

  /** The marker OR-ed into the first byte: `0x80 >> (w-1)`. */
  function Marker(w: nat): (m: nat)
    requires 1 <= w <= 8
    ensures m == Pow2(8 - w) && 1 <= m <= 128
  {
    Pow2Add(8 - w, w - 1);
    MulMonotone(Pow2(8 - w), 1, Pow2(w - 1));
    assert Pow2(7) == 128;
    Pow2(8 - w)
  }

  /** `BufferMixin::wmkvuint`: demands 8 free bytes of capacity whatever the
      width (also on a growable buffer, which does not override it), then
      writes the `w` low-order bytes of `n` big-endian and ORs the marker into
      the first of them. */
  function WriteMkvUint(b: Buffer, n: int): (r: Result<Buffer>)
    requires b.Valid()
    ensures r.Ok? <==> b.position + 8 <= |b.storage|
    ensures r.Err? ==> r.error == BufferWriteError(8 - |b.storage| + b.position)
    ensures r.Ok? ==> r.value.Valid() && |r.value.storage| == |b.storage|
    ensures r.Ok? ==> (r.value.position == b.position + MkvWidth(n)
      && r.value.written == Max(b.written, r.value.position))
    ensures r.Ok? ==> r.value.storage[b.position] == ByteOr(BeBytes(n, MkvWidth(n))[0], Marker(MkvWidth(n)))
    ensures r.Ok? ==> r.value.storage[b.position + 1..r.value.position] == BeBytes(n, MkvWidth(n))[1..]
    ensures r.Ok? ==> forall i :: 0 <= i < |b.storage| && !(b.position <= i < r.value.position) ==>
      r.value.storage[i] == b.storage[i]
  {
    if b.position + 8 > |b.storage| then Err(BufferWriteError(8 - |b.storage| + b.position))
    else
      var w := MkvWidth(n);
      var written := WriteUInt(b, n, w).value;
      var marked := BorByte(written, b.position, Marker(w)).value;
      var e := BeBytes(n, w);
      assert written.storage[b.position..written.position] == e;
      assert marked.storage[b.position + 1..marked.position] == e[1..];
      Ok(marked)
  }

  // ---------------------------------------------------------------------------
  // Powers of two
  // ---------------------------------------------------------------------------

  lemma {:induction false} Pow2Add(a: nat, b: nat)
    ensures Pow2(a + b) == Pow2(a) * Pow2(b)
  {
    if a > 0 {
      Pow2Add(a - 1, b);
    }
  }

  lemma {:induction false} Pow256IsPow2(k: nat)
    ensures Pow256(k) == Pow2(8 * k)
  {
    if k > 0 {
      Pow256IsPow2(k - 1);
      Pow2Add(8, 8 * (k - 1));
      assert Pow2(8) == 256;
    }
  }

  /** The powers of two the tables are built from. */
  lemma Pow2Values()
    ensures Pow2(0) == 1 && Pow2(1) == 2 && Pow2(2) == 4 && Pow2(3) == 8
    ensures Pow2(4) == 16 && Pow2(5) == 32 && Pow2(6) == 64 && Pow2(7) == 0x80
    ensures Pow2(14) == 0x4000 && Pow2(21) == 0x20_0000 && Pow2(28) == 0x1000_0000
    ensures Pow2(35) == 0x8_0000_0000 && Pow2(42) == 0x400_0000_0000 && Pow2(49) == 0x2_0000_0000_0000
    ensures Pow2(56) == 0x100_0000_0000_0000 && Pow2(64) == 0x1_0000_0000_0000_0000
  {
    assert Pow2(7) == 0x80;
    assert Pow2(8) == 0x100;
    Pow2Add(7, 7);
    Pow2Add(14, 7);
    Pow2Add(21, 7);
    Pow2Add(28, 7);
    Pow2Add(35, 7);
    Pow2Add(42, 7);
    Pow2Add(49, 7);
    Pow2Add(56, 8);
  }

  lemma Pow256Values()
    ensures Pow256(0) == 1 && Pow256(1) == 0x100 && Pow256(2) == 0x1_0000 && Pow256(3) == 0x100_0000
    ensures Pow256(4) == 0x1_0000_0000 && Pow256(5) == 0x100_0000_0000 && Pow256(6) == 0x1_0000_0000_0000
    ensures Pow256(7) == 0x100_0000_0000_0000 && Pow256(8) == 0x1_0000_0000_0000_0000
  {
    assert Pow256(4) == 0x1_0000_0000;
    assert Pow256(8) == 0x1_0000_0000_0000_0000;
  }

  /** The reserved value of width w is `2^(7w) - 1`; the negative mask is
      half of `2^(7w)`; the signed mask is the 64-bit complement of the
      reserved value. */
  lemma MaskTables(w: nat)
    requires 1 <= w <= 8
    ensures MINUS_ONE[w - 1] == Pow2(7 * w) - 1
    ensures 2 * NEGATIVE_MASK[w - 1] == Pow2(7 * w)
    ensures SIGNED_MASK[w - 1] + MINUS_ONE[w - 1] + 1 == Pow2(64)
  {
    MinusOneEntry(w);
    NegativeMaskEntry(w);
    SignedMaskEntry(w);
  }

  /** `2^(7w)` for the eight widths. */
  const SEVENS: seq<int> :=
    [0x80, 0x4000, 0x20_0000, 0x1000_0000, 0x8_0000_0000, 0x400_0000_0000, 0x2_0000_0000_0000, 0x100_0000_0000_0000]

  lemma {:induction false} Pow2Sevens(w: nat)
    requires 1 <= w <= 8
    ensures Pow2(7 * w) == SEVENS[w - 1]
  {
    assert Pow2(7) == 0x80;
    if w > 1 {
      Pow2Sevens(w - 1);
      Pow2Add(7 * (w - 1), 7);
      assert 7 * (w - 1) + 7 == 7 * w;
      assert SEVENS[w - 1] == SEVENS[w - 2] * 0x80;
    }
  }

  lemma Pow2Of64()
    ensures Pow2(64) == 0x1_0000_0000_0000_0000
  {
    Pow2Sevens(8);
    Pow2Add(56, 8);
    assert Pow2(8) == 0x100;
  }

  lemma MinusOneEntry(w: nat)
    requires 1 <= w <= 8
    ensures MINUS_ONE[w - 1] == Pow2(7 * w) - 1
  {
    Pow2Sevens(w);
  }

  lemma NegativeMaskEntry(w: nat)
    requires 1 <= w <= 8
    ensures 2 * NEGATIVE_MASK[w - 1] == Pow2(7 * w)
  {
    Pow2Sevens(w);
  }

  lemma SignedMaskEntry(w: nat)
    requires 1 <= w <= 8
    ensures SIGNED_MASK[w - 1] + MINUS_ONE[w - 1] + 1 == Pow2(64)
  {
    Pow2Of64();
  }

  /** `2^(7w)` is the marker's weight: the marker bit of the first byte
      times the weight of that byte, and at most `256^w`. */
  lemma MarkerWeight(w: nat)
    requires 1 <= w <= 8
    ensures Pow2(7 * w) == Marker(w) * Pow256(w - 1)
    ensures Pow2(7 * w) <= Pow256(w)
  {
    Pow2Values();
    Pow256Values();
    var m := Marker(w);
    if w == 1 {
      assert m == 128;
    } else if w == 2 {
      assert m == 64;
    } else if w == 3 {
      assert m == 32;
    } else if w == 4 {
      assert m == 16;
    } else if w == 5 {
      assert m == 8;
    } else if w == 6 {
      assert m == 4;
    } else if w == 7 {
      assert m == 2;
    } else {
      assert m == 1;
    }
  }

  // ---------------------------------------------------------------------------
  // The size table
  // ---------------------------------------------------------------------------

  /** A first byte whose highest set bit is the marker of width w announces w. */
  lemma SizeTableEntry(x: int, w: nat)
    requires 1 <= w <= 8 && Pow2(8 - w) <= x < 2 * Pow2(8 - w)
    ensures |SIZE_TABLE| == 256 && SIZE_TABLE[x] == w
  {
    assert Pow2(1) == 2 && Pow2(2) == 4 && Pow2(3) == 8 && Pow2(4) == 16;
    assert Pow2(5) == 32 && Pow2(6) == 64 && Pow2(7) == 128;
    var t := SIZE_TABLE;
    if w == 8 {
      assert t[1] == 8;
    } else if w == 7 {
      assert t[2..4] == seq(2, _ => 7);
      assert t[x] == t[2..4][x - 2];
    } else if w == 6 {
      assert t[4..8] == seq(4, _ => 6);
      assert t[x] == t[4..8][x - 4];
    } else if w == 5 {
      assert t[8..16] == seq(8, _ => 5);
      assert t[x] == t[8..16][x - 8];
    } else if w == 4 {
      assert t[16..32] == seq(16, _ => 4);
      assert t[x] == t[16..32][x - 16];
    } else if w == 3 {
      assert t[32..64] == seq(32, _ => 3);
      assert t[x] == t[32..64][x - 32];
    } else if w == 2 {
      assert t[64..128] == seq(64, _ => 2);
      assert t[x] == t[64..128][x - 64];
    } else {
      assert t[128..256] == seq(128, _ => 1);
      assert t[x] == t[128..256][x - 128];
    }
  }

  // ---------------------------------------------------------------------------
  // What a reader recovers
  // ---------------------------------------------------------------------------

  lemma QuotientBelow(n: int, p: int, m: int)
    requires p > 0 && 0 <= n < m * p
    ensures 0 <= n / p < m
  {
    if n / p >= m {
      MulMonotone(p, m, n / p);
      assert false;
    }
  }

  /** The first of the big-endian bytes of a value below `2^(7w)` leaves the
      marker bit and everything above it clear. */
  lemma FirstByteBelowMarker(n: int, w: nat)
    requires 1 <= w <= 8 && 0 <= n < Pow2(7 * w)
    ensures BeBytes(n, w)[0] < Marker(w)
  {
    var p, m := Pow256(w - 1), Marker(w);
    MarkerWeight(w);
    BeBytesIndex(n, w, 0);
    assert w - 1 - 0 == w - 1;
    QuotientBelow(n, p, m);
    DivModUnique(n / p, 256, 0, n / p);
  }

  lemma Distributes(v: int, v2: int, a: int, d: int, p: int, t: int)
    requires v == a * p + t && v2 == (a + d) * p + t
    ensures v2 == v + d * p
  {
  }

  /** Adding `d` to the first byte adds `d` times its weight to the value. */
  lemma AddToFirst(e: seq<Byte>, f: seq<Byte>, d: int)
    requires |e| == |f| >= 1 && f[0] == e[0] + d && f[1..] == e[1..]
    ensures BeValue(f) == BeValue(e) + d * Pow256(|e| - 1)
  {
    BeValueSplitFirst(e);
    BeValueSplitFirst(f);
    Distributes(BeValue(e), BeValue(f), e[0], d, Pow256(|e| - 1), BeValue(e[1..]));
  }

  /** OR-ing the marker into such a first byte adds it. */
  lemma MarkerOr(x: Byte, w: nat)
    requires 1 <= w <= 8 && x < Marker(w)
    ensures x + Marker(w) < 256 && ByteOr(x, Marker(w)) == x + Marker(w)
  {
    var m := Marker(w);
    assert x + m < 256;
    DivModUnique(m, 256, 0, m);
    BitOrFreshBit(x, 8 - w);
    assert BitOr(x, m) == x + m;
    DivModUnique(x + m, 256, 0, x + m);
    assert ByteOr(x, m) == BitOr(x, m % 256) % 256;
  }

  /** Every value `wmkvuint` writes in `w` bytes lies below `2^(7w)`, when
      it is below `2^56` to begin with. */
  lemma WidthFits(n: int)
    requires 0 <= n < Pow2(56)
    ensures n < Pow2(7 * MkvWidth(n))
  {
    MinusOneEntry(MkvWidth(n));
  }

  /** The marker lands on a clear bit of the first byte `wmkvuint` writes. */
  lemma MarkedFirstByte(n: int)
    requires 0 <= n < Pow2(56)
    ensures var w, e := MkvWidth(n), BeBytes(n, MkvWidth(n));
      ByteOr(e[0], Marker(w)) == e[0] + Marker(w) && Marker(w) <= e[0] + Marker(w) < 2 * Marker(w)
  {
    var w, e := MkvWidth(n), BeBytes(n, MkvWidth(n));
    WidthFits(n);
    FirstByteBelowMarker(n, w);
    MarkerOr(e[0], w);
  }

  /** The bytes `wmkvuint` leaves behind: the big-endian bytes with the
      marker added to the first. */
  lemma MkvWrittenBytes(b: Buffer, n: int)
    requires b.Valid() && 0 <= n < Pow2(56)
    requires WriteMkvUint(b, n).Ok?
    ensures var w, e := MkvWidth(n), BeBytes(n, MkvWidth(n));
      var bytes := WriteMkvUint(b, n).value.storage[b.position..b.position + w];
      |bytes| == w && bytes[0] == e[0] + Marker(w) && bytes[1..] == e[1..]
  {
    var r := WriteMkvUint(b, n).value;
    var w := MkvWidth(n);
    MarkedFirstByte(n);
    assert r.position == b.position + w;
    var bytes := r.storage[b.position..r.position];
    assert bytes[0] == r.storage[b.position];
    assert bytes[1..] == r.storage[b.position + 1..r.position];
  }

  /** Setting the marker bit of such a first byte adds `2^(7w)` to the value. */
  lemma MarkedValue(f: seq<Byte>, n: int, w: nat)
    requires 1 <= w <= 8 && 0 <= n < Pow2(7 * w)
    requires var e := BeBytes(n, w); |f| == w && f[0] == e[0] + Marker(w) && f[1..] == e[1..]
    ensures BeValue(f) == n + Pow2(7 * w)
  {
    var e := BeBytes(n, w);
    MarkerWeight(w);
    BeRoundTripInRange(n, w);
    AddToFirst(e, f, Marker(w));
  }

  /** For `0 <= n < 2^56`, the bytes `wmkvuint` leaves behind announce their
      own width through the size table, and clearing the marker bit (taking
      away `2^(7w)`) gives `n` back. */
  lemma MkvRoundTrip(b: Buffer, n: int)
    requires b.Valid() && 0 <= n < Pow2(56)
    requires WriteMkvUint(b, n).Ok?
    ensures var r := WriteMkvUint(b, n).value; var w := MkvWidth(n);
      var bytes := r.storage[b.position..b.position + w];
      |bytes| == w && SIZE_TABLE[bytes[0]] == w && BeValue(bytes) - Pow2(7 * w) == n
  {
    var w, e := MkvWidth(n), BeBytes(n, MkvWidth(n));
    var bytes := WriteMkvUint(b, n).value.storage[b.position..b.position + w];
    WidthFits(n);
    MarkedFirstByte(n);
    MkvWrittenBytes(b, n);
    MarkedValue(bytes, n, w);
    SizeTableEntry(bytes[0], w);
  }

  /** The width thresholds of `wmkvuint` are exactly the reserved values. */
  lemma WidthIsMinimal(n: int, w: nat)
    requires 1 <= w <= 8 && 0 <= n < Pow2(7 * w) - 1
    ensures MkvWidth(n) <= w
  {
    MinusOneEntry(w);
  }
}

=== FILE: errors.dfy ===
/** Failure values of the packet stack.

    The C++ members throw exceptions; here every operation that can throw
    returns a `Result`, whose `Err` side names the exception class (and, for
    the buffer range errors, the amount `BufferReadError`/`BufferWriteError`
    carry).
 */
module Errors {

  /** Why a `std::runtime_error` was raised by the protocol or playlist code. */
  datatype RuntimeReason =
    | UnsupportedProtocol(etherType: int)     // read_packet: EtherType not IPv4/IPv6/ARP
    | Ipv6PayloadMismatch                     // read_packet: payload_length != bytes_left
    | ArpTrailingData                         // read_packet: bytes left after the ARP header
    | UnsupportedAddressLength(length: int)   // get_dst_ip: ARP protocol length not 4 or 16
    | HeaderBufferTooSmall                    // IPv4/IPv6 serialize: length below the header size
    | NoSequenceNumber                        // extract_sequence_number: no "-<digits>.ts" suffix

  datatype Error =
    | BufferReadError(amount: int)    // read or seek past bytes_written
    | BufferWriteError(amount: int)   // write past the allocated capacity
    | ArgumentError                   // BufferMixin::hex with a bad position
    | InvalidArgument                 // std::invalid_argument (hex digits, stoi/stol/stod)
    | OutOfRange                      // std::out_of_range (stoi/stol)
    | RuntimeError(reason: RuntimeReason)
    | NullString                      // std::string built from a null pointer

  /** Either a value or the exception that replaced it; usable with `:-`. */
  datatype Result<+T> = Ok(value: T) | Err(error: Error) {
    predicate IsFailure() {
      Err?
    }

    function PropagateFailure<U>(): Result<U>
      requires Err?
    {
      Err(error)
    }

    function Extract(): T
      requires Ok?
    {
      value
    }
  }

  datatype Option<+T> = None | Some(value: T)
}

=== FILE: hls.dfy ===
/** `HLSManifestParser`: one pass of `parse` over the lines of a playlist
    (RFC 8216), and one round of `parseFromURI` (fetch, keep the base URI,
    parse when the body is longer than ten characters).

    The parser's fields live in a `Playlist`. An exception ends `parse`
    but the fields it has already changed keep their new values, because
    `parseFromURI` catches it and goes on with the next round; `Parsed`
    carries the playlist together with the exception, if any. */
module Hls {
  import opened Errors
  import opened TextCodec
  import opened HlsText

  const EXT_X_TARGETDURATION: string := "#EXT-X-TARGETDURATION:"
  const EXT_X_MEDIA_SEQUENCE: string := "#EXT-X-MEDIA-SEQUENCE:"
  const EXTINF: string := "#EXTINF:"
  /** Written with a colon, although the tag of section 4.3.2.3 of RFC 8216
      has no attribute: the standard line `#EXT-X-DISCONTINUITY` does not
      match it. */
  const EXT_X_DISCONTINUITY: string := "#EXT-X-DISCONTINUITY:"
  const EXT_X_STREAM_INF: string := "#EXT-X-STREAM-INF:"
  const EXTM3U: string := "#EXTM3U"

  /** A variant stream of a master playlist. */
  datatype Variant = Variant(bandwidth: int, uri: string)

  /** A media segment that was accepted, with the sequence number read
      from its URI. Its declared duration is a `double` and is not kept. */
  datatype Segment = Segment(uri: string, sequence: int)

  /** The fields of the parser that `parse` and `fetchContentFromURI`
      change. */
  datatype Playlist = Playlist(
    baseUri: string,
    master: bool,
    variants: seq<Variant>,
    segments: seq<Segment>,
    targetDuration: int,
    refreshInterval: int,
    mediaSequence: int,
    discontinuity: bool)

  /** The parser as constructed, with the refresh interval given to the
      constructor (3 by default). */
  function Fresh(refreshInterval: int): (p: Playlist)
    ensures p.master && p.variants == [] && p.segments == [] && p.baseUri == []
    ensures p.refreshInterval == refreshInterval && p.targetDuration == 0 && p.mediaSequence == 0
  {
    Playlist([], true, [], [], 0, refreshInterval, 0, false)
  }

  /** A playlist after `parse` and the exception that ended it early. */
  datatype Parsed = Parsed(playlist: Playlist, failure: Option<Error>)

  // ---------------------------------------------------------------------------
  // Numbers
  // ---------------------------------------------------------------------------

  /** C++ integer division, which truncates toward zero. */
  function TruncDiv(a: int, b: int): (q: int)
    requires b > 0
    ensures a >= 0 ==> q == a / b
    ensures a < 0 ==> q == -((-a) / b)
  {
    if a >= 0 then a / b else -((-a) / b)
  }

  /** A `long` stored into an `int`: the low 32 bits, as two's
      complement. */
  function ToInt32(x: int): (r: int)
    ensures INT_MIN <= r <= INT_MAX
    ensures (r - x) % 0x1_0000_0000 == 0
    ensures INT_MIN <= x <= INT_MAX ==> r == x
  {
    (x - INT_MIN) % 0x1_0000_0000 + INT_MIN
  }

  /** Whether `std::stod` finds a number at the start of `s`: white space,
      a sign, then a digit, or a '.' followed by a digit. */
  predicate StodAccepts(s: string) {
    var t := DropSign(SkipSpace(s));
    (|t| > 0 && IsDigit(t[0])) || (|t| > 1 && t[0] == '.' && IsDigit(t[1]))
  }

  /** `BANDWIDTH` of the comma-separated attributes of
      `#EXT-X-STREAM-INF:`: of the tokens that hold a '=', the one whose
      trimmed key is `BANDWIDTH` sets it with `std::stoi` of the trimmed
      value; a later one overwrites an earlier one, and a value `stoi`
      rejects ends the line. */
  function Bandwidth(tokens: seq<string>, current: int): (r: Result<int>)
    ensures r.Ok? && (forall k :: 0 <= k < |tokens| ==> !IsBandwidth(tokens[k])) ==> r.value == current
    ensures r.Ok? && r.value != current ==> INT_MIN <= r.value <= INT_MAX
    decreases |tokens|
  {
    if |tokens| == 0 then Ok(current)
    else
      var token := tokens[0];
      var pos := IndexOf(token, '=');
      if IsBandwidth(token) then
        var value :- Stoi(Trim(token[pos + 1..]));
        Bandwidth(tokens[1..], value)
      else Bandwidth(tokens[1..], current)
  }

  /** A token `key=value` whose trimmed key is `BANDWIDTH`. */
  predicate IsBandwidth(token: string) {
    var pos := IndexOf(token, '=');
    pos < |token| && Trim(token[..pos]) == "BANDWIDTH"
  }

  /** The bandwidth of the attribute list `BANDWIDTH=<n>` is `n`. */
  lemma BandwidthOfDecimal(n: nat)
    requires n <= INT_MAX
    ensures Bandwidth(Split("BANDWIDTH=" + DecimalText(n), ','), 0) == Ok(n)
  {
    var d := DecimalText(n);
    var token := "BANDWIDTH=" + d;
    assert Split(token, ',') == [token] by {
      assert ',' !in token by {
        assert forall i :: 10 <= i < |token| ==> token[i] == d[i - 10];
      }
      SplitWithout(token, ',');
    }
    BandwidthKey(d);
    assert token[10..] == d;
    assert Trim(d) == d by {
      TrimUnique(d, 0, |d|);
      assert d[0..|d|] == d;
    }
    StoiOfDecimal(n);
    BandwidthSingle(token, n);
  }

  /** In `BANDWIDTH=<value>` the '=' is at 9 and the trimmed key is
      `BANDWIDTH`. */
  lemma BandwidthKey(value: string)
    ensures IndexOf("BANDWIDTH=" + value, '=') == 9 && IsBandwidth("BANDWIDTH=" + value)
  {
    var token := "BANDWIDTH=" + value;
    assert IndexOf(token, '=') == 9 by {
      FirstIndex(token, '=', 9);
    }
    assert token[..9] == "BANDWIDTH";
    TrimUnique("BANDWIDTH", 0, 9);
  }

  /** The first occurrence found by `IndexOf`. */
  lemma FirstIndex(s: string, d: char, k: nat)
    requires k < |s| && s[k] == d && forall i :: 0 <= i < k ==> s[i] != d
    ensures IndexOf(s, d) == k
  {
  }

  /** A single bandwidth token sets the bandwidth to its value. */
  lemma BandwidthSingle(token: string, n: int)
    requires IsBandwidth(token) && Stoi(Trim(token[IndexOf(token, '=') + 1..])) == Ok(n)
    ensures Bandwidth([token], 0) == Ok(n)
  {
    var tokens := [token];
    assert tokens[0] == token && tokens[1..] == [];
    assert Bandwidth(tokens[1..], n) == Ok(n);
  }

  /** A text without the delimiter is one piece. */
  lemma SplitWithout(s: string, d: char)
    requires |s| > 0 && d !in s
    ensures Split(s, d) == [s]
  {
    var k := IndexOf(s, d);
    assert k == |s|;
  }

  // ---------------------------------------------------------------------------
  // One line of the playlist
  // ---------------------------------------------------------------------------

  /** What handling one line did: go on after `consumed` more lines (the
      URI line `resolveUri` read), or stop with an exception. */
  datatype Effect = Continue(playlist: Playlist, consumed: nat) | Stop(playlist: Playlist, error: Error)

  /** The line `getline` gives `resolveUri`, if there is one. */
  function NextLine(rest: seq<string>): (r: Option<string>)
    ensures r.Some? <==> |rest| > 0
    ensures r.Some? ==> r.value == rest[0]
  {
    if |rest| == 0 then None else Some(rest[0])
  }

  /** The sequence number of the last segment accepted, or -1. */
  function LastSequence(segments: seq<Segment>): (n: int)
    ensures |segments| == 0 ==> n == -1
    ensures |segments| > 0 ==> n == segments[|segments| - 1].sequence
  {
    if |segments| == 0 then -1 else segments[|segments| - 1].sequence
  }

  /** Which branch of the loop body a trimmed line takes: a line that is
      not empty and does not start with '#' is skipped; any other line is
      matched against the tags in this order, the first prefix winning. */
  datatype Tag = UriLine | Header | StreamInfTag | TargetDurationTag | MediaSequenceTag | DiscontinuityTag | ExtInfTag | NoTag

  function Classify(line: string): (t: Tag)
    ensures t == UriLine <==> line != [] && line[0] != '#'
    ensures t == StreamInfTag ==> EXT_X_STREAM_INF <= line
    ensures t == TargetDurationTag ==> EXT_X_TARGETDURATION <= line
    ensures t == MediaSequenceTag ==> EXT_X_MEDIA_SEQUENCE <= line
    ensures t == ExtInfTag ==> EXTINF <= line
  {
    if line != [] && line[0] != '#' then UriLine
    else if EXTM3U <= line then Header
    else if EXT_X_STREAM_INF <= line then StreamInfTag
    else if EXT_X_TARGETDURATION <= line then TargetDurationTag
    else if EXT_X_MEDIA_SEQUENCE <= line then MediaSequenceTag
    else if EXT_X_DISCONTINUITY <= line then DiscontinuityTag
    else if EXTINF <= line then ExtInfTag
    else NoTag
  }

  /** `tag` is not a prefix of `line` when they differ at `k`. */
  lemma NotPrefix(tag: string, line: string, k: nat)
    requires k < |tag| && k < |line| && tag[k] != line[k]
    ensures !(tag <= line)
  {
  }

  /** The loop body of `parse` for one line read with `getline`, given
      the lines after it. */
  function HandleLine(p: Playlist, raw: string, rest: seq<string>): (r: Effect)
    requires |p.baseUri| > 0
    ensures r.playlist.baseUri == p.baseUri
    ensures r.Continue? ==> r.consumed <= 1 && r.consumed <= |rest|
  {
    var line := Trim(raw);
    match Classify(line)
    case UriLine => Continue(p, 0)
    case Header => Continue(p, 0)
    case StreamInfTag => StreamInf(p.(master := true), line[|EXT_X_STREAM_INF|..], rest)
    case TargetDurationTag => TargetDuration(p, line[|EXT_X_TARGETDURATION|..])
    case MediaSequenceTag =>
      (match Stoi(line[|EXT_X_MEDIA_SEQUENCE|..])
       case Err(e) => Stop(p, e)
       case Ok(n) => Continue(p.(mediaSequence := n), 0))
    case DiscontinuityTag => Continue(p.(discontinuity := true, master := true), 0)
    case ExtInfTag => MediaSegment(p, line[|EXTINF|..], rest)
    case NoTag => Continue(p, 0)
  }

  /** `#EXT-X-TARGETDURATION:`: the value read with `std::stol` becomes
      the target duration, and half of it, truncated and stored into an
      `int`, the refresh interval. */
  function TargetDuration(p: Playlist, value: string): (r: Effect)
    ensures r.Stop? <==> Stol(value).Err?
    ensures r.Stop? ==> r.playlist == p && r.error == Stol(value).error
    ensures r.Continue? ==> r.consumed == 0
    ensures r.Continue? ==> r.playlist == p.(targetDuration := Stol(value).value, refreshInterval := r.playlist.refreshInterval)
    ensures r.Continue? && 0 <= r.playlist.targetDuration <= 2 * INT_MAX + 1 ==>
      r.playlist.refreshInterval == r.playlist.targetDuration / 2
  {
    match Stol(value)
    case Err(e) => Stop(p, e)
    case Ok(d) => Continue(p.(targetDuration := d, refreshInterval := ToInt32(TruncDiv(d, 2))), 0)
  }

  /** `#EXT-X-STREAM-INF:` once the playlist is marked master: the
      bandwidth of the attributes, then the URI of the next line, then one
      more variant. */
  function StreamInf(p: Playlist, attributes: string, rest: seq<string>): (r: Effect)
    requires |p.baseUri| > 0
    ensures r.playlist.baseUri == p.baseUri && r.playlist.segments == p.segments
    ensures r.Continue? ==> r.consumed == 1 && |rest| > 0
    ensures r.Continue? ==> r.playlist == p.(variants := r.playlist.variants)
    ensures r.Continue? ==> |r.playlist.variants| == |p.variants| + 1 && r.playlist.variants[..|p.variants|] == p.variants
    ensures r.Stop? ==> r.playlist == p
  {
    match Bandwidth(Split(attributes, ','), 0)
    case Err(e) => Stop(p, e)
    case Ok(bandwidth) =>
      match ResolveUri(p.baseUri, NextLine(rest))
      case Err(e) => Stop(p, e)
      case Ok(uri) => Continue(p.(variants := p.variants + [Variant(bandwidth, uri)]), 1)
  }

  /** `#EXTINF:`: the duration must be a number; the URI of the next line
      is resolved and its sequence number read (`setUri`), which throws
      when it has none. A URI equal to the base is skipped; otherwise the
      segment is kept exactly when its number exceeds the last kept one. */
  function MediaSegment(p: Playlist, duration: string, rest: seq<string>): (r: Effect)
    requires |p.baseUri| > 0
    ensures r.playlist.baseUri == p.baseUri && r.playlist.variants == p.variants
    ensures r.Continue? ==> r.consumed == 1 && |rest| > 0
    ensures r.Stop? || r.playlist == p || r.playlist == p.(segments := r.playlist.segments)
    ensures r.Stop? ==> r.playlist == p
    ensures r.Continue? && r.playlist != p ==> exists s :: r.playlist.segments == p.segments + [s] && LastSequence(p.segments) < s.sequence && ExtractSequenceNumber(s.uri) == Ok(s.sequence)
  {
    if !StodAccepts(duration) then Stop(p, InvalidArgument)
    else
      match ResolveUri(p.baseUri, NextLine(rest))
      case Err(e) => Stop(p, e)
      case Ok(uri) =>
        match ExtractSequenceNumber(uri)
        case Err(e) => Stop(p, e)
        case Ok(sequence) =>
          if uri == p.baseUri then Continue(p, 1)
          else if LastSequence(p.segments) < sequence then
            Continue(p.(segments := p.segments + [Segment(uri, sequence)]), 1)
          else Continue(p, 1)
  }

  // ---------------------------------------------------------------------------
  // parse and parseFromURI
  // ---------------------------------------------------------------------------

  /** `parse` over the lines that remain. */
  function ParseLines(p: Playlist, lines: seq<string>): (r: Parsed)
    requires |p.baseUri| > 0
    ensures r.playlist.baseUri == p.baseUri
    decreases |lines|
  {
    if |lines| == 0 then Parsed(p, None)
    else
      match HandleLine(p, lines[0], lines[1..])
      case Stop(q, e) => Parsed(q, Some(e))
      case Continue(q, consumed) => ParseLines(q, lines[1 + consumed..])
  }

  /** `parse(manifest)`: the lines of the manifest as `getline` reads
      them. */
  function Parse(p: Playlist, manifest: string): (r: Parsed)
    requires |p.baseUri| > 0
    ensures r.playlist.baseUri == p.baseUri
  {
    ParseLines(p, Split(manifest, '\n'))
  }

  /** One round of `parseFromURI`, given what the fetch of `uri` returned
      (`None` when curl failed). A failed fetch leaves the base URI and
      reads as an empty body; a body of ten characters or fewer is not
      parsed; an exception from `parse` is caught and logged. curl refuses
      an empty URL (`CURLE_URL_MALFORMAT`), so a body never arrives for an
      empty `uri`; the `|uri| > 0` test only records that, and it keeps
      the base URI that `Parse` and `ResolveUri` need non-empty. */
  function Refresh(p: Playlist, uri: string, response: Option<string>): (r: Parsed)
    ensures response.None? ==> r == Parsed(p, None)
    ensures response.Some? && |uri| > 0 ==> r.playlist.baseUri == BaseUri(uri)
    ensures response.Some? && |response.value| <= 10 ==> r == Parsed(p.(baseUri := BaseUri(uri)), None)
  {
    match response
    case None => Parsed(p, None)
    case Some(body) =>
      var fetched := p.(baseUri := BaseUri(uri));
      if |body| > 10 && |uri| > 0 then Parse(fetched, body)
      else Parsed(fetched, None)
  }

  // ---------------------------------------------------------------------------
  // What parsing keeps
  // ---------------------------------------------------------------------------

  /** Sequence numbers of the kept segments strictly increase. */
  predicate Increasing(segments: seq<Segment>) {
    forall i, j :: 0 <= i < j < |segments| ==> segments[i].sequence < segments[j].sequence
  }

  /** Every kept segment's number is the one its URI carries. */
  predicate Numbered(segments: seq<Segment>) {
    forall i :: 0 <= i < |segments| ==> ExtractSequenceNumber(segments[i].uri) == Ok(segments[i].sequence)
  }

  /** `q` only adds to `p`: the base stays, the variants and segments are
      extended, and the segments stay increasing and numbered. */
  predicate Extends(p: Playlist, q: Playlist) {
    && q.baseUri == p.baseUri
    && p.variants <= q.variants
    && p.segments <= q.segments
    && (Increasing(p.segments) ==> Increasing(q.segments))
    && (Numbered(p.segments) ==> Numbered(q.segments))
  }

  lemma ExtendsTransitive(p: Playlist, q: Playlist, r: Playlist)
    requires Extends(p, q) && Extends(q, r)
    ensures Extends(p, r)
  {
  }

  /** A segment whose number exceeds the last one keeps the list
      increasing. */
  lemma AppendIncreasing(segments: seq<Segment>, s: Segment)
    requires Increasing(segments) && LastSequence(segments) < s.sequence
    ensures Increasing(segments + [s])
  {
    var all := segments + [s];
    forall i, j | 0 <= i < j < |all| ensures all[i].sequence < all[j].sequence {
      if j == |segments| && i < |segments| - 1 {
        assert all[i].sequence < all[|segments| - 1].sequence;
      }
    }
  }

  /** A variant line only adds a variant. */
  lemma StreamInfExtends(p: Playlist, attributes: string, rest: seq<string>)
    requires |p.baseUri| > 0
    ensures Extends(p, StreamInf(p, attributes, rest).playlist)
  {
    var r := StreamInf(p, attributes, rest);
    if r.Continue? {
      assert r.playlist.variants == p.variants + [r.playlist.variants[|p.variants|]];
    }
  }

  /** A segment line adds at most one segment, numbered above the last. */
  lemma MediaSegmentExtends(p: Playlist, duration: string, rest: seq<string>)
    requires |p.baseUri| > 0
    ensures Extends(p, MediaSegment(p, duration, rest).playlist)
  {
    var r := MediaSegment(p, duration, rest);
    if r.Continue? && r.playlist != p {
      var s :| r.playlist.segments == p.segments + [s] && LastSequence(p.segments) < s.sequence && ExtractSequenceNumber(s.uri) == Ok(s.sequence);
      if Increasing(p.segments) {
        AppendIncreasing(p.segments, s);
      }
    }
  }

  /** Handling one line only extends the playlist. */
  lemma HandleLineExtends(p: Playlist, raw: string, rest: seq<string>)
    requires |p.baseUri| > 0
    ensures Extends(p, HandleLine(p, raw, rest).playlist)
  {
    var line := Trim(raw);
    match Classify(line)
    case StreamInfTag =>
      StreamInfExtends(p.(master := true), line[|EXT_X_STREAM_INF|..], rest);
    case ExtInfTag =>
      MediaSegmentExtends(p, line[|EXTINF|..], rest);
    case _ =>
  }

  /** `parse` only extends the playlist: nothing is removed, and the
      segment numbers stay strictly increasing. */
  lemma {:induction false} ParseLinesExtends(p: Playlist, lines: seq<string>)
    requires |p.baseUri| > 0
    ensures Extends(p, ParseLines(p, lines).playlist)
    decreases |lines|
  {
    if |lines| > 0 {
      var e := HandleLine(p, lines[0], lines[1..]);
      HandleLineExtends(p, lines[0], lines[1..]);
      if e.Continue? {
        ParseLinesExtends(e.playlist, lines[1 + e.consumed..]);
        ExtendsTransitive(p, e.playlist, ParseLines(e.playlist, lines[1 + e.consumed..]).playlist);
      }
    }
  }

  /** Round after round, the segment list only grows and its sequence
      numbers stay strictly increasing, whatever the server returns. */
  lemma {:induction false} RefreshesKeepIncreasing(p: Playlist, uri: string, responses: seq<Option<string>>)
    requires Increasing(p.segments) && Numbered(p.segments)
    ensures var q := Rounds(p, uri, responses);
      p.segments <= q.segments && p.variants <= q.variants && Increasing(q.segments) && Numbered(q.segments)
    decreases |responses|
  {
    if |responses| > 0 {
      var r := Refresh(p, uri, responses[0]).playlist;
      RefreshExtends(p, uri, responses[0]);
      RefreshesKeepIncreasing(r, uri, responses[1..]);
    }
  }

  /** One round only extends the segments and variants. */
  lemma RefreshExtends(p: Playlist, uri: string, response: Option<string>)
    ensures var q := Refresh(p, uri, response).playlist;
      p.segments <= q.segments && p.variants <= q.variants
      && (Increasing(p.segments) ==> Increasing(q.segments))
      && (Numbered(p.segments) ==> Numbered(q.segments))
  {
    if response.Some? && |response.value| > 10 && |uri| > 0 {
      ParseLinesExtends(p.(baseUri := BaseUri(uri)), Split(response.value, '\n'));
    }
  }

  /** The playlist after one round per response, in order. */
  function Rounds(p: Playlist, uri: string, responses: seq<Option<string>>): (q: Playlist)
    decreases |responses|
  {
    if |responses| == 0 then p
    else Rounds(Refresh(p, uri, responses[0]).playlist, uri, responses[1..])
  }

  // ---------------------------------------------------------------------------
  // What single lines do
  // ---------------------------------------------------------------------------

  /** A line that, once trimmed, is not empty and does not start with '#'
      (a URI line not taken by `resolveUri`) is skipped. */
  lemma UriLineIgnored(p: Playlist, raw: string, rest: seq<string>)
    requires |p.baseUri| > 0
    requires Trim(raw) != [] && Trim(raw)[0] != '#'
    ensures ParseLines(p, [raw] + rest) == ParseLines(p, rest)
  {
    assert ([raw] + rest)[0] == raw && ([raw] + rest)[1..] == rest;
  }

  /** A tag line that ends in a non-blank character is its own trim. */
  lemma TagLineTrimmed(line: string)
    requires |line| > 0 && line[0] == '#' && !IsBlank(line[|line| - 1])
    ensures Trim(line) == line
  {
    TrimUnique(line, 0, |line|);
  }

  /** The standard discontinuity line, which has no colon, is no tag the
      parser knows and changes nothing. */
  lemma StandardDiscontinuityIgnored(p: Playlist, rest: seq<string>)
    requires |p.baseUri| > 0
    ensures HandleLine(p, "#EXT-X-DISCONTINUITY", rest) == Continue(p, 0)
  {
    var line := "#EXT-X-DISCONTINUITY";
    TagLineTrimmed(line);
    assert Classify(line) == NoTag by {
      NotPrefix(EXTM3U, line, 4);
      NotPrefix(EXT_X_STREAM_INF, line, 7);
      NotPrefix(EXT_X_TARGETDURATION, line, 7);
      NotPrefix(EXT_X_MEDIA_SEQUENCE, line, 7);
      NotPrefix(EXTINF, line, 4);
    }
  }

  /** Whatever follows `#EXT-X-TARGETDURATION:`, the line takes the
      target-duration branch. */
  lemma ClassifyTargetDuration(value: string)
    ensures Classify(EXT_X_TARGETDURATION + value) == TargetDurationTag
  {
    var line := EXT_X_TARGETDURATION + value;
    assert line[..|EXT_X_TARGETDURATION|] == EXT_X_TARGETDURATION;
    NotPrefix(EXTM3U, line, 4);
    NotPrefix(EXT_X_STREAM_INF, line, 7);
  }

  /** Whatever follows `#EXTINF:`, the line takes the segment branch. */
  lemma ClassifyExtInf(value: string)
    ensures Classify(EXTINF + value) == ExtInfTag
  {
    var line := EXTINF + value;
    assert line[..|EXTINF|] == EXTINF;
    NotPrefix(EXTM3U, line, 4);
    NotPrefix(EXT_X_STREAM_INF, line, 4);
    NotPrefix(EXT_X_TARGETDURATION, line, 4);
    NotPrefix(EXT_X_MEDIA_SEQUENCE, line, 4);
    NotPrefix(EXT_X_DISCONTINUITY, line, 4);
  }

  /** Whatever follows `#EXT-X-STREAM-INF:`, the line takes the variant
      branch. */
  lemma ClassifyStreamInf(value: string)
    ensures Classify(EXT_X_STREAM_INF + value) == StreamInfTag
  {
    var line := EXT_X_STREAM_INF + value;
    assert line[..|EXT_X_STREAM_INF|] == EXT_X_STREAM_INF;
    NotPrefix(EXTM3U, line, 4);
  }

  /** `#EXT-X-TARGETDURATION:<n>` sets the target duration to `n` and the
      refresh interval to half of it, rounded down and stored into an
      `int`; below 2^32 that is exactly half. */
  lemma TargetDurationLine(p: Playlist, n: nat, rest: seq<string>)
    requires |p.baseUri| > 0 && n <= LONG_MAX
    ensures HandleLine(p, EXT_X_TARGETDURATION + DecimalText(n), rest)
      == Continue(p.(targetDuration := n, refreshInterval := ToInt32(n / 2)), 0)
    ensures n <= 2 * INT_MAX + 1 ==> ToInt32(n / 2) == n / 2
  {
    var d := DecimalText(n);
    var line := EXT_X_TARGETDURATION + d;
    assert line[|line| - 1] == d[|d| - 1];
    TagLineTrimmed(line);
    ClassifyTargetDuration(d);
    assert line[|EXT_X_TARGETDURATION|..] == d;
    StolOfDecimal(n);
  }

  /** `std::stol` reads back the digits of a value in range. */
  lemma StolOfDecimal(n: nat)
    requires n <= LONG_MAX
    ensures Stol(DecimalText(n)) == Ok(n)
  {
    var d := DecimalText(n);
    assert SkipSpace(d) == d;
    assert DropSign(d) == d;
    DigitRunAll(d);
    assert d[..|d|] == d;
    DecimalRoundTrip(n);
  }

  /** `#EXTINF:` followed by a URI line: the segment is kept exactly when
      its URI is not the base and its number exceeds the last kept one;
      a URI without a number ends the parse. */
  lemma SegmentAcceptance(p: Playlist, duration: string, uriLine: string, rest: seq<string>)
    requires |p.baseUri| > 0 && StodAccepts(duration)
    ensures var uri := ResolveUri(p.baseUri, Some(uriLine)).value;
      var r := MediaSegment(p, duration, [uriLine] + rest);
      && (ExtractSequenceNumber(uri).Err? <==> r.Stop?)
      && (r.Stop? ==> r.error == ExtractSequenceNumber(uri).error)
      && (r.Continue? ==>
            (r.playlist.segments == p.segments + [Segment(uri, ExtractSequenceNumber(uri).value)] <==>
              uri != p.baseUri && LastSequence(p.segments) < ExtractSequenceNumber(uri).value))
      && (r.Continue? && !(uri != p.baseUri && LastSequence(p.segments) < ExtractSequenceNumber(uri).value) ==> r.playlist == p)
  {
    assert NextLine([uriLine] + rest) == Some(uriLine);
  }

  /** A trimmed `#EXTINF:` line is handled as a segment line whose
      duration text is the rest of the line. */
  lemma ExtInfLine(p: Playlist, duration: string, rest: seq<string>)
    requires |p.baseUri| > 0 && Trim(EXTINF + duration) == EXTINF + duration
    ensures HandleLine(p, EXTINF + duration, rest) == MediaSegment(p, duration, rest)
  {
    ClassifyExtInf(duration);
    assert (EXTINF + duration)[|EXTINF|..] == duration;
  }

  /** A segment whose number does not exceed the last kept one is never
      kept again, so a playlist fetched twice keeps its segments once. */
  lemma SegmentNotRepeated(p: Playlist, duration: string, rest: seq<string>)
    requires |p.baseUri| > 0 && |p.segments| > 0
    requires |rest| > 0 && ResolveUri(p.baseUri, Some(rest[0])).value == p.segments[|p.segments| - 1].uri
    requires ExtractSequenceNumber(p.segments[|p.segments| - 1].uri) == Ok(p.segments[|p.segments| - 1].sequence)
    ensures MediaSegment(p, duration, rest).playlist == p
  {
    assert NextLine(rest) == Some(rest[0]);
  }

  /** `#EXT-X-STREAM-INF:` followed by a URI line adds one variant with
      the attributes' bandwidth and the resolved URI, and marks the
      playlist as master. */
  lemma VariantLine(p: Playlist, attributes: string, uriLine: string, rest: seq<string>)
    requires |p.baseUri| > 0 && Bandwidth(Split(attributes, ','), 0).Ok?
    requires Trim(EXT_X_STREAM_INF + attributes) == EXT_X_STREAM_INF + attributes
    ensures HandleLine(p, EXT_X_STREAM_INF + attributes, [uriLine] + rest)
      == Continue(p.(master := true, variants := p.variants + [Variant(Bandwidth(Split(attributes, ','), 0).value, ResolveUri(p.baseUri, Some(uriLine)).value)]), 1)
  {
    var line := EXT_X_STREAM_INF + attributes;
    ClassifyStreamInf(attributes);
    assert line[|EXT_X_STREAM_INF|..] == attributes;
    assert NextLine([uriLine] + rest) == Some(uriLine);
  }
}

=== FILE: hls_text.dfy ===
/** The text helpers of the HLS playlist reader (RFC 8216): `trim`, the
    base URI kept from the playlist's own URI, `resolveUri` for the line
    after a tag, the decimal conversions `std::stoi` / `std::stol`, and
    `extract_sequence_number`, which reads the number out of a segment
    name ending in `-<digits>.ts`. */
module HlsText {
  import opened Errors
  import opened TextCodec

  const INT_MAX: int := 0x7FFF_FFFF
  const INT_MIN: int := -0x8000_0000
  const LONG_MAX: int := 0x7FFF_FFFF_FFFF_FFFF
  const LONG_MIN: int := -0x8000_0000_0000_0000

  // ---------------------------------------------------------------------------
  // trim
  // ---------------------------------------------------------------------------

  /** The characters `trim` strips: space, tab, carriage return, newline. */
  predicate IsBlank(c: char) {
    c == ' ' || c == '\t' || c == '\r' || c == '\n'
  }

  /** Index of the first non-blank character (`find_first_not_of`), or `|s|`. */
  function LeadingBlanks(s: string): (n: nat)
    ensures n <= |s| && (n < |s| ==> !IsBlank(s[n]))
    ensures forall i :: 0 <= i < n ==> IsBlank(s[i])
  {
    if |s| > 0 && IsBlank(s[0]) then 1 + LeadingBlanks(s[1..]) else 0
  }

  /** Number of blank characters after the last non-blank one
      (`find_last_not_of`). */
  function TrailingBlanks(s: string): (n: nat)
    ensures n <= |s| && (n < |s| ==> !IsBlank(s[|s| - 1 - n]))
    ensures forall i :: |s| - n <= i < |s| ==> IsBlank(s[i])
  {
    if |s| > 0 && IsBlank(s[|s| - 1]) then 1 + TrailingBlanks(s[..|s| - 1]) else 0
  }

  /** `trim`: the text between the first and the last non-blank character,
      or the empty string when there is none. */
  function Trim(s: string): (r: string)
    ensures r == [] <==> forall i :: 0 <= i < |s| ==> IsBlank(s[i])
    ensures r != [] ==> !IsBlank(r[0]) && !IsBlank(r[|r| - 1])
  {
    var start := LeadingBlanks(s);
    if start == |s| then []
    else s[start..|s| - TrailingBlanks(s)]
  }

  /** `trim` keeps exactly the infix between two blank margins whose ends
      are not blank: any such split of `s` is the one `trim` finds. */
  lemma TrimUnique(s: string, a: nat, b: nat)
    requires a <= b <= |s|
    requires forall i :: 0 <= i < a ==> IsBlank(s[i])
    requires forall i :: b <= i < |s| ==> IsBlank(s[i])
    requires a < b ==> !IsBlank(s[a]) && !IsBlank(s[b - 1])
    ensures Trim(s) == s[a..b]
  {
    if a < b {
      assert LeadingBlanks(s) == a;
      assert TrailingBlanks(s) == |s| - b;
    }
  }

  /** Trimming twice is trimming once. */
  lemma TrimIdempotent(s: string)
    ensures Trim(Trim(s)) == Trim(s)
  {
    var r := Trim(s);
    TrimUnique(r, 0, |r|);
  }

  // ---------------------------------------------------------------------------
  // Base URI and resolveUri
  // ---------------------------------------------------------------------------

  /** Number of characters up to and including the last '/', or 0. */
  function UpToLastSlash(s: string): (n: nat)
    ensures n <= |s| && (n > 0 ==> s[n - 1] == '/')
    ensures forall i :: n <= i < |s| ==> s[i] != '/'
  {
    if |s| == 0 then 0
    else if s[|s| - 1] == '/' then |s|
    else UpToLastSlash(s[..|s| - 1])
  }

  /** The base URI `fetchContentFromURI` keeps after a successful fetch:
      the URI up to and including its last '/', or the whole URI when it
      has none. */
  function BaseUri(uri: string): (r: string)
    ensures r <= uri && |r| > 0 <==> |uri| > 0
    ensures '/' in uri ==> r[|r| - 1] == '/' && '/' !in uri[|r|..]
    ensures '/' !in uri ==> r == uri
  {
    var n := UpToLastSlash(uri);
    if n == 0 then uri else uri[..n]
  }

  /** The base of a base is itself. */
  lemma BaseUriIdempotent(uri: string)
    ensures BaseUri(BaseUri(uri)) == BaseUri(uri)
  {
  }

  /** What `std::regex_match(relative, std::regex("https?://.*"))` accepts:
      the scheme, then characters none of which ends a line. */
  predicate IsAbsolute(s: string) {
    var scheme := if |s| >= 8 && s[..8] == "https://" then 8 else if |s| >= 7 && s[..7] == "http://" then 7 else 0;
    scheme > 0 && forall i :: scheme <= i < |s| ==> s[i] != '\n' && s[i] != '\r'
  }

  /** `resolveUri(stream)` with `next` the line `getline` reads (`None` at
      the end of the playlist, where `resolveUri` returns a null string).
      The trimmed line is kept when absolute; an empty line gives the base;
      otherwise base and line are joined with exactly one '/' added when
      neither brings one. `resolveUri` looks at the base's last character, so
      the base is never empty here. */
  function ResolveUri(base: string, next: Option<string>): (r: Result<string>)
    requires |base| > 0
    ensures r.Err? <==> next.None?
    ensures r.Err? ==> r.error == NullString
  {
    match next
    case None => Err(NullString)
    case Some(line) =>
      var relative := Trim(line);
      if IsAbsolute(relative) then Ok(relative)
      else if relative == [] then Ok(base)
      else if base[|base| - 1] == '/' || relative[0] == '/' then Ok(base + relative)
      else Ok(base + "/" + relative)
  }

  /** A relative line resolves to a URI that starts with the base and ends
      with the trimmed line; an absolute line is kept as it is. */
  lemma ResolveShape(base: string, line: string)
    requires |base| > 0
    ensures var relative, r := Trim(line), ResolveUri(base, Some(line)).value;
      && (IsAbsolute(relative) ==> r == relative)
      && (!IsAbsolute(relative) ==> base <= r && relative == r[|r| - |relative|..])
      && (!IsAbsolute(relative) && relative != [] && base[|base| - 1] != '/' && relative[0] != '/' ==>
            |r| == |base| + 1 + |relative| && r[|base|] == '/')
  {
    var relative, r := Trim(line), ResolveUri(base, Some(line)).value;
    if !IsAbsolute(relative) && relative != [] {
      if base[|base| - 1] == '/' || relative[0] == '/' {
        assert r == base + relative;
        assert r[|r| - |relative|..] == relative;
      } else {
        assert r == base + "/" + relative;
        assert r[|r| - |relative|..] == relative;
      }
    }
  }

  // ---------------------------------------------------------------------------
  // std::stoi / std::stol
  // ---------------------------------------------------------------------------

  predicate IsDigit(c: char) {
    '0' <= c <= '9'
  }

  /** Length of the leading run of decimal digits. */
  function DigitRun(s: string): (n: nat)
    ensures n <= |s| && (n < |s| ==> !IsDigit(s[n]))
    ensures forall i :: 0 <= i < n ==> IsDigit(s[i])
  {
    if |s| > 0 && IsDigit(s[0]) then 1 + DigitRun(s[1..]) else 0
  }

  /** Base-10 value of a string of digits. */
  function DecimalValue(s: string): (v: nat)
  {
    if |s| == 0 then 0
    else DecimalValue(s[..|s| - 1]) * 10 + (if IsDigit(s[|s| - 1]) then (s[|s| - 1] as int - '0' as int) else 0)
  }

  /** `strtol` in base 10 behind `std::stoi` (`lo`, `hi` the range of
      `int`) and `std::stol` (the range of `long`): leading white space, an
      optional sign, then the longest run of digits. No digit raises
      `invalid_argument`; a value outside the range raises `out_of_range`. */
  function StrToInt(s: string, lo: int, hi: int): (r: Result<int>)
    ensures r.Ok? ==> lo <= r.value <= hi
    ensures r.Err? ==> r.error == InvalidArgument || r.error == OutOfRange
  {
    var t := SkipSpace(s);
    var u := DropSign(t);
    var n := DigitRun(u);
    if n == 0 then Err(InvalidArgument)
    else
      var magnitude := DecimalValue(u[..n]);
      var value: int := if |t| > 0 && t[0] == '-' then -(magnitude as int) else magnitude;
      if value < lo || hi < value then Err(OutOfRange) else Ok(value)
  }

  /** The run of digits stops at the first other character. */
  lemma {:induction false} DigitRunPrefix(digits: string, rest: string)
    requires forall i :: 0 <= i < |digits| ==> IsDigit(digits[i])
    requires |rest| > 0 ==> !IsDigit(rest[0])
    ensures DigitRun(digits + rest) == |digits|
  {
    if |digits| > 0 {
      assert (digits + rest)[1..] == digits[1..] + rest;
      DigitRunPrefix(digits[1..], rest);
    } else {
      assert digits + rest == rest;
    }
  }

  /** `strtol` in base 10 on its full grammar: blanks, an optional sign, a
      run of digits, and text that does not continue the run. The result is
      the signed value of the run, or `out_of_range` outside `[lo, hi]`. */
  lemma {:induction false} StrToIntReads(ws: string, sign: string, digits: string, rest: string, lo: int, hi: int)
    requires forall i :: 0 <= i < |ws| ==> IsSpace(ws[i])
    requires sign == "" || sign == "+" || sign == "-"
    requires |digits| > 0 && forall i :: 0 <= i < |digits| ==> IsDigit(digits[i])
    requires |rest| > 0 ==> !IsDigit(rest[0])
    ensures var v: int := if sign == "-" then -(DecimalValue(digits) as int) else DecimalValue(digits);
      StrToInt(ws + sign + (digits + rest), lo, hi) == if v < lo || hi < v then Err(OutOfRange) else Ok(v)
  {
    var u := digits + rest;
    assert u[0] == digits[0];
    SignedText(ws, sign, u);
    var t := SkipSpace(ws + sign + u);
    assert t == sign + u && DropSign(t) == u;
    DigitRunPrefix(digits, rest);
    assert u[..DigitRun(u)] == digits;
  }

  /** With only blanks and a sign before it, text that does not start with
      a digit raises `invalid_argument`. */
  lemma {:induction false} StrToIntNoDigits(ws: string, sign: string, rest: string, lo: int, hi: int)
    requires forall i :: 0 <= i < |ws| ==> IsSpace(ws[i])
    requires sign == "" || sign == "+" || sign == "-"
    requires |rest| > 0 ==> !IsDigit(rest[0]) && !IsSpace(rest[0]) && rest[0] != '+' && rest[0] != '-'
    ensures StrToInt(ws + sign + rest, lo, hi) == Err(InvalidArgument)
  {
    var t := sign + rest;
    assert ws + sign + rest == ws + t;
    if |t| > 0 {
      SkipSpacePrefix(ws, t);
      if sign != "" {
        assert t[1..] == rest;
      }
    } else {
      assert ws + t == ws;
      SkipSpaceAll(ws);
    }
  }

  function Stoi(s: string): (r: Result<int>)
    ensures r.Ok? ==> INT_MIN <= r.value <= INT_MAX
  {
    StrToInt(s, INT_MIN, INT_MAX)
  }

  function Stol(s: string): (r: Result<int>)
    ensures r.Ok? ==> LONG_MIN <= r.value <= LONG_MAX
  {
    StrToInt(s, LONG_MIN, LONG_MAX)
  }

  /** The decimal digits of `n`, most significant first, no leading zero. */
  function DecimalText(n: nat): (r: string)
    ensures |r| > 0 && forall i :: 0 <= i < |r| ==> IsDigit(r[i])
  {
    if n < 10 then ['0' + n as char] else DecimalText(n / 10) + ['0' + (n % 10) as char]
  }

  /** Reading back the digits of `n` gives `n`. */
  lemma {:induction false} DecimalRoundTrip(n: nat)
    ensures DecimalValue(DecimalText(n)) == n
  {
    if n >= 10 {
      var r := DecimalText(n);
      assert r[..|r| - 1] == DecimalText(n / 10);
      DecimalRoundTrip(n / 10);
    }
  }

  /** `std::stoi` reads back the digits of a value in range. */
  lemma StoiOfDecimal(n: nat)
    requires n <= INT_MAX
    ensures Stoi(DecimalText(n)) == Ok(n)
  {
    var d := DecimalText(n);
    assert SkipSpace(d) == d;
    assert DropSign(d) == d;
    DigitRunAll(d);
    assert d[..|d|] == d;
    DecimalRoundTrip(n);
  }

  /** A string of digits is one run. */
  lemma {:induction false} DigitRunAll(s: string)
    requires forall i :: 0 <= i < |s| ==> IsDigit(s[i])
    ensures DigitRun(s) == |s|
  {
    if |s| > 0 {
      DigitRunAll(s[1..]);
    }
  }

  // ---------------------------------------------------------------------------
  // extract_sequence_number
  // ---------------------------------------------------------------------------

  /** Number of digits at the end of `s`. */
  function TrailingDigits(s: string): (n: nat)
    ensures n <= |s| && (n < |s| ==> !IsDigit(s[|s| - 1 - n]))
    ensures forall i :: |s| - n <= i < |s| ==> IsDigit(s[i])
  {
    if |s| > 0 && IsDigit(s[|s| - 1]) then 1 + TrailingDigits(s[..|s| - 1]) else 0
  }

  /** `extract_sequence_number(uri)`: the search for `-(\d+)\.ts$` succeeds
      exactly when the URI ends with ".ts" preceded by a non-empty run of
      digits preceded by '-'; the digits are read with `std::stoi`, which
      raises `out_of_range` above `INT_MAX`. No match raises a
      `runtime_error`. */
  function ExtractSequenceNumber(uri: string): (r: Result<int>)
    ensures r.Ok? ==> 0 <= r.value <= INT_MAX
  {
    if |uri| < 3 || uri[|uri| - 3..] != ".ts" then Err(RuntimeError(NoSequenceNumber))
    else SequenceOfStem(uri[..|uri| - 3])
  }

  /** The match of `-(\d+)` at the end of the URI without its ".ts". */
  function SequenceOfStem(stem: string): (r: Result<int>)
    ensures r.Ok? ==> 0 <= r.value <= INT_MAX
  {
    var n := TrailingDigits(stem);
    if n == 0 || n == |stem| || stem[|stem| - n - 1] != '-' then Err(RuntimeError(NoSequenceNumber))
    else if DecimalValue(stem[|stem| - n..]) > INT_MAX then Err(OutOfRange)
    else Ok(DecimalValue(stem[|stem| - n..]))
  }

  /** Text before a stem that starts with '-' does not change its match. */
  lemma StemIgnoresPrefix(prefix: string, stem: string)
    requires |stem| > 0 && stem[0] == '-'
    ensures SequenceOfStem(prefix + stem) == SequenceOfStem(stem)
  {
    var whole := prefix + stem;
    TrailingDigitsAfter(prefix, stem);
    var n := TrailingDigits(stem);
    assert whole[|whole| - n..] == stem[|stem| - n..];
    if n < |stem| {
      assert whole[|whole| - n - 1] == stem[|stem| - n - 1];
    }
  }

  /** A segment named `<anything>-<n>.ts` has sequence number `n`, whatever
      comes before the '-'. */
  lemma SequenceOfName(prefix: string, n: nat)
    requires n <= INT_MAX
    ensures ExtractSequenceNumber(prefix + "-" + DecimalText(n) + ".ts") == Ok(n)
  {
    var d := DecimalText(n);
    var uri := prefix + "-" + d + ".ts";
    var stem := uri[..|uri| - 3];
    assert uri[|uri| - 3..] == ".ts";
    assert stem == prefix + "-" + d;
    TrailingDigitsOf(prefix + "-", d);
    assert stem[|stem| - |d|..] == d;
    DecimalRoundTrip(n);
  }

  /** The URI ends with '-', one or more digits and ".ts": what the
      search for `-(\d+)\.ts$` finds. */
  predicate SequenceSuffix(uri: string) {
    && |uri| >= 3 && uri[|uri| - 3..] == ".ts"
    && exists k :: 0 <= k && k + 4 < |uri| && uri[k] == '-' && forall i :: k < i < |uri| - 3 ==> IsDigit(uri[i])
  }

  /** `extract_sequence_number` raises its `runtime_error` exactly for a
      URI without the `-<digits>.ts` suffix; a URI with it gives the number
      or `out_of_range`. */
  lemma SequenceSuffixIff(uri: string)
    ensures ExtractSequenceNumber(uri) == Err(RuntimeError(NoSequenceNumber)) <==> !SequenceSuffix(uri)
    ensures ExtractSequenceNumber(uri).Ok? ==> SequenceSuffix(uri)
  {
    if |uri| >= 3 && uri[|uri| - 3..] == ".ts" {
      var stem := uri[..|uri| - 3];
      var n := TrailingDigits(stem);
      if SequenceSuffix(uri) {
        var k :| 0 <= k && k + 4 < |uri| && uri[k] == '-' && forall i :: k < i < |uri| - 3 ==> IsDigit(uri[i]);
        assert stem[k] == '-' && !IsDigit(stem[k]);
        assert forall i :: k < i < |stem| ==> IsDigit(stem[i]) by {
          forall i | k < i < |stem| ensures IsDigit(stem[i]) {
            assert stem[i] == uri[i];
          }
        }
        assert n == |stem| - k - 1;
      }
      if 0 < n < |stem| && stem[|stem| - n - 1] == '-' {
        var k := |stem| - n - 1;
        assert uri[k] == '-';
        forall i | k < i < |uri| - 3 ensures IsDigit(uri[i]) {
          assert uri[i] == stem[i];
        }
      }
    }
  }

  /** A segment named `<anything>-<digits>.ts` has the value of its digits
      as sequence number, leading zeros included, or raises `out_of_range`
      above `INT_MAX`. */
  lemma SequenceOfDigits(prefix: string, digits: string)
    requires |digits| > 0 && forall i :: 0 <= i < |digits| ==> IsDigit(digits[i])
    ensures ExtractSequenceNumber(prefix + "-" + digits + ".ts")
            == if DecimalValue(digits) > INT_MAX then Err(OutOfRange) else Ok(DecimalValue(digits))
  {
    var uri := prefix + "-" + digits + ".ts";
    var stem := uri[..|uri| - 3];
    assert uri[|uri| - 3..] == ".ts";
    assert stem == prefix + "-" + digits;
    TrailingDigitsOf(prefix + "-", digits);
    assert stem[|stem| - |digits|..] == digits;
    assert stem[|stem| - |digits| - 1] == '-';
  }

  /** The trailing digit run of a text ending in a non-digit and then
      digits is those digits. */
  lemma {:induction false} TrailingDigitsOf(head: string, digits: string)
    requires |head| > 0 && !IsDigit(head[|head| - 1])
    requires forall i :: 0 <= i < |digits| ==> IsDigit(digits[i])
    ensures TrailingDigits(head + digits) == |digits|
    decreases |digits|
  {
    var s := head + digits;
    if |digits| == 0 {
      assert s == head;
    } else {
      assert s[..|s| - 1] == head + digits[..|digits| - 1];
      TrailingDigitsOf(head, digits[..|digits| - 1]);
    }
  }

  /** Whatever precedes the '-' does not change the result. */
  lemma SequenceIgnoresPrefix(prefix: string, suffix: string)
    requires |suffix| > 0 && suffix[0] == '-'
    ensures ExtractSequenceNumber(prefix + suffix) == ExtractSequenceNumber(suffix)
  {
    var uri := prefix + suffix;
    if |suffix| >= 3 && suffix[|suffix| - 3..] == ".ts" {
      assert uri[|uri| - 3..] == suffix[|suffix| - 3..];
      assert uri[..|uri| - 3] == prefix + suffix[..|suffix| - 3];
      StemIgnoresPrefix(prefix, suffix[..|suffix| - 3]);
    } else if |suffix| >= 3 {
      assert uri[|uri| - 3..] == suffix[|suffix| - 3..];
    } else if |uri| >= 3 {
      assert uri[|uri| - 3..][3 - |suffix|] == '-';
    }
  }

  /** Prepending text to a text that starts with '-' does not change its
      trailing digit run. */
  lemma {:induction false} TrailingDigitsAfter(prefix: string, s: string)
    requires |s| > 0 && s[0] == '-'
    ensures TrailingDigits(prefix + s) == TrailingDigits(s)
    decreases |s|
  {
    var t := prefix + s;
    if IsDigit(s[|s| - 1]) {
      assert t[..|t| - 1] == prefix + s[..|s| - 1];
      TrailingDigitsAfter(prefix, s[..|s| - 1]);
    }
  }
}

=== FILE: interface.dfy ===
/** The packet loop of the interface: classification of a received frame
    (`read_packet`), the ARP responder decision of `run`, the construction
    of the ARP reply from a clone of the request, and the assembly of hex
    frames typed on standard input (`process_stdin`).

    The device, the clock and the address-to-text conversion of the C
    library are not modelled as effects: a received frame is a parameter,
    the frames written to the device are an output list, `now` is a
    parameter, and `inet_ntop` is an uninterpreted function of the
    configuration. The loop ends with the first exception that `run` does
    not catch, which is an `Err` here.
 */
module Interface {
  import opened Bytes
  import opened Errors
  import opened Buffers
  import opened Protocol
  import opened TextCodec

  /** Milliseconds an ARP broadcast from one sender is held back before it is
      written again. */
  const REBROADCAST_INTERVAL := 1000

  /** Size of the character buffer `run` hands to `process_stdin`. */
  const STDIN_BUFFER_SIZE := 3000

  // ---------------------------------------------------------------------------
  // Reading a frame
  // ---------------------------------------------------------------------------

  /** What `read_packet` parsed after the Ethernet header. */
  datatype Payload = Ipv4Frame | Ipv6Frame(ipv6: Ipv6Header) | ArpFrame(arp: ArpHeader)

  /** An `EthernetPacket` once `read_done` is set: its headers and the parser
      it was read with, left after the last header read. */
  datatype Packet = Packet(eth: EthernetHeader, payload: Payload, parser: Buffer)

  /** `from_file_descripto(fd, ETHERNET_PACKET_MAX_SIZE)` after a successful
      `read` of `frame`: an owning fixed buffer of 1518 bytes holding the
      frame, cursor at 0. The bytes after the frame are whatever `malloc`
      left there; here they are zero. */
  function Received(frame: seq<Byte>): (b: Buffer)
    requires |frame| <= ETHERNET_PACKET_MAX_SIZE
    ensures b.Valid() && b.Data() == frame && b.Tell() == 0 && b.Allocated() == ETHERNET_PACKET_MAX_SIZE
    ensures b.owning && b.policy == Fixed
  {
    Buffer(frame + Zeros(ETHERNET_PACKET_MAX_SIZE - |frame|), |frame|, 0, true, Fixed)
  }

  /** `b` holds `frame` as its data in a fixed allocation of the device's
      maximum frame size. */
  predicate HoldsFrame(b: Buffer, frame: seq<Byte>) {
    b.Valid() && b.written == |frame| && |b.storage| == ETHERNET_PACKET_MAX_SIZE
    && b.storage[..|frame|] == frame && b.policy == Fixed
  }

  /** Inside the frame, the received buffer holds the frame's bytes. */
  lemma ReceivedSlice(frame: seq<Byte>, i: nat, j: nat)
    requires i <= j <= |frame| <= ETHERNET_PACKET_MAX_SIZE
    ensures Received(frame).storage[i..j] == frame[i..j]
  {
    assert Received(frame).storage[..|frame|] == frame;
  }

  /** The IPv6 branch of `read_packet`: the fixed header, then the payload
      length it announces must be exactly what is left of the frame. */
  function ReadIpv6Payload(b: Buffer): (r: Result<(Ipv6Header, Buffer)>)
    requires b.Valid()
    ensures r.Ok? <==> (b.BytesLeft() >= IPV6_HEADER_LENGTH
      && BeValue(b.storage[b.position + 4..b.position + 6]) == b.BytesLeft() - IPV6_HEADER_LENGTH)
    ensures r.Err? ==> (if b.BytesLeft() < IPV6_HEADER_LENGTH then r.error.BufferReadError?
                        else r.error == RuntimeError(Ipv6PayloadMismatch))
    ensures r.Ok? ==> r.value.0 == Ipv6At(b.storage, b.position)
    ensures r.Ok? ==> r.value.1 == b.(position := b.position + IPV6_HEADER_LENGTH)
  {
    var (header, rest) :- ParseIpv6(b);
    if header.payloadLength != rest.BytesLeft() then Err(RuntimeError(Ipv6PayloadMismatch))
    else Ok((header, rest))
  }

  /** The ARP branch of `read_packet`: the header, then nothing may be left. */
  function ReadArpPayload(b: Buffer): (r: Result<(ArpHeader, Buffer)>)
    requires b.Valid()
    ensures r.Ok? <==> (ArpFits(b.storage, b.position, b.written)
      && b.position + ArpSize(b.storage[b.position + 4], b.storage[b.position + 5]) == b.written)
    ensures r.Err? ==> (if ArpFits(b.storage, b.position, b.written) then r.error == RuntimeError(ArpTrailingData)
                        else r.error.BufferReadError?)
    ensures r.Ok? ==> r.value.0 == ArpAt(b.storage, b.position)
    ensures r.Ok? ==> r.value.1 == b.(position := b.written)
  {
    var (header, rest) :- ParseArp(b);
    if rest.BytesLeft() > 0 then Err(RuntimeError(ArpTrailingData))
    else Ok((header, rest))
  }

  /** `read_packet`: the Ethernet header, then a dispatch on its EtherType.
      An IPv4 frame is not read further; an IPv6 frame must carry exactly
      the payload its header announces; an ARP frame must end with its
      header; every other EtherType raises "Unsupported protocol". */
  function ReadPacket(b: Buffer): (r: Result<Packet>)
    requires b.Valid()
    ensures b.BytesLeft() < ETHERNET_HEADER_SIZE ==> r.Err? && r.error.BufferReadError?
    ensures r.Ok? ==> b.BytesLeft() >= ETHERNET_HEADER_SIZE && r.value.eth == EthernetAt(b.storage, b.position)
    ensures r.Ok? && r.value.payload.ArpFrame? ==>
      && r.value.eth.etherType == ETHERTYPE_ARP
      && ArpFits(b.storage, b.position + ETHERNET_HEADER_SIZE, b.written)
      && b.position + ETHERNET_HEADER_SIZE + ArpSize(b.storage[b.position + 18], b.storage[b.position + 19]) == b.written
      && r.value.payload.arp == ArpAt(b.storage, b.position + ETHERNET_HEADER_SIZE)
      && r.value.parser == b.(position := b.written)
  {
    var (eth, inner) :- ParseEthernet(b);
    if eth.etherType == ETHERTYPE_IPV4 then Ok(Packet(eth, Ipv4Frame, inner))
    else if eth.etherType == ETHERTYPE_IPV6 then
      var (header, rest) :- ReadIpv6Payload(inner);
      Ok(Packet(eth, Ipv6Frame(header), rest))
    else if eth.etherType == ETHERTYPE_ARP then
      var (header, rest) :- ReadArpPayload(inner);
      Ok(Packet(eth, ArpFrame(header), rest))
    else Err(RuntimeError(UnsupportedProtocol(eth.etherType)))
  }

  /** `read_packet` on an IPv4 frame stops after the Ethernet header. */
  lemma ReadPacketIpv4(b: Buffer)
    requires b.Valid() && b.BytesLeft() >= ETHERNET_HEADER_SIZE
    requires EthernetAt(b.storage, b.position).etherType == ETHERTYPE_IPV4
    ensures ReadPacket(b) == Ok(Packet(EthernetAt(b.storage, b.position), Ipv4Frame,
                                       b.(position := b.position + ETHERNET_HEADER_SIZE)))
  {
  }

  /** `read_packet` on an IPv6 frame succeeds or fails as the IPv6 branch
      does, and a success holds the IPv6 header after the Ethernet header. */
  lemma ReadPacketIpv6(b: Buffer)
    requires b.Valid() && b.BytesLeft() >= ETHERNET_HEADER_SIZE
    requires EthernetAt(b.storage, b.position).etherType == ETHERTYPE_IPV6
    ensures var inner := b.(position := b.position + ETHERNET_HEADER_SIZE);
      && (ReadPacket(b).Ok? <==> ReadIpv6Payload(inner).Ok?)
      && (ReadPacket(b).Err? ==> ReadPacket(b).error == ReadIpv6Payload(inner).error)
      && (ReadPacket(b).Ok? ==>
            ReadPacket(b).value == Packet(EthernetAt(b.storage, b.position), Ipv6Frame(Ipv6At(b.storage, inner.position)),
                                          b.(position := inner.position + IPV6_HEADER_LENGTH)))
  {
    assert ParseEthernet(b) == Ok((EthernetAt(b.storage, b.position), b.(position := b.position + ETHERNET_HEADER_SIZE)));
  }

  /** `read_packet` on an ARP frame succeeds or fails as the ARP branch
      does, and a success holds the ARP header after the Ethernet header,
      with the whole frame read. */
  lemma ReadPacketArp(b: Buffer)
    requires b.Valid() && b.BytesLeft() >= ETHERNET_HEADER_SIZE
    requires EthernetAt(b.storage, b.position).etherType == ETHERTYPE_ARP
    ensures var inner := b.(position := b.position + ETHERNET_HEADER_SIZE);
      && (ReadPacket(b).Ok? <==> ReadArpPayload(inner).Ok?)
      && (ReadPacket(b).Err? ==> ReadPacket(b).error == ReadArpPayload(inner).error)
      && (ReadPacket(b).Ok? ==>
            ReadPacket(b).value == Packet(EthernetAt(b.storage, b.position), ArpFrame(ArpAt(b.storage, inner.position)),
                                          b.(position := b.written)))
  {
    assert ParseEthernet(b) == Ok((EthernetAt(b.storage, b.position), b.(position := b.position + ETHERNET_HEADER_SIZE)));
  }

  /** Every other EtherType raises "Unsupported protocol". */
  lemma ReadPacketUnsupported(b: Buffer)
    requires b.Valid() && b.BytesLeft() >= ETHERNET_HEADER_SIZE
    requires EthernetAt(b.storage, b.position).etherType !in {ETHERTYPE_IPV4, ETHERTYPE_IPV6, ETHERTYPE_ARP}
    ensures ReadPacket(b) == Err(RuntimeError(UnsupportedProtocol(EthernetAt(b.storage, b.position).etherType)))
  {
  }

  // ---------------------------------------------------------------------------
  // Address text and the packet log
  // ---------------------------------------------------------------------------

  /** The address family handed to `inet_ntop`. */
  datatype Family = Inet | Inet6

  /** The settings `run` consults: the interface's MAC address as text (the
      `mac` member), its IP address as text (`local_ip`), and the C
      library's `inet_ntop`, which is not modelled. */
  datatype Config = Config(mac: string, localIp: string, ntop: (Family, seq<Byte>) -> string)
  {
    /** `mac_string_to_bytes` fills a 6-byte allocation one ':'-separated
        piece at a time, so the configured text must have exactly six
        pieces for the local MAC to be defined. */
    predicate Valid() {
      |Split(mac, ':')| == MAC_ADDR_LEN
    }
  }

  /** `get_dst_ip` / `get_src_ip` of an ARP packet: the address rendered as
      IPv4 text for a protocol length of 4, as IPv6 text for 16, and a
      `runtime_error` for any other length. */
  function ArpIpText(ntop: (Family, seq<Byte>) -> string, plen: int, address: seq<Byte>): (r: Result<string>)
    ensures r.Ok? <==> plen == 4 || plen == 16
    ensures r.Err? ==> r.error == RuntimeError(UnsupportedAddressLength(plen))
  {
    if plen == 4 then Ok(ntop(Inet, address))
    else if plen == 16 then Ok(ntop(Inet6, address))
    else Err(RuntimeError(UnsupportedAddressLength(plen)))
  }

  /** What `EthernetPacket::print` comes to as written: the destination and
      source address text, a raised exception, or a read of the IPv6
      address pointers that were never set. */
  datatype PrintOutcome = Printed(dst: string, src: string) | Raised(error: Error) | UnsetAddresses

  /** `EthernetPacket::print` as written, which `run` calls for every
      packet outside its `try`. In `get_dst_ip` and `get_src_ip` the IPv4
      case has no statement left and no `break`, so it falls into the IPv6
      case, which hands `ipv6_header.dest_ip` / `source_ip` to `inet_ntop`;
      `read_packet` sets those only for an IPv6 frame. */
  function PrintPacketAsWritten(ntop: (Family, seq<Byte>) -> string, packet: Packet): (r: PrintOutcome)
    ensures r.UnsetAddresses? <==> packet.payload.Ipv4Frame?
    ensures r.Raised? <==> packet.payload.ArpFrame? && packet.payload.arp.protocolLen !in {4, 16}
    ensures r.Raised? ==> r.error == RuntimeError(UnsupportedAddressLength(packet.payload.arp.protocolLen))
    ensures packet.payload.Ipv6Frame? ==>
      r == Printed(ntop(Inet6, packet.payload.ipv6.destIp), ntop(Inet6, packet.payload.ipv6.sourceIp))
  {
    match packet.payload
    case Ipv4Frame => UnsetAddresses
    case Ipv6Frame(h) => Printed(ntop(Inet6, h.destIp), ntop(Inet6, h.sourceIp))
    case ArpFrame(h) =>
      match ArpIpText(ntop, h.protocolLen, h.targetIp)
      case Err(e) => Raised(e)
      case Ok(dst) => Printed(dst, ArpIpText(ntop, h.protocolLen, h.senderIp).value)
  }

  /** The destination and source address of the IPv4 header that follows
      the Ethernet header: bytes 30-33 and 26-29 of the frame. */
  function Ipv4Addresses(data: seq<Byte>): (r: (seq<Byte>, seq<Byte>))
    requires |data| >= ETHERNET_HEADER_SIZE + IPV4_HEADER_MIN_LENGTH
    ensures |r.0| == 4 && |r.1| == 4
    ensures var h := ParseIpv4(data[ETHERNET_HEADER_SIZE..]);
      Be32(r.0[0], r.0[1], r.0[2], r.0[3]) == h.destIp && Be32(r.1[0], r.1[1], r.1[2], r.1[3]) == h.sourceIp
  {
    (data[30..34], data[26..30])
  }

  /** `EthernetPacket::print` as evidently intended: an IPv4 packet renders
      the addresses of its IPv4 header as the commented-out `inet_ntoa`
      code would (nothing when the frame is too short to hold that header),
      an IPv6 packet those of its IPv6 header, and an ARP packet those of
      its ARP header. Only the ARP rendering can raise, and only for a
      protocol length other than 4 or 16. */
  function PrintPacket(ntop: (Family, seq<Byte>) -> string, packet: Packet): (r: Result<(string, string)>)
    ensures r.Err? <==> packet.payload.ArpFrame? && packet.payload.arp.protocolLen !in {4, 16}
    ensures r.Err? ==> r.error == RuntimeError(UnsupportedAddressLength(packet.payload.arp.protocolLen))
    ensures packet.payload.Ipv4Frame? && packet.parser.Valid()
            && |packet.parser.Data()| >= ETHERNET_HEADER_SIZE + IPV4_HEADER_MIN_LENGTH ==>
      var (dst, src) := Ipv4Addresses(packet.parser.Data());
      r == Ok((ntop(Inet, dst), ntop(Inet, src)))
    ensures packet.payload.Ipv6Frame? ==>
      r == Ok((ntop(Inet6, packet.payload.ipv6.destIp), ntop(Inet6, packet.payload.ipv6.sourceIp)))
  {
    match packet.payload
    case ArpFrame(h) =>
      var dst :- ArpIpText(ntop, h.protocolLen, h.targetIp);
      var src := ArpIpText(ntop, h.protocolLen, h.senderIp).value;
      Ok((dst, src))
    case Ipv6Frame(h) => Ok((ntop(Inet6, h.destIp), ntop(Inet6, h.sourceIp)))
    case Ipv4Frame =>
      if packet.parser.Valid() && |packet.parser.Data()| >= ETHERNET_HEADER_SIZE + IPV4_HEADER_MIN_LENGTH then
        var (dst, src) := Ipv4Addresses(packet.parser.Data());
        Ok((ntop(Inet, dst), ntop(Inet, src)))
      else Ok(([], []))
  }

  /** Away from IPv4 the corrected print is the print as written. */
  lemma PrintAgreesOffIpv4(ntop: (Family, seq<Byte>) -> string, packet: Packet)
    requires !packet.payload.Ipv4Frame?
    ensures PrintPacketAsWritten(ntop, packet).Raised? ==>
      PrintPacket(ntop, packet) == Err(PrintPacketAsWritten(ntop, packet).error)
    ensures PrintPacketAsWritten(ntop, packet).Printed? ==>
      PrintPacket(ntop, packet) == Ok((PrintPacketAsWritten(ntop, packet).dst, PrintPacketAsWritten(ntop, packet).src))
  {
  }

  /** Every IPv4 frame shows the fall-through: `read_packet` accepts it
      after the Ethernet header alone, and the print as written then reads
      the unset IPv6 addresses, where the corrected print renders the
      frame's own IPv4 addresses. */
  lemma Ipv4FrameReadsUnset(ntop: (Family, seq<Byte>) -> string, frame: seq<Byte>)
    requires ETHERNET_HEADER_SIZE <= |frame| <= ETHERNET_PACKET_MAX_SIZE
    requires frame[12] == 0x08 && frame[13] == 0x00
    ensures ReadPacket(Received(frame)).Ok?
    ensures PrintPacketAsWritten(ntop, ReadPacket(Received(frame)).value) == UnsetAddresses
    ensures PrintPacket(ntop, ReadPacket(Received(frame)).value).Ok?
    ensures |frame| >= ETHERNET_HEADER_SIZE + IPV4_HEADER_MIN_LENGTH ==>
      PrintPacket(ntop, ReadPacket(Received(frame)).value) == Ok((ntop(Inet, frame[30..34]), ntop(Inet, frame[26..30])))
  {
    var b := Received(frame);
    ReceivedSlice(frame, 12, 14);
    var t: seq<Byte> := [0x08, 0x00];
    assert frame[12..14] == t && t[..1] == [0x08] && [0x08][..0] == [];
    assert EthernetAt(b.storage, 0).etherType == ETHERTYPE_IPV4;
    ReadPacketIpv4(b);
  }

  // ---------------------------------------------------------------------------
  // The ARP reply
  // ---------------------------------------------------------------------------

  /** The target protocol address of an ARP frame that ends with its
      header: the last `plen` bytes. */
  function ArpTargetIp(frame: seq<Byte>): seq<Byte>
    requires |frame| >= 20 && frame[19] as int <= |frame|
  {
    frame[|frame| - frame[19] as int..]
  }

  /** The frame read from the device parses as an ARP packet. */
  predicate IsArpFrame(frame: seq<Byte>)
    requires |frame| <= ETHERNET_PACKET_MAX_SIZE
  {
    ReadPacket(Received(frame)).Ok? && ReadPacket(Received(frame)).value.payload.ArpFrame?
  }

  /** The bytes of a frame `read_packet` accepts as ARP: EtherType 0x0806,
      and an ARP header (8 fixed bytes and four addresses of the lengths
      in bytes 18 and 19) that ends exactly where the frame ends. */
  predicate ArpLayout(frame: seq<Byte>) {
    |frame| >= 22 && BeValue(frame[12..14]) == ETHERTYPE_ARP
    && |frame| == 22 + 2 * frame[18] as int + 2 * frame[19] as int
  }

  /** The reply the responder writes for an ARP request `frame` when the
      local MAC is `mac`, byte by byte: the Ethernet destination becomes the
      6 bytes at offset 22 (the requester's sender hardware address when
      `hlen == 6`), the Ethernet source and the 6 bytes at `28 + plen` become
      the local MAC, the operation becomes 2, and everything else is the
      request. The frame is long enough for the last MAC copy. */
  function ReplyBytes(frame: seq<Byte>, mac: seq<Byte>): (r: seq<Byte>)
    requires |frame| >= 20 && |frame| >= 28 + frame[19] as int && |mac| == MAC_ADDR_LEN
    ensures |r| == Max(|frame|, 34 + frame[19] as int)
  {
    var plen := frame[19];
    seq(Max(|frame|, 34 + plen), i requires 0 <= i < Max(|frame|, 34 + plen) =>
      if i < 6 then frame[22 + i]
      else if i < 12 then mac[i - 6]
      else if i == 20 then 0
      else if i == 21 then ARP_REPLY
      else if 28 + plen <= i < 34 + plen then mac[i - 28 - plen]
      else frame[i])
  }

  /** The reply to an Ethernet ARP request (`hlen == 6`), field by field:
      it has the request's length; the Ethernet destination is the
      requester's ARP sender MAC and the Ethernet source the local MAC; the
      operation is 2; the ARP target MAC is the local MAC; and the sender
      MAC, the sender IP and the target IP are those of the request, not
      swapped. */
  lemma ReplyFields(frame: seq<Byte>, mac: seq<Byte>)
    requires ArpLayout(frame) && frame[18] == 6 && |mac| == MAC_ADDR_LEN
    ensures |frame| >= 28 + frame[19] as int
    ensures var r, p := ReplyBytes(frame, mac), frame[19] as int;
      && |r| == |frame|
      && r[..6] == frame[22..28]
      && r[6..12] == mac
      && r[12..20] == frame[12..20]
      && BeValue(r[20..22]) == ARP_REPLY
      && r[22..28 + p] == frame[22..28 + p]
      && r[28 + p..34 + p] == mac
      && r[34 + p..] == frame[34 + p..]
  {
    var r, p := ReplyBytes(frame, mac), frame[19] as int;
    assert r[..6] == frame[22..28];
    assert r[6..12] == mac;
    assert r[12..20] == frame[12..20];
    assert r[20..22] == [0, ARP_REPLY];
    assert [0, ARP_REPLY][..1] == [0];
    assert BeValue([0]) == 0 by {
      assert [0][..0] == [];
    }
    assert r[22..28 + p] == frame[22..28 + p];
    assert r[28 + p..34 + p] == mac;
    assert r[34 + p..] == frame[34 + p..];
  }

  /** The three setters applied to the clone produce `ReplyBytes`. */
  lemma PatchesGiveReply(frame: seq<Byte>, mac: seq<Byte>, b0: Buffer, b1: Buffer, b2: Buffer, b3: Buffer)
    requires 20 <= |frame| <= ETHERNET_PACKET_MAX_SIZE && |mac| == MAC_ADDR_LEN
    requires |frame| >= 28 + frame[19] as int
    requires HoldsFrame(b0, frame)
    requires PatchedTwice(b0, b1, 6, mac, 28 + frame[19] as int, mac)
    requires PatchedTwice(b1, b2, 0, frame[22..28], 22, frame[22..28])
    requires Patched(b2, b3, 20, [0, ARP_REPLY])
    ensures b3.Data() == ReplyBytes(frame, mac)
  {
    var plen := frame[19];
    var expected := ReplyBytes(frame, mac);
    assert b3.written == |expected|;
    forall i | 0 <= i < |expected| ensures b3.storage[i] == expected[i] {
      if i < 6 {
        assert b3.storage[i] == b2.storage[0..6][i];
      } else if i < 12 {
        assert b3.storage[i] == b1.storage[6..12][i - 6];
      } else if i == 20 || i == 21 {
        assert b3.storage[i] == b3.storage[20..22][i - 20];
      } else if 22 <= i < 28 {
        assert b3.storage[i] == b2.storage[22..28][i - 22];
      } else if 28 + plen <= i < 34 + plen {
        assert b3.storage[i] == b1.storage[28 + plen..34 + plen][i - 28 - plen];
      } else {
        assert b3.storage[i] == b0.storage[i];
      }
    }
  }

  /** The reply operation code as `set_operation` writes it. */
  lemma ReplyOperationBytes()
    ensures BeBytes(ARP_REPLY, 2) == [0, ARP_REPLY]
  {
    assert BeBytes(ARP_REPLY, 2) == BeBytes(0, 1) + [ARP_REPLY];
  }

  /** `set_dest_mac` with the 6 bytes at offset 22 of the request, then
      `set_operation(ARP_REPLY)`, on a clone that `set_src_mac` has patched. */
  function FinishReply(h: ArpHeader, frame: seq<Byte>, mac: seq<Byte>, b0: Buffer, withSrc: Buffer): (r: Buffer)
    requires 28 <= |frame| && |mac| == MAC_ADDR_LEN && HoldsFrame(b0, frame)
    requires |frame| >= 28 + frame[19] as int
    requires PatchedTwice(b0, withSrc, 6, mac, 28 + frame[19] as int, mac)
    ensures r.Valid() && r.Data() == ReplyBytes(frame, mac)
  {
    assert b0.storage[22..28] == frame[22..28] by {
      assert b0.storage[..|frame|][22..28] == frame[22..28];
    }
    var withDest := SetDestMac(withSrc, b0.storage[22..28]).value;
    var withOperation := SetOperation(h, withDest, ARP_REPLY).value.1;
    ReplyOperationBytes();
    PatchesGiveReply(frame, mac, b0, withSrc, withDest, withOperation);
    withOperation
  }

  /** `set_src_mac(mac)`, `set_dest_mac` with the 6 bytes at offset 22 of
      the request, and `set_operation(ARP_REPLY)` on the clone of a frame
      whose whole data has been read. Only the seek of `set_src_mac` to
      `28 + plen` can fail. */
  function PatchReply(h: ArpHeader, frame: seq<Byte>, mac: seq<Byte>): (r: Result<Buffer>)
    requires 20 <= |frame| <= ETHERNET_PACKET_MAX_SIZE && h.protocolLen == frame[19] && |mac| == MAC_ADDR_LEN
    ensures r.Ok? <==> |frame| >= 28 + frame[19] as int
    ensures r.Err? ==> r.error == BufferReadError(28 + frame[19] as int - |frame|)
    ensures r.Ok? ==> r.value.Valid() && r.value.Data() == ReplyBytes(frame, mac)
  {
    var b0 := Received(frame).(position := |frame|);
    var withSrc :- SetSrcMac(h, b0, mac);
    Ok(FinishReply(h, frame, mac, b0, withSrc))
  }

  /** What an ARP frame read from the device tells about its bytes: the
      parser ends at the end of the frame and the protocol length is byte 19. */
  lemma ArpFrameFacts(frame: seq<Byte>)
    requires |frame| <= ETHERNET_PACKET_MAX_SIZE && IsArpFrame(frame)
    ensures var request := ReadPacket(Received(frame)).value;
      && request.parser == Received(frame).(position := |frame|)
      && ArpLayout(frame)
      && request.payload.arp.protocolLen == frame[19]
      && request.payload.arp.operation == BeValue(frame[20..22])
      && request.payload.arp.targetIp == ArpTargetIp(frame)
  {
    var b := Received(frame);
    assert b.storage[18] == frame[18] && b.storage[19] == frame[19];
    ReceivedSlice(frame, 12, 14);
    ReceivedSlice(frame, 20, 22);
    ReceivedSlice(frame, |frame| - frame[19] as int, |frame|);
  }

  /** A frame with the ARP layout is read as an ARP packet. */
  lemma ArpFrameOfLayout(frame: seq<Byte>)
    requires |frame| <= ETHERNET_PACKET_MAX_SIZE && ArpLayout(frame)
    ensures IsArpFrame(frame)
  {
    var b := Received(frame);
    assert b.storage[18] == frame[18] && b.storage[19] == frame[19];
    ReceivedSlice(frame, 12, 14);
    assert EthernetAt(b.storage, 0).etherType == ETHERTYPE_ARP;
    ReadPacketArp(b);
    var inner := b.(position := ETHERNET_HEADER_SIZE);
    assert ReadArpPayload(inner).Ok?;
  }

  /** `read_packet` takes a frame for ARP exactly when its bytes have the
      ARP layout. */
  lemma ArpLayoutIff(frame: seq<Byte>)
    requires |frame| <= ETHERNET_PACKET_MAX_SIZE
    ensures IsArpFrame(frame) <==> ArpLayout(frame)
  {
    if IsArpFrame(frame) {
      ArpFrameFacts(frame);
    }
    if ArpLayout(frame) {
      ArpFrameOfLayout(frame);
    }
  }

  /** What `read_packet` made of `frame`, stated on the frame's bytes: the
      Ethernet header is bytes 0-13, the payload is ARP exactly for the ARP
      layout, and then the protocol length, the operation and the target
      protocol address come from bytes 19, 20-21 and the last `plen` bytes. */
  predicate ReadsAs(packet: Packet, frame: seq<Byte>) {
    && |frame| >= ETHERNET_HEADER_SIZE
    && packet.eth == EthernetHeader(frame[..6], frame[6..12], BeValue(frame[12..14]))
    && (packet.payload.ArpFrame? <==> ArpLayout(frame))
    && (packet.payload.ArpFrame? ==>
          && packet.payload.arp.protocolLen == frame[19] as int
          && packet.payload.arp.operation == BeValue(frame[20..22])
          && packet.payload.arp.targetIp == ArpTargetIp(frame))
  }

  /** Every packet `read_packet` returns for a received frame is described
      by `ReadsAs`. */
  lemma ReadFacts(frame: seq<Byte>)
    requires |frame| <= ETHERNET_PACKET_MAX_SIZE && ReadPacket(Received(frame)).Ok?
    ensures ReadsAs(ReadPacket(Received(frame)).value, frame)
  {
    ReceivedSlice(frame, 0, 6);
    ReceivedSlice(frame, 6, 12);
    ReceivedSlice(frame, 12, 14);
    ArpLayoutIff(frame);
    if IsArpFrame(frame) {
      ArpFrameFacts(frame);
    }
  }

  /** Reading the clone of an ARP frame gives the same packet: `clone`
      copies the data and puts the cursor at 0, where the frame was read
      from. */
  lemma CloneRereads(frame: seq<Byte>)
    requires |frame| <= ETHERNET_PACKET_MAX_SIZE && IsArpFrame(frame)
    ensures Clone(ReadPacket(Received(frame)).value.parser) == Received(frame)
  {
    ArpFrameFacts(frame);
    CloneOfReceived(frame, |frame|);
  }

  /** `clone` of a received frame, wherever its cursor is, is the received
      frame with the cursor at 0. */
  lemma CloneOfReceived(frame: seq<Byte>, position: int)
    requires 0 <= position <= |frame| <= ETHERNET_PACKET_MAX_SIZE
    ensures Clone(Received(frame).(position := position)) == Received(frame)
  {
    assert Received(frame).storage[..|frame|] == frame;
  }

  /** The reply branch of `run` once the local MAC text is parsed:
      `clone_packet` (a clone of the request's buffer, read again from
      offset 0), then the three setters; what is written is the clone's
      data. `set_src_mac` raises when the frame ends before offset
      `28 + plen`. */
  function Reply(frame: seq<Byte>, mac: seq<Byte>): (r: Result<seq<Byte>>)
    requires |frame| <= ETHERNET_PACKET_MAX_SIZE && IsArpFrame(frame) && |mac| == MAC_ADDR_LEN
    ensures ArpLayout(frame)
    ensures r.Ok? <==> |frame| >= 28 + frame[19] as int
    ensures r.Err? ==> r.error == BufferReadError(28 + frame[19] as int - |frame|)
    ensures r.Ok? ==> r.value == ReplyBytes(frame, mac)
  {
    ArpFrameFacts(frame);
    CloneRereads(frame);
    var request := ReadPacket(Received(frame)).value;
    var response := ReadPacket(Clone(request.parser)).value;
    var patched :- PatchReply(response.payload.arp, frame, mac);
    Ok(patched.Data())
  }

  // ---------------------------------------------------------------------------
  // One frame through `run`
  // ---------------------------------------------------------------------------

  /** What one pass of the loop leaves behind: the broadcast time table and
      the frames written to the device, in order. */
  datatype Outcome = Outcome(table: map<string, int>, frames: seq<seq<Byte>>)

  /** A broadcast from `sender` may be written again: it was never written,
      or more than `REBROADCAST_INTERVAL` milliseconds ago. */
  predicate Due(table: map<string, int>, sender: string, now: int) {
    sender !in table || now - table[sender] > REBROADCAST_INTERVAL
  }

  /** The address text `get_dst_ip` compares with `local_ip`. */
  function TargetText(cfg: Config, frame: seq<Byte>): string
    requires |frame| >= 20 && frame[19] as int <= |frame|
  {
    cfg.ntop(if frame[19] == 4 then Inet else Inet6, ArpTargetIp(frame))
  }

  /** An ARP request for the interface's own address. */
  predicate RequestForUs(cfg: Config, frame: seq<Byte>)
    requires |frame| >= 22 && frame[19] as int <= |frame|
  {
    TargetText(cfg, frame) == cfg.localIp && BeValue(frame[20..22]) == ARP_REQUEST
  }

  /** The table only gains keys, and an entry that changes is set to `now`;
      the table changes only when the frame itself is written back. */
  predicate TableStep(table: map<string, int>, now: int, frame: seq<Byte>, out: Outcome) {
    && table.Keys <= out.table.Keys && |out.frames| <= 1
    && (forall k :: k in table && out.table[k] != table[k] ==> out.table[k] == now)
    && (out.table != table ==> out.frames == [frame] && |out.table.Keys - table.Keys| <= 1)
  }

  /** The reply branch of `run`: `mac_string_to_bytes` of the configured
      MAC text, then the reply built from a clone of the request, written
      to the device. */
  function Answer(cfg: Config, table: map<string, int>, frame: seq<Byte>): (r: Result<Outcome>)
    requires cfg.Valid() && |frame| <= ETHERNET_PACKET_MAX_SIZE && ArpLayout(frame)
    ensures r.Ok? ==> r.value.table == table && |r.value.frames| == 1
  {
    var mac :- MacStringToBytes(cfg.mac);
    ArpFrameOfLayout(frame);
    var reply :- Reply(frame, mac);
    Ok(Outcome(table, [reply]))
  }

  /** The three things `run` can do with an ARP frame. */
  datatype Action = Ignore | AnswerRequest | Rebroadcast(sender: string)

  /** The ARP decision of `run`, on the bytes of an ARP frame whose
      addresses `print` could render: nothing unless the Ethernet
      destination is the broadcast address; then the reply to a request
      for the local IP, or else the frame itself written back, at most once
      per `REBROADCAST_INTERVAL` per sender MAC. */
  function Decide(cfg: Config, table: map<string, int>, now: int, frame: seq<Byte>): (r: Action)
    requires ArpLayout(frame)
    ensures r.Rebroadcast? ==> r.sender == MacToString(frame[6..12]) && Due(table, r.sender, now)
  {
    var sender := MacToString(frame[6..12]);
    if MacToString(frame[..6]) != BROADCAST_TEXT then Ignore
    else if RequestForUs(cfg, frame) then AnswerRequest
    else if Due(table, sender, now) then Rebroadcast(sender)
    else Ignore
  }

  /** Carrying out an action: the reply, or the frame written back with
      its sender's entry set to `now`. */
  function Perform(cfg: Config, table: map<string, int>, now: int, frame: seq<Byte>, action: Action): (r: Result<Outcome>)
    requires cfg.Valid() && |frame| <= ETHERNET_PACKET_MAX_SIZE && ArpLayout(frame)
    ensures r.Ok? ==> TableStep(table, now, frame, r.value)
  {
    match action
    case Ignore => Ok(Outcome(table, []))
    case AnswerRequest => Answer(cfg, table, frame)
    case Rebroadcast(sender) => Ok(Outcome(table[sender := now], [frame]))
  }

  /** What `run` does with a packet after `read_packet`: `print`, then for
      an ARP packet the ARP decision on the frame it was read from. */
  function Respond(cfg: Config, table: map<string, int>, now: int, frame: seq<Byte>, packet: Packet): (r: Result<Outcome>)
    requires cfg.Valid() && |frame| <= ETHERNET_PACKET_MAX_SIZE && ReadsAs(packet, frame)
    ensures r.Ok? ==> TableStep(table, now, frame, r.value)
  {
    var _ :- PrintPacket(cfg.ntop, packet);
    if !packet.payload.ArpFrame? then Ok(Outcome(table, []))
    else Perform(cfg, table, now, frame, Decide(cfg, table, now, frame))
  }

  /** The loop body of `run` after a frame was read from the device:
      `read_packet`, then `Respond`. Every exception raised on the way ends
      the loop. */
  function Step(cfg: Config, table: map<string, int>, now: int, frame: seq<Byte>): (r: Result<Outcome>)
    requires cfg.Valid() && |frame| <= ETHERNET_PACKET_MAX_SIZE
    ensures r.Ok? ==> TableStep(table, now, frame, r.value)
  {
    var packet :- ReadPacket(Received(frame));
    ReadFacts(frame);
    Respond(cfg, table, now, frame, packet)
  }

  /** Every frame `read_packet` rejects ends the loop with its exception;
      every frame it accepts is handled by `Respond`. */
  lemma StepThroughRespond(cfg: Config, table: map<string, int>, now: int, frame: seq<Byte>)
    requires cfg.Valid() && |frame| <= ETHERNET_PACKET_MAX_SIZE
    ensures var read := ReadPacket(Received(frame));
      && (read.Err? ==> Step(cfg, table, now, frame) == Err(read.error))
      && (read.Ok? ==> ReadsAs(read.value, frame)
                       && Step(cfg, table, now, frame) == Respond(cfg, table, now, frame, read.value))
  {
    if ReadPacket(Received(frame)).Ok? {
      ReadFacts(frame);
    }
  }

  /** IPv4 and IPv6 frames are read and logged, and nothing else happens
      (with the corrected `PrintPacket`; see `Ipv4FrameReadsUnset`). */
  lemma RespondNotArp(cfg: Config, table: map<string, int>, now: int, frame: seq<Byte>, packet: Packet)
    requires cfg.Valid() && |frame| <= ETHERNET_PACKET_MAX_SIZE && ReadsAs(packet, frame)
    requires !ArpLayout(frame)
    ensures Respond(cfg, table, now, frame, packet) == Ok(Outcome(table, []))
  {
  }

  /** An ARP frame whose protocol length is neither 4 nor 16 ends the loop:
      `print` cannot render its addresses. */
  lemma RespondUnsupportedLength(cfg: Config, table: map<string, int>, now: int, frame: seq<Byte>, packet: Packet)
    requires cfg.Valid() && |frame| <= ETHERNET_PACKET_MAX_SIZE && ReadsAs(packet, frame)
    requires ArpLayout(frame) && frame[19] != 4 && frame[19] != 16
    ensures Respond(cfg, table, now, frame, packet) == Err(RuntimeError(UnsupportedAddressLength(frame[19])))
  {
  }

  /** An ARP frame whose destination is not ff:ff:ff:ff:ff:ff is ignored. */
  lemma DecideNotBroadcast(cfg: Config, table: map<string, int>, now: int, frame: seq<Byte>)
    requires ArpLayout(frame) && frame[..6] != BROADCAST_MAC
    ensures Decide(cfg, table, now, frame) == Ignore
  {
    MacBroadcastText(frame[..6]);
  }

  /** A broadcast ARP request for the local IP is answered. */
  lemma DecideReply(cfg: Config, table: map<string, int>, now: int, frame: seq<Byte>)
    requires ArpLayout(frame) && frame[..6] == BROADCAST_MAC && RequestForUs(cfg, frame)
    ensures Decide(cfg, table, now, frame) == AnswerRequest
  {
    MacBroadcastText(frame[..6]);
  }

  /** Any other broadcast ARP frame is written back exactly when its sender
      is due. */
  lemma DecideRebroadcast(cfg: Config, table: map<string, int>, now: int, frame: seq<Byte>)
    requires ArpLayout(frame) && frame[..6] == BROADCAST_MAC && !RequestForUs(cfg, frame)
    ensures var sender := MacToString(frame[6..12]);
      Decide(cfg, table, now, frame) == if Due(table, sender, now) then Rebroadcast(sender) else Ignore
  {
    MacBroadcastText(frame[..6]);
  }

  /** The answer is `ReplyBytes` with the parsed local MAC, unless the local
      MAC text does not parse or the frame is too short for the second copy
      of the local MAC; the table is left alone. */
  lemma AnswerIsReply(cfg: Config, table: map<string, int>, frame: seq<Byte>)
    requires cfg.Valid() && |frame| <= ETHERNET_PACKET_MAX_SIZE && ArpLayout(frame)
    ensures var mac := MacStringToBytes(cfg.mac);
      Answer(cfg, table, frame) ==
        if mac.Err? then Err(mac.error)
        else if |frame| < 28 + frame[19] as int then Err(BufferReadError(28 + frame[19] as int - |frame|))
        else Ok(Outcome(table, [ReplyBytes(frame, mac.value)]))
  {
  }
}

=== FILE: loop.dfy ===
/** The loop of `MayhemInterface::run` over time: frames read from the
    device go through `Interface.Step`; when the device has no data, text
    typed on standard input is gathered into lines by `process_stdin`, and
    each complete line of hex is written to the device as one frame.

    A run is a sequence of events. Standard input is a pipe of text that
    arrives over time; `read` takes as much of it as is there, up to the
    room left in the 3000-character buffer (one character is kept for the
    terminating NUL). The loop ends at the first exception `run` does not
    catch. */
module Loop {
  import opened Bytes
  import opened Errors
  import opened Protocol
  import opened TextCodec
  import opened Interface

  /** Characters of standard input `run` can hold before a newline. */
  const STDIN_CAPACITY := STDIN_BUFFER_SIZE - 1

  // ---------------------------------------------------------------------------
  // Standard input
  // ---------------------------------------------------------------------------

  /** What `std::string(buffer)` keeps of `s`: the characters before its
      first NUL. */
  function UpToNul(s: string): (r: string)
    ensures r <= s && '\0' !in r
    ensures |r| < |s| ==> s[|r|] == '\0'
  {
    if |s| == 0 || s[0] == '\0' then [] else [s[0]] + UpToNul(s[1..])
  }

  /** The end of `process_stdin` once a chunk has been appended: text that
      ends a line hands the line, without its newline and cut at the first
      NUL, to `hexStringToBytes`; a line that decodes is the one frame
      written to the device. Either way the gathered text is dropped. */
  function Gather(text: string): (r: (string, seq<seq<Byte>>))
    requires 0 < |text|
    ensures text[|text| - 1] != '\n' ==> r == (text, [])
    ensures text[|text| - 1] == '\n' ==> r.0 == [] && |r.1| <= 1
  {
    if text[|text| - 1] != '\n' then (text, [])
    else
      match HexStringToBytes(UpToNul(text[..|text| - 1]))
      case Ok(frame) => ([], [frame])
      case Err(_) => ([], [])
  }

  /** `process_stdin`, given the characters already gathered and the chunk
      `read` returned (empty when it returned nothing or failed). */
  function ProcessStdin(pending: string, chunk: string): (r: (string, seq<seq<Byte>>))
    requires |pending| + |chunk| <= STDIN_CAPACITY
    ensures |r.0| <= STDIN_CAPACITY && |r.1| <= 1
    ensures |chunk| == 0 ==> r == (pending, [])
    ensures |chunk| > 0 && chunk[|chunk| - 1] != '\n' ==> r == (pending + chunk, [])
    ensures |chunk| > 0 && chunk[|chunk| - 1] == '\n' ==> r.0 == []
  {
    if |chunk| == 0 then (pending, []) else Gather(pending + chunk)
  }

  /** A frame decoded from standard input fits the 1500-byte array
      `process_stdin` decodes into. */
  lemma StdinFrameFits(pending: string, chunk: string)
    requires |pending| + |chunk| <= STDIN_CAPACITY
    ensures forall f :: f in ProcessStdin(pending, chunk).1 ==> |f| < 1500
  {
    if |chunk| > 0 {
      var text := pending + chunk;
      if text[|text| - 1] == '\n' {
        var line := UpToNul(text[..|text| - 1]);
        assert |line| <= STDIN_CAPACITY - 1;
        var decoded := HexStringToBytes(line);
        if decoded.Ok? {
          assert |decoded.value| <= (STDIN_CAPACITY - 1) / 2;
          assert ProcessStdin(pending, chunk).1 == [decoded.value];
        } else {
          assert ProcessStdin(pending, chunk).1 == [];
        }
      }
    }
  }

  /** A frame typed as uppercase hex on a line of its own is written to the
      device as exactly that frame. */
  lemma StdinLineRoundTrip(frame: seq<Byte>)
    requires 2 * |frame| + 1 <= STDIN_CAPACITY
    ensures ProcessStdin([], StringToHex(frame) + "\n") == ([], [frame])
  {
    var hex := StringToHex(frame);
    var text := [] + (hex + "\n");
    assert |text| > 0 && text[|text| - 1] == '\n' && UpToNul(text[..|text| - 1]) == hex by {
      LineOf(hex, text);
      NoNulInHex(hex);
    }
    assert HexStringToBytes(hex) == Ok(frame) by {
      HexRoundTrip(frame);
    }
  }

  /** The line of a text made of `line` and a newline. */
  lemma LineOf(line: string, text: string)
    requires text == [] + (line + "\n")
    ensures |text| == |line| + 1 && text[..|line|] == line && text[|line|] == '\n'
  {
    assert text == line + "\n";
  }

  /** Text without NUL is kept whole by `UpToNul`. */
  lemma {:induction false} NoNulInHex(s: string)
    requires forall i :: 0 <= i < |s| ==> IsHexChar(s[i])
    ensures UpToNul(s) == s
  {
    if |s| > 0 {
      NoNulInHex(s[1..]);
    }
  }

  /** How the line arrives does not matter: a chunk that does not end a
      line followed by another chunk has the effect of the two chunks read
      at once. */
  lemma StdinChunking(pending: string, first: string, second: string)
    requires |pending| + |first| + |second| <= STDIN_CAPACITY
    requires |first| > 0 && first[|first| - 1] != '\n'
    ensures ProcessStdin(ProcessStdin(pending, first).0, second) == ProcessStdin(pending, first + second)
  {
    if |second| == 0 {
      assert first + second == first;
    } else {
      assert (pending + first) + second == pending + (first + second);
    }
  }

  /** Once the buffer holds `STDIN_CAPACITY` characters without a newline,
      `read` is asked for no characters at all, so nothing typed afterwards
      is ever taken in. */
  lemma StdinStall(pending: string, chunk: string)
    requires |pending| == STDIN_CAPACITY && |pending| + |chunk| <= STDIN_CAPACITY
    ensures ProcessStdin(pending, chunk) == (pending, [])
  {
  }

  // ---------------------------------------------------------------------------
  // The loop
  // ---------------------------------------------------------------------------

  /** One pass of the loop: a frame the device delivered at time `now`,
      or a read that found no data, after which `text` (possibly empty)
      has arrived on standard input. */
  datatype Event = Received(frame: seq<Byte>, now: int) | NoData(text: string)

  /** The state `run` keeps across passes: the broadcast time table, the
      stdin buffer's gathered characters, the text still waiting in the
      stdin pipe, and every frame written to the device so far. */
  datatype State = State(table: map<string, int>, pending: string, pipe: string, written: seq<seq<Byte>>)
  {
    predicate Valid() {
      |pending| <= STDIN_CAPACITY
    }
  }

  /** The state before the first pass. */
  const Start: State := State(map[], [], [], [])

  /** What the loop does with one frame read from the device, given the
      table and the time. */
  type Handler = (map<string, int>, int, seq<Byte>) -> Result<Outcome>

  /** The handler of `run`: the device read takes at most
      `ETHERNET_PACKET_MAX_SIZE` bytes of a frame, then `Step`. */
  function FrameHandler(cfg: Config): (h: Handler)
    requires cfg.Valid()
    ensures forall table, now, frame :: h(table, now, frame) == Step(cfg, table, now, frame[..Min(|frame|, ETHERNET_PACKET_MAX_SIZE)])
  {
    (table, now, frame) => Step(cfg, table, now, frame[..Min(|frame|, ETHERNET_PACKET_MAX_SIZE)])
  }

  /** A handler that never drops a sender from the table. */
  ghost predicate KeepsSenders(handle: Handler) {
    forall table, now, frame :: handle(table, now, frame).Ok? ==> table.Keys <= handle(table, now, frame).value.table.Keys
  }

  /** The handler of `run` keeps every sender it has seen. */
  lemma FrameHandlerKeepsSenders(cfg: Config)
    requires cfg.Valid()
    ensures KeepsSenders(FrameHandler(cfg))
  {
    forall table, now, frame | FrameHandler(cfg)(table, now, frame).Ok?
      ensures table.Keys <= FrameHandler(cfg)(table, now, frame).value.table.Keys
    {
      var out := Step(cfg, table, now, frame[..Min(|frame|, ETHERNET_PACKET_MAX_SIZE)]);
      assert TableStep(table, now, frame[..Min(|frame|, ETHERNET_PACKET_MAX_SIZE)], out.value);
    }
  }

  /** One pass: the handler for a frame; for no data, `process_stdin` on
      what `read` takes from the pipe. */
  function Pass(handle: Handler, s: State, e: Event): (r: Result<State>)
    requires s.Valid()
    ensures r.Ok? ==> r.value.Valid() && s.written <= r.value.written
    ensures e.NoData? ==> r.Ok? && r.value.table == s.table
  {
    match e
    case Received(frame, now) =>
      var out :- handle(s.table, now, frame);
      Ok(s.(table := out.table, written := s.written + out.frames))
    case NoData(text) =>
      var pipe := s.pipe + text;
      var taken := Min(|pipe|, STDIN_CAPACITY - |s.pending|);
      var (pending, frames) := ProcessStdin(s.pending, pipe[..taken]);
      Ok(State(s.table, pending, pipe[taken..], s.written + frames))
  }

  /** `run` over a sequence of passes, ending with the first exception. */
  function Run(handle: Handler, s: State, events: seq<Event>): (r: Result<State>)
    requires s.Valid()
    ensures r.Ok? ==> r.value.Valid()
    decreases |events|
  {
    if |events| == 0 then Ok(s)
    else
      var next :- Pass(handle, s, events[0]);
      Run(handle, next, events[1..])
  }

  /** Running two sequences of passes one after the other is running their
      concatenation; an exception in the first ends the whole run. */
  lemma {:induction false} RunAppend(handle: Handler, s: State, first: seq<Event>, second: seq<Event>)
    requires s.Valid()
    ensures Run(handle, s, first + second) ==
      match Run(handle, s, first)
      case Ok(middle) => Run(handle, middle, second)
      case Err(e) => Err(e)
    decreases |first|
  {
    if |first| > 0 {
      assert (first + second)[0] == first[0];
      assert (first + second)[1..] == first[1..] + second;
      var next := Pass(handle, s, first[0]);
      if next.Ok? {
        RunAppend(handle, next.value, first[1..], second);
      }
    } else {
      assert first + second == second;
    }
  }

  /** With a handler that keeps its senders, the table never loses a sender
      and the frames written are never taken back: a run only extends
      both. */
  lemma {:induction false} RunExtends(handle: Handler, s: State, events: seq<Event>)
    requires s.Valid() && KeepsSenders(handle) && Run(handle, s, events).Ok?
    ensures s.table.Keys <= Run(handle, s, events).value.table.Keys
    ensures s.written <= Run(handle, s, events).value.written
    decreases |events|
  {
    if |events| > 0 {
      var next := Pass(handle, s, events[0]).value;
      RunExtends(handle, next, events[1..]);
    }
  }

  /** A frame typed as uppercase hex on a line of its own, while the device
      is idle and standard input is empty, is written to the device and
      nothing else changes. */
  lemma TypedFrame(handle: Handler, s: State, frame: seq<Byte>)
    requires s.Valid() && s.pending == [] && s.pipe == []
    requires 2 * |frame| + 1 <= STDIN_CAPACITY
    ensures Run(handle, s, [NoData(StringToHex(frame) + "\n")]) == Ok(s.(written := s.written + [frame]))
  {
    StdinLineRoundTrip(frame);
    IdleLine(handle, s, StringToHex(frame) + "\n");
  }

  /** With nothing gathered and nothing waiting, a pass without data takes
      in the whole arriving text, if it fits, as one chunk. */
  lemma IdleLine(handle: Handler, s: State, text: string)
    requires s.Valid() && s.pending == [] && s.pipe == [] && |text| <= STDIN_CAPACITY
    ensures var (pending, frames) := ProcessStdin([], text);
      Run(handle, s, [NoData(text)]) == Ok(State(s.table, pending, [], s.written + frames))
  {
    var pipe := s.pipe + text;
    assert pipe == text && pipe[..|text|] == text && pipe[|text|..] == [];
    assert [NoData(text)][1..] == [];
  }
}

=== FILE: memory_buffer.dfy ===
/** The growable `MemoryBuffer`: construction, copy and move, compaction of
    parsed data, appends at the end of the data, and the payload loader.
    A memory buffer is a `Buffer` with the `Growable` policy; its fixed-width
    writers are `Buffers.WriteUInt` and friends, which reserve room instead of
    raising.
 */
module MemoryBuffers {
  import opened Bytes
  import opened Errors
  import opened Buffers

  // ---------------------------------------------------------------------------
  // Construction, copy, move
  // ---------------------------------------------------------------------------

  /** `MemoryBuffer()`: no storage at all. */
  function Empty(): (r: Buffer)
    ensures r.Valid() && r.Allocated() == 0 && r.Len() == 0 && r.Tell() == 0 && r.policy == Growable
  {
    Buffer([], 0, 0, false, Growable)
  }

  /** `MemoryBuffer(initial_size)`: capacity without data (the fresh bytes
      are left as `malloc` returns them; here they are zero). */
  function WithCapacity(initialSize: nat): (r: Buffer)
    ensures r.Valid() && r.Allocated() == initialSize && r.Len() == 0 && r.Tell() == 0
    ensures r.policy == Growable
  {
    Buffer(Zeros(initialSize), 0, 0, false, Growable)
  }

  /** `MemoryBuffer(data, data_size)`: an exact-size copy of `data`, all of it
      unread. */
  function FromData(data: seq<Byte>): (r: Buffer)
    ensures r.Valid() && r.Allocated() == |data| && r.Tell() == 0 && r.Data() == data
    ensures r.Unread() == data && r.policy == Growable
  {
    Buffer(data, |data|, 0, false, Growable)
  }

  /** The copy constructor and copy assignment: the data is copied into an
      allocation of exactly `len()` bytes and the cursor is kept. */
  function Copy(original: Buffer): (r: Buffer)
    requires original.Valid()
    ensures r.Valid() && r.Allocated() == original.Len() && r.CapacityLeft() == 0
    ensures r.Data() == original.Data() && r.Tell() == original.Tell() && r.Unread() == original.Unread()
    ensures r.policy == Growable
  {
    Buffer(original.storage[..original.written], original.written, original.position, false, Growable)
  }

  /** The move constructor and move assignment: the target takes over the
      storage and counters, the source is left empty. */
  function Move(other: Buffer): (r: (Buffer, Buffer))
    ensures r.0.storage == other.storage && r.0.written == other.written && r.0.position == other.position
    ensures r.0.policy == Growable
    ensures r.1 == Empty()
  {
    (other.(owning := false, policy := Growable), Empty())
  }

  // ---------------------------------------------------------------------------
  // Compaction
  // ---------------------------------------------------------------------------

  /** `eliminate_parsed_data(forced)`. A fixed buffer ignores it. A memory
      buffer that has read everything clears; otherwise, when forced or when
      the parsed prefix is more than 8 times the unread rest, it moves the
      unread bytes to offset 0. */
  function EliminateParsedData(b: Buffer, forced: bool): (r: Buffer)
    requires b.Valid()
    ensures r.Valid() && r.Unread() == b.Unread()
    ensures r.Allocated() == b.Allocated() && r.policy == b.policy && r.owning == b.owning
    ensures b.policy == Fixed ==> r == b
    ensures b.policy == Growable && b.position == b.written ==> r.Len() == 0 && r.Tell() == 0
    ensures b.policy == Growable && b.position < b.written && (forced || b.position > 8 * b.BytesLeft()) ==>
      r.Tell() == 0 && r.Data() == b.Unread()
    ensures b.policy == Growable && b.position < b.written && !(forced || b.position > 8 * b.BytesLeft()) ==>
      r == b
  {
    if b.policy == Fixed then b
    else if b.position == b.written then Clear(b)
    else if forced || b.position > 8 * b.BytesLeft() then
      var unread := b.Unread();
      var moved := unread + b.storage[|unread|..];
      assert moved[..|unread|] == unread;
      b.(storage := moved, written := b.written - b.position, position := 0)
    else b
  }

  /** Compaction is idempotent once it has moved the data: a second call
      with the same flag changes nothing more. */
  lemma EliminateTwice(b: Buffer, forced: bool)
    requires b.Valid()
    ensures var once := EliminateParsedData(b, forced);
      EliminateParsedData(once, forced).Unread() == once.Unread()
      && (once.Tell() == 0 ==> EliminateParsedData(once, forced).Data() == once.Data())
  {
  }

  // ---------------------------------------------------------------------------
  // Appending
  // ---------------------------------------------------------------------------

  /** `reserve_capacity_from_end`: when fewer than `needed` bytes are free
      after the data, grow to `needed + len() + CHUNK_SIZE`. */
  function ReserveFromEnd(b: Buffer, needed: nat): (r: Buffer)
    requires b.Valid()
    ensures r.Valid() && r.position == b.position && r.written == b.written
    ensures |r.storage| >= |b.storage| && r.storage[..|b.storage|] == b.storage
    ensures r.CapacityLeft() >= needed
    ensures b.CapacityLeft() < needed ==> |r.storage| == needed + b.written + CHUNK_SIZE
    ensures b.CapacityLeft() >= needed ==> r == b
    ensures r.owning == b.owning && r.policy == b.policy
  {
    if |b.storage| < needed + b.written then
      b.(storage := b.storage + Zeros(needed + b.written + CHUNK_SIZE - |b.storage|))
    else b
  }

  /** `write_to_end`: appends after the data without moving the cursor. */
  function WriteToEnd(b: Buffer, data: seq<Byte>): (r: Buffer)
    requires b.Valid()
    ensures r.Valid() && r.Data() == b.Data() + data && r.Tell() == b.Tell()
    ensures r.Unread() == b.Unread() + data
    ensures r.Allocated() >= b.Allocated() && r.policy == b.policy
  {
    var g := ReserveFromEnd(b, |data|);
    var w := b.written;
    var r := g.(storage := g.storage[..w] + data + g.storage[w + |data|..], written := w + |data|);
    assert r.storage[..r.written] == g.storage[..w] + data;
    assert g.storage[..w] == b.storage[..w];
    assert r.storage[r.position..r.written] == b.storage[b.position..w] + data;
    r
  }

  /** `append_buffer(dest, src)`: writes the data of `src` after the data of
      `dest` (seek to the end, `wbytes`, seek back); the cursor of `dest` is
      restored and `src` is not read from. */
  function AppendBuffer(dest: Buffer, src: Buffer): (r: Buffer)
    requires dest.Valid() && src.Valid() && dest.policy == Growable
    ensures r.Valid() && r.Data() == dest.Data() + src.Data() && r.Tell() == dest.Tell()
    ensures r.Unread() == dest.Unread() + src.Data()
  {
    var atEnd := Seek(dest, dest.written).value;
    var written := WriteBytes(atEnd, src.Data()).value;
    WrittenAtEnd(dest, src.Data(), written);
    var back := Seek(written, dest.position).value;
    assert back.Unread() == written.storage[dest.position..written.written];
    back
  }

  /** Data written at the end of a buffer follows its old data. */
  lemma WrittenAtEnd(dest: Buffer, data: seq<Byte>, w: Buffer)
    requires dest.Valid() && Written(dest.(position := dest.written), data, w)
    ensures w.written == dest.written + |data|
    ensures w.Data() == dest.Data() + data
    ensures w.storage[dest.position..w.written] == dest.Unread() + data
  {
    assert w.storage[..dest.written] == dest.storage[..dest.written];
    assert w.storage[dest.written..w.written] == data;
    assert w.Data() == w.storage[..dest.written] + w.storage[dest.written..w.written];
    assert w.storage[dest.position..dest.written] == dest.storage[dest.position..dest.written];
    assert w.storage[dest.position..w.written]
      == w.storage[dest.position..dest.written] + w.storage[dest.written..w.written];
  }

  /** Appending a buffer and appending its data at the end are the same
      thing for the data and the cursor. */
  lemma AppendIsWriteToEnd(dest: Buffer, src: Buffer)
    requires dest.Valid() && src.Valid() && dest.policy == Growable
    ensures AppendBuffer(dest, src).Data() == WriteToEnd(dest, src.Data()).Data()
    ensures AppendBuffer(dest, src).Tell() == WriteToEnd(dest, src.Data()).Tell()
  {
  }

  /** `load_payload(input, size)`: clears, reserves `size` bytes, and reads
      exactly `size` bytes of `input` into the storage. The result pairs the
      buffer after the call with the advanced input, or with the reader's
      `BufferReadError` on a short input; the clearing and the reservation
      happen before the read, so the buffer a caller catching the error
      sees is already emptied and possibly grown. */
  function LoadPayload(b: Buffer, input: Buffer, size: nat): (r: (Buffer, Result<Buffer>))
    requires b.Valid() && input.Valid() && b.policy == Growable
    ensures r.0.Valid() && r.0.Tell() == 0 && r.0.policy == Growable && r.0.owning == b.owning
    ensures r.1.Ok? <==> size <= input.BytesLeft()
    ensures r.1.Err? ==> r.1.error == BufferReadError(input.written - (input.position + size))
    ensures r.1.Ok? ==> r.0.Data() == input.Unread()[..size] && r.1.value == input.(position := input.position + size)
    ensures r.1.Err? ==> r.0.Len() == 0
    ensures r.0.Allocated() >= size && r.0.Allocated() >= b.Allocated()
    ensures b.Allocated() < size ==> r.0.Allocated() == size + CHUNK_SIZE
    ensures b.Allocated() >= size ==> r.0.Allocated() == b.Allocated()
  {
    var cleared := ReserveFromPosition(Clear(b), size);
    match ReadBytes(input, size)
    case Err(e) => (cleared, Err(e))
    case Ok((bytes, rest)) =>
      var loaded := cleared.(storage := bytes + cleared.storage[size..], written := size);
      assert loaded.storage[..size] == bytes;
      (loaded, Ok(rest))
  }

  /** A payload loaded from an input reads back, from the start, exactly the
      bytes taken from the input. */
  lemma LoadThenRead(b: Buffer, input: Buffer, size: nat)
    requires b.Valid() && input.Valid() && b.policy == Growable && size <= input.BytesLeft()
    ensures var loaded := LoadPayload(b, input, size).0;
      ReadBytes(loaded, size) == Ok((input.Unread()[..size], loaded.(position := size)))
  {
  }
}

=== FILE: protocol.dfy ===
/** The headers of the packet stack: Ethernet II, ARP (RFC 826), the fixed
    IPv4 header (section 3.1 of RFC 791) and the fixed IPv6 header (section 3
    of RFC 8200).

    Each header read through the cursor has a reference reading at fixed
    offsets of the storage (`EthernetAt`, `ArpAt`, `Ipv6At`); the cursor-based
    parsers are proved to agree with it and to consume exactly the header.
    The IPv4 header is parsed from a raw pointer, so `ParseIpv4` is itself an
    offset reading; both IP headers have serializers proved inverse to the
    parsers in both directions. The ARP field
    setters patch the frame in place at the hard-coded offsets of `protocol.hpp`
    and put the cursor back where it was.
 */
module Protocol {
  import opened Bytes
  import opened Errors
  import opened Buffers

  const ETHERNET_PACKET_MAX_SIZE := 1518
  const ETHERNET_HEADER_SIZE := 14
  const IPV4_HEADER_MIN_LENGTH := 20
  const ARP_HEADER_MIN_LENGTH := 28
  const IPV6_HEADER_LENGTH := 40
  const MAC_ADDR_LEN := 6

  const ETHERTYPE_IPV4 := 0x0800
  const ETHERTYPE_IPV6 := 0x86DD
  const ETHERTYPE_ARP := 0x0806

  const ARP_REQUEST := 1
  const ARP_REPLY := 2

  // ---------------------------------------------------------------------------
  // Ethernet II
  // ---------------------------------------------------------------------------

  datatype EthernetHeader = EthernetHeader(destMac: seq<Byte>, srcMac: seq<Byte>, etherType: int)

  /** The Ethernet header at offset `p` of `s`: destination MAC in bytes 0-5,
      source MAC in bytes 6-11, big-endian EtherType in bytes 12-13. */
  function EthernetAt(s: seq<Byte>, p: nat): EthernetHeader
    requires p + ETHERNET_HEADER_SIZE <= |s|
  {
    EthernetHeader(s[p..p + 6], s[p + 6..p + 12], BeValue(s[p + 12..p + 14]))
  }

  /** `EthernetHeader::parse`: `rbytes(6)`, `rbytes(6)`, `ru16()`. Each read
      raises its own `BufferReadError` when the frame is too short. */
  function ParseEthernet(b: Buffer): (r: Result<(EthernetHeader, Buffer)>)
    requires b.Valid()
    ensures r.Ok? <==> b.BytesLeft() >= ETHERNET_HEADER_SIZE
    ensures r.Err? ==> r.error == BufferReadError(
      if b.BytesLeft() < 6 then b.BytesLeft() - 6
      else if b.BytesLeft() < 12 then b.BytesLeft() - 12
      else ETHERNET_HEADER_SIZE - b.BytesLeft())
    ensures r.Ok? ==> r.value.0 == EthernetAt(b.storage, b.position)
    ensures r.Ok? ==> r.value.1 == b.(position := b.position + ETHERNET_HEADER_SIZE)
  {
    var (dest, b1) :- ReadBytes(b, 6);
    var (src, b2) :- ReadBytes(b1, 6);
    var (etherType, b3) :- ReadBe(b2, 2);
    Ok((EthernetHeader(dest, src, etherType), b3))
  }

  // ---------------------------------------------------------------------------
  // ARP
  // ---------------------------------------------------------------------------

  datatype ArpHeader = ArpHeader(
    hardwareType: int, protocolType: int, hardwareLen: int, protocolLen: int, operation: int,
    senderMac: seq<Byte>, senderIp: seq<Byte>, targetMac: seq<Byte>, targetIp: seq<Byte>)

  /** Bytes taken by an ARP header whose address lengths are `hlen` and `plen`. */
  function ArpSize(hlen: int, plen: int): int {
    8 + 2 * hlen + 2 * plen
  }

  /** `s` holds a complete ARP header between offset `p` and `limit`: the
      fixed 8 bytes, then the four addresses whose lengths bytes 4 and 5
      announce. */
  predicate ArpFits(s: seq<Byte>, p: nat, limit: int) {
    p + 8 <= limit <= |s| && p + ArpSize(s[p + 4], s[p + 5]) <= limit
  }

  datatype ArpFixed = ArpFixed(hardwareType: int, protocolType: int, hardwareLen: int, protocolLen: int, operation: int)

  /** The fixed part of the ARP header at offset `p`: hardware type,
      protocol type, the two address lengths and the operation. */
  function ArpFixedAt(s: seq<Byte>, p: nat): ArpFixed
    requires p + 8 <= |s|
  {
    ArpFixed(BeValue(s[p..p + 2]), BeValue(s[p + 2..p + 4]), s[p + 4], s[p + 5], BeValue(s[p + 6..p + 8]))
  }

  /** The four addresses starting at offset `a`: sender hardware, sender
      protocol, target hardware, target protocol. */
  function ArpAddressesAt(s: seq<Byte>, a: nat, h: nat, l: nat): seq<seq<Byte>>
    requires a + 2 * h + 2 * l <= |s|
  {
    [s[a..a + h], s[a + h..a + h + l], s[a + h + l..a + 2 * h + l], s[a + 2 * h + l..a + 2 * h + 2 * l]]
  }

  /** The ARP header at offset `p` of `s`, laid out as in RFC 826 with
      data-driven address lengths. */
  function ArpAt(s: seq<Byte>, p: nat): ArpHeader
    requires ArpFits(s, p, |s|)
  {
    var f := ArpFixedAt(s, p);
    var addresses := ArpAddressesAt(s, p + 8, s[p + 4], s[p + 5]);
    ArpHeader(f.hardwareType, f.protocolType, f.hardwareLen, f.protocolLen, f.operation,
      addresses[0], addresses[1], addresses[2], addresses[3])
  }

  /** The first five reads of `ARPHeader::parse`: `ru16`, `ru16`, `ru8`, `ru8`, `ru16`. */
  function ParseArpFixed(b: Buffer): (r: Result<(ArpFixed, Buffer)>)
    requires b.Valid()
    ensures r.Ok? <==> b.BytesLeft() >= 8
    ensures r.Err? ==> r.error.BufferReadError?
    ensures r.Ok? ==> r.value.0 == ArpFixedAt(b.storage, b.position)
    ensures r.Ok? ==> r.value.1 == b.(position := b.position + 8)
  {
    var (hardwareType, b1) :- ReadBe(b, 2);
    var (protocolType, b2) :- ReadBe(b1, 2);
    var (hlen, b3) :- ReadBe(b2, 1);
    var (plen, b4) :- ReadBe(b3, 1);
    var (operation, b5) :- ReadBe(b4, 2);
    var s, p := b.storage, b.position;
    assert BeValue(s[p + 4..p + 5]) == s[p + 4];
    assert BeValue(s[p + 5..p + 6]) == s[p + 5];
    Ok((ArpFixed(hardwareType, protocolType, hlen, plen, operation), b5))
  }

  /** The four address reads: `rbytes(hlen)`, `rbytes(plen)`, `rbytes(hlen)`, `rbytes(plen)`. */
  function ParseArpAddresses(b: Buffer, hlen: nat, plen: nat): (r: Result<(seq<seq<Byte>>, Buffer)>)
    requires b.Valid()
    ensures r.Ok? <==> b.BytesLeft() >= 2 * hlen + 2 * plen
    ensures r.Err? ==> r.error.BufferReadError?
    ensures r.Ok? ==> r.value.0 == ArpAddressesAt(b.storage, b.position, hlen, plen)
    ensures r.Ok? ==> r.value.1 == b.(position := b.position + 2 * hlen + 2 * plen)
  {
    var (senderMac, b1) :- ReadBytes(b, hlen);
    var (senderIp, b2) :- ReadBytes(b1, plen);
    var (targetMac, b3) :- ReadBytes(b2, hlen);
    var (targetIp, b4) :- ReadBytes(b3, plen);
    Ok(([senderMac, senderIp, targetMac, targetIp], b4))
  }

  /** `ARPHeader::parse`: consumes exactly `8 + 2*hlen + 2*plen` bytes and
      agrees with the offset reading, or raises `BufferReadError`. */
  function ParseArp(b: Buffer): (r: Result<(ArpHeader, Buffer)>)
    requires b.Valid()
    ensures r.Ok? <==> ArpFits(b.storage, b.position, b.written)
    ensures r.Err? ==> r.error.BufferReadError?
    ensures r.Ok? ==> r.value.0 == ArpAt(b.storage, b.position)
    ensures r.Ok? ==> r.value.1 == b.(position := b.position + ArpSize(r.value.0.hardwareLen, r.value.0.protocolLen))
  {
    var (fixed, b1) :- ParseArpFixed(b);
    var (addresses, b2) :- ParseArpAddresses(b1, fixed.hardwareLen, fixed.protocolLen);
    Ok((ArpHeader(fixed.hardwareType, fixed.protocolType, fixed.hardwareLen, fixed.protocolLen, fixed.operation,
      addresses[0], addresses[1], addresses[2], addresses[3]), b2))
  }

  // ---------------------------------------------------------------------------
  // In-place patches of an ARP frame
  // ---------------------------------------------------------------------------

  /** `seek(offset)` then `wbytes(data)`: the cursor ends after the data. */
  function PatchAt(b: Buffer, offset: nat, data: seq<Byte>): (r: Result<Buffer>)
    requires b.Valid()
    ensures r.Ok? <==> offset <= b.written && (b.policy == Growable || offset + |data| <= |b.storage|)
    ensures r.Err? ==> r.error == (if offset > b.written then BufferReadError(offset - b.written)
                                   else BufferWriteError(|data| - |b.storage| + offset))
    ensures r.Ok? ==> Written(b.(position := offset), data, r.value)
  {
    var atOffset :- Seek(b, offset);
    WriteBytes(atOffset, data)
  }

  /** `r` is `b` with `data` stored at `offset` and nothing else of the old
      allocation changed; the cursor is where it was and `written` covers the
      patched range. */
  predicate Patched(b: Buffer, r: Buffer, offset: nat, data: seq<Byte>)
    requires b.Valid()
  {
    r.Valid() && |r.storage| >= |b.storage| && offset + |data| <= |r.storage|
    && r.position == b.position && r.written == Max(b.written, offset + |data|)
    && r.storage[offset..offset + |data|] == data
    && (forall i :: 0 <= i < |b.storage| && !(offset <= i < offset + |data|) ==> r.storage[i] == b.storage[i])
    && r.owning == b.owning && r.policy == b.policy
  }

  /** `r` is `b` with two disjoint patches. */
  predicate PatchedTwice(b: Buffer, r: Buffer, o1: nat, d1: seq<Byte>, o2: nat, d2: seq<Byte>)
    requires b.Valid()
  {
    r.Valid() && |r.storage| >= |b.storage| && o1 + |d1| <= |r.storage| && o2 + |d2| <= |r.storage|
    && r.position == b.position && r.written == Max(b.written, Max(o1 + |d1|, o2 + |d2|))
    && r.storage[o1..o1 + |d1|] == d1 && r.storage[o2..o2 + |d2|] == d2
    && (forall i :: 0 <= i < |b.storage| && !(o1 <= i < o1 + |d1|) && !(o2 <= i < o2 + |d2|) ==> r.storage[i] == b.storage[i])
    && r.owning == b.owning && r.policy == b.policy
  }

  /** One patch followed by a seek back to the saved cursor. */
  function PatchRestore(b: Buffer, offset: nat, data: seq<Byte>): (r: Result<Buffer>)
    requires b.Valid()
    ensures r.Ok? <==> offset <= b.written && (b.policy == Growable || offset + |data| <= |b.storage|)
    ensures r.Err? ==> r.error == PatchAt(b, offset, data).error
    ensures r.Ok? ==> Patched(b, r.value, offset, data)
  {
    var patched :- PatchAt(b, offset, data);
    Seek(patched, b.position)
  }

  /** Two patches in order, then a seek back to the saved cursor. */
  function PatchTwiceRestore(b: Buffer, o1: nat, d1: seq<Byte>, o2: nat, d2: seq<Byte>): (r: Result<Buffer>)
    requires b.Valid() && (o1 + |d1| <= o2 || o2 + |d2| <= o1)
    ensures r.Ok? <==> (o1 <= b.written && o2 <= Max(b.written, o1 + |d1|)
      && (b.policy == Growable || (o1 + |d1| <= |b.storage| && o2 + |d2| <= |b.storage|)))
    ensures r.Err? ==> r.error.BufferReadError? || r.error.BufferWriteError?
    ensures r.Ok? ==> PatchedTwice(b, r.value, o1, d1, o2, d2)
  {
    var first :- PatchAt(b, o1, d1);
    var second :- PatchAt(first, o2, d2);
    ComposePatches(b, first, second, o1, d1, o2, d2);
    Seek(second, b.position)
  }

  /** Two disjoint writes made at absolute offsets compose into one
      two-range patch. */
  lemma ComposePatches(b: Buffer, first: Buffer, second: Buffer, o1: nat, d1: seq<Byte>, o2: nat, d2: seq<Byte>)
    requires b.Valid() && (o1 + |d1| <= o2 || o2 + |d2| <= o1)
    requires o1 <= b.written && Written(b.(position := o1), d1, first)
    requires o2 <= first.written && Written(first.(position := o2), d2, second)
    ensures PatchedTwice(b, second.(position := b.position), o1, d1, o2, d2)
  {
    forall i | o1 <= i < o1 + |d1| ensures second.storage[i] == d1[i - o1] {
      assert first.storage[i] == first.storage[o1..o1 + |d1|][i - o1];
    }
    var r := second.(position := b.position);
    assert r.storage[o1..o1 + |d1|] == d1;
  }

  /** `set_dest_mac(mac)`: `mac` into the Ethernet destination (offset 0) and
      into the ARP sender hardware address at offset 22, which assumes
      `hlen == 6`. */
  function SetDestMac(b: Buffer, mac: seq<Byte>): (r: Result<Buffer>)
    requires b.Valid() && |mac| == MAC_ADDR_LEN
    ensures r.Ok? <==> b.written >= 22 && (b.policy == Growable || |b.storage| >= 28)
    ensures r.Ok? ==> PatchedTwice(b, r.value, 0, mac, 22, mac)
    ensures r.Ok? && b.written >= 28 ==> r.value.written == b.written
  {
    PatchTwiceRestore(b, 0, mac, 22, mac)
  }

  /** `set_src_mac(mac)`: `mac` into the Ethernet source (offset 6) and into
      the ARP target hardware address at `28 + plen`, which assumes `hlen == 6`. */
  function SetSrcMac(h: ArpHeader, b: Buffer, mac: seq<Byte>): (r: Result<Buffer>)
    requires b.Valid() && |mac| == MAC_ADDR_LEN && 0 <= h.protocolLen < 256
    ensures r.Ok? <==> b.written >= 28 + h.protocolLen && (b.policy == Growable || |b.storage| >= 34 + h.protocolLen)
    ensures r.Ok? ==> PatchedTwice(b, r.value, 6, mac, 28 + h.protocolLen, mac)
    ensures r.Ok? && b.written >= 34 + h.protocolLen ==> r.value.written == b.written
  {
    PatchTwiceRestore(b, 6, mac, 28 + h.protocolLen, mac)
  }

  /** `set_src_ip(ip)`: `plen` bytes at offset 28 (the sender protocol
      address when `hlen == 6`). */
  function SetSrcIp(h: ArpHeader, b: Buffer, ip: seq<Byte>): (r: Result<Buffer>)
    requires b.Valid() && |ip| == h.protocolLen
    ensures r.Ok? <==> b.written >= 28 && (b.policy == Growable || |b.storage| >= 28 + h.protocolLen)
    ensures r.Ok? ==> Patched(b, r.value, 28, ip)
  {
    PatchRestore(b, 28, ip)
  }

  /** `set_dest_ip(ip)`: `plen` bytes at offset `34 + plen` (the target
      protocol address when `hlen == 6`). */
  function SetDestIp(h: ArpHeader, b: Buffer, ip: seq<Byte>): (r: Result<Buffer>)
    requires b.Valid() && |ip| == h.protocolLen
    ensures r.Ok? <==> b.written >= 34 + h.protocolLen && (b.policy == Growable || |b.storage| >= 34 + 2 * h.protocolLen)
    ensures r.Ok? ==> Patched(b, r.value, 34 + h.protocolLen, ip)
  {
    PatchRestore(b, 34 + h.protocolLen, ip)
  }

  /** `set_operation(value)`: the header's field becomes `(uint16_t)value` and
      the frame gets it big-endian at offset 20. */
  function SetOperation(h: ArpHeader, b: Buffer, value: int): (r: Result<(ArpHeader, Buffer)>)
    requires b.Valid()
    ensures r.Ok? <==> b.written >= 20 && (b.policy == Growable || |b.storage| >= 22)
    ensures r.Ok? ==> r.value.0 == h.(operation := value % 0x1_0000)
    ensures r.Ok? ==> Patched(b, r.value.1, 20, BeBytes(value, 2))
    ensures r.Ok? ==> BeValue(r.value.1.storage[20..22]) == r.value.0.operation
  {
    var patched :- PatchRestore(b, 20, BeBytes(value, 2));
    BeRoundTrip(value, 2);
    Ok((h.(operation := value % 0x1_0000), patched))
  }

  // ---------------------------------------------------------------------------
  // IPv4 fixed header
  // ---------------------------------------------------------------------------

  datatype Ipv4Header = Ipv4Header(
    versionIhl: int, typeOfService: int, totalLength: int, identification: int, flagsFragmentOffset: int,
    ttl: int, protocol: int, headerChecksum: int, sourceIp: int, destIp: int)

  /** The widths of the C++ fields: `uint8_t`, `uint16_t` and `uint32_t`. */
  predicate Ipv4InRange(h: Ipv4Header) {
    0 <= h.versionIhl < 0x100 && 0 <= h.typeOfService < 0x100 && 0 <= h.totalLength < 0x1_0000
    && 0 <= h.identification < 0x1_0000 && 0 <= h.flagsFragmentOffset < 0x1_0000
    && 0 <= h.ttl < 0x100 && 0 <= h.protocol < 0x100 && 0 <= h.headerChecksum < 0x1_0000
    && 0 <= h.sourceIp < 0x1_0000_0000 && 0 <= h.destIp < 0x1_0000_0000
  }

  /** A 16-bit field from two bytes, `(hi << 8) | lo`. */
  function Be16(hi: Byte, lo: Byte): int {
    hi * 0x100 + lo
  }

  /** A 32-bit field from four bytes, `(b0 << 24) | (b1 << 16) | (b2 << 8) | b3`. */
  function Be32(b0: Byte, b1: Byte, b2: Byte, b3: Byte): int {
    b0 * 0x100_0000 + b1 * 0x1_0000 + b2 * 0x100 + b3
  }

  /** `IPv4Header::parse(buffer)`: the 20 bytes at the pointer, multi-byte
      fields big-endian. The shifted bytes never overlap, so each OR is a sum. */
  function ParseIpv4(s: seq<Byte>): (h: Ipv4Header)
    requires |s| >= IPV4_HEADER_MIN_LENGTH
    ensures Ipv4InRange(h)
  {
    Ipv4Header(s[0], s[1], Be16(s[2], s[3]), Be16(s[4], s[5]), Be16(s[6], s[7]), s[8], s[9],
      Be16(s[10], s[11]), Be32(s[12], s[13], s[14], s[15]), Be32(s[16], s[17], s[18], s[19]))
  }

  /** Byte `k` (0 = most significant) of the `n`-byte field `v`: `(v >> 8*(n-1-k)) & 0xFF`. */
  function FieldByte(v: int, n: nat, k: nat): Byte
    requires k < n
  {
    (v / Pow256(n - 1 - k)) % 256
  }

  /** The 20 bytes `serialize` stores, one assignment per byte as in `IPv4Header::serialize`. */
  function Ipv4Bytes(h: Ipv4Header): (r: seq<Byte>)
    ensures |r| == IPV4_HEADER_MIN_LENGTH
  {
    [h.versionIhl % 256, h.typeOfService % 256,
     FieldByte(h.totalLength, 2, 0), FieldByte(h.totalLength, 2, 1),
     FieldByte(h.identification, 2, 0), FieldByte(h.identification, 2, 1),
     FieldByte(h.flagsFragmentOffset, 2, 0), FieldByte(h.flagsFragmentOffset, 2, 1),
     h.ttl % 256, h.protocol % 256,
     FieldByte(h.headerChecksum, 2, 0), FieldByte(h.headerChecksum, 2, 1),
     FieldByte(h.sourceIp, 4, 0), FieldByte(h.sourceIp, 4, 1), FieldByte(h.sourceIp, 4, 2), FieldByte(h.sourceIp, 4, 3),
     FieldByte(h.destIp, 4, 0), FieldByte(h.destIp, 4, 1), FieldByte(h.destIp, 4, 2), FieldByte(h.destIp, 4, 3)]
  }

  /** `IPv4Header::serialize(buffer, length)`: a `length` below 20 raises a
      `runtime_error`; otherwise the first 20 bytes of the buffer are
      overwritten and the rest is left alone. */
  function SerializeIpv4(h: Ipv4Header, buffer: seq<Byte>, length: nat): (r: Result<seq<Byte>>)
    requires length <= |buffer|
    ensures r.Ok? <==> length >= IPV4_HEADER_MIN_LENGTH
    ensures r.Err? ==> r.error == RuntimeError(HeaderBufferTooSmall)
    ensures r.Ok? ==> |r.value| == |buffer| && r.value[20..] == buffer[20..] && r.value[..20] == Ipv4Bytes(h)
  {
    if length < IPV4_HEADER_MIN_LENGTH then Err(RuntimeError(HeaderBufferTooSmall))
    else Ok(Ipv4Bytes(h) + buffer[20..])
  }

  /** Splitting a 16-bit value into its two bytes and joining them again is the identity. */
  lemma Join16(v: int)
    requires 0 <= v < 0x1_0000
    ensures Be16(FieldByte(v, 2, 0), FieldByte(v, 2, 1)) == v
  {
    assert Pow256(1) == 256 && Pow256(0) == 1;
    DivModUnique(v / 256, 256, 0, v / 256);
  }

  /** Splitting a 32-bit value into its four bytes and joining them again is the identity. */
  lemma Join32(v: int)
    requires 0 <= v < 0x1_0000_0000
    ensures Be32(FieldByte(v, 4, 0), FieldByte(v, 4, 1), FieldByte(v, 4, 2), FieldByte(v, 4, 3)) == v
  {
    assert Pow256(3) == 0x100_0000 && Pow256(2) == 0x1_0000 && Pow256(1) == 0x100 && Pow256(0) == 1;
    var q1, q2, q3 := v / 0x100, v / 0x1_0000, v / 0x100_0000;
    DivDiv(v, 0x100, 0x100);
    DivDiv(v, 0x1_0000, 0x100);
    assert q2 == q1 / 256 && q3 == q2 / 256;
    DivModUnique(q3, 256, 0, q3);
    assert v == q1 * 256 + v % 256;
    assert q1 == q2 * 256 + q1 % 256;
    assert q2 == q3 * 256 + q2 % 256;
  }

  /** The bytes of a 16-bit field built from two bytes are those two bytes. */
  lemma Split16(hi: Byte, lo: Byte)
    ensures FieldByte(Be16(hi, lo), 2, 0) == hi && FieldByte(Be16(hi, lo), 2, 1) == lo
  {
    assert Pow256(1) == 256 && Pow256(0) == 1;
    DivModUnique(Be16(hi, lo), 256, hi, lo);
  }

  /** The bytes of a 32-bit field built from four bytes are those four bytes. */
  lemma Split32(b0: Byte, b1: Byte, b2: Byte, b3: Byte)
    ensures var v := Be32(b0, b1, b2, b3);
      FieldByte(v, 4, 0) == b0 && FieldByte(v, 4, 1) == b1 && FieldByte(v, 4, 2) == b2 && FieldByte(v, 4, 3) == b3
  {
    assert Pow256(3) == 0x100_0000 && Pow256(2) == 0x1_0000 && Pow256(1) == 0x100 && Pow256(0) == 1;
    var v := Be32(b0, b1, b2, b3);
    DivModUnique(v, 0x100, b0 * 0x1_0000 + b1 * 0x100 + b2, b3);
    DivModUnique(v, 0x1_0000, b0 * 0x100 + b1, b2 * 0x100 + b3);
    DivModUnique(v, 0x100_0000, b0, b1 * 0x1_0000 + b2 * 0x100 + b3);
    DivModUnique(b0 * 0x1_0000 + b1 * 0x100 + b2, 256, b0 * 0x100 + b1, b2);
    DivModUnique(b0 * 0x100 + b1, 256, b0, b1);
    DivModUnique(b0, 256, 0, b0);
  }

  /** Parsing the serialized bytes gives the header back. */
  lemma Ipv4ParseOfBytes(h: Ipv4Header)
    requires Ipv4InRange(h)
    ensures ParseIpv4(Ipv4Bytes(h)) == h
  {
    var e := Ipv4Bytes(h);
    var p := ParseIpv4(e);
    assert p.totalLength == h.totalLength by {
      assert e[2] == FieldByte(h.totalLength, 2, 0) && e[3] == FieldByte(h.totalLength, 2, 1);
      Join16(h.totalLength);
    }
    assert p.identification == h.identification by {
      assert e[4] == FieldByte(h.identification, 2, 0) && e[5] == FieldByte(h.identification, 2, 1);
      Join16(h.identification);
    }
    assert p.flagsFragmentOffset == h.flagsFragmentOffset by {
      assert e[6] == FieldByte(h.flagsFragmentOffset, 2, 0) && e[7] == FieldByte(h.flagsFragmentOffset, 2, 1);
      Join16(h.flagsFragmentOffset);
    }
    assert p.headerChecksum == h.headerChecksum by {
      assert e[10] == FieldByte(h.headerChecksum, 2, 0) && e[11] == FieldByte(h.headerChecksum, 2, 1);
      Join16(h.headerChecksum);
    }
    assert p.sourceIp == h.sourceIp by {
      assert e[12] == FieldByte(h.sourceIp, 4, 0) && e[13] == FieldByte(h.sourceIp, 4, 1);
      assert e[14] == FieldByte(h.sourceIp, 4, 2) && e[15] == FieldByte(h.sourceIp, 4, 3);
      Join32(h.sourceIp);
    }
    assert p.destIp == h.destIp by {
      assert e[16] == FieldByte(h.destIp, 4, 0) && e[17] == FieldByte(h.destIp, 4, 1);
      assert e[18] == FieldByte(h.destIp, 4, 2) && e[19] == FieldByte(h.destIp, 4, 3);
      Join32(h.destIp);
    }
  }

  /** Parsing what `serialize` wrote gives the header back. */
  lemma Ipv4ParseOfSerialize(h: Ipv4Header, buffer: seq<Byte>, length: nat)
    requires Ipv4InRange(h) && IPV4_HEADER_MIN_LENGTH <= length <= |buffer|
    ensures ParseIpv4(SerializeIpv4(h, buffer, length).value) == h
  {
    var s := SerializeIpv4(h, buffer, length).value;
    Ipv4ParseOfBytes(h);
    assert forall i :: 0 <= i < 20 ==> s[i] == Ipv4Bytes(h)[i];
  }

  /** The single-byte fields of a parsed header serialize to the bytes they were read from. */
  lemma Ipv4BytesOfParse8(s: seq<Byte>)
    requires |s| >= IPV4_HEADER_MIN_LENGTH
    ensures var e := Ipv4Bytes(ParseIpv4(s));
      e[0] == s[0] && e[1] == s[1] && e[8] == s[8] && e[9] == s[9]
  {
  }

  /** The 16-bit fields of a parsed header serialize to the bytes they were read from. */
  lemma Ipv4BytesOfParse16(s: seq<Byte>)
    requires |s| >= IPV4_HEADER_MIN_LENGTH
    ensures var e := Ipv4Bytes(ParseIpv4(s));
      e[2] == s[2] && e[3] == s[3] && e[4] == s[4] && e[5] == s[5] && e[6] == s[6] && e[7] == s[7]
      && e[10] == s[10] && e[11] == s[11]
  {
    Split16(s[2], s[3]);
    Split16(s[4], s[5]);
    Split16(s[6], s[7]);
    Split16(s[10], s[11]);
  }

  /** The two addresses of a parsed header serialize to the bytes they were read from. */
  lemma Ipv4BytesOfParse32(s: seq<Byte>)
    requires |s| >= IPV4_HEADER_MIN_LENGTH
    ensures var e := Ipv4Bytes(ParseIpv4(s));
      e[12] == s[12] && e[13] == s[13] && e[14] == s[14] && e[15] == s[15]
      && e[16] == s[16] && e[17] == s[17] && e[18] == s[18] && e[19] == s[19]
  {
    Split32(s[12], s[13], s[14], s[15]);
    Split32(s[16], s[17], s[18], s[19]);
  }

  /** Twenty equal positions make a 20-byte string equal to a prefix. */
  lemma EqualPrefix20(e: seq<Byte>, s: seq<Byte>)
    requires |e| == 20 <= |s|
    requires e[0] == s[0] && e[1] == s[1] && e[2] == s[2] && e[3] == s[3] && e[4] == s[4]
    requires e[5] == s[5] && e[6] == s[6] && e[7] == s[7] && e[8] == s[8] && e[9] == s[9]
    requires e[10] == s[10] && e[11] == s[11] && e[12] == s[12] && e[13] == s[13] && e[14] == s[14]
    requires e[15] == s[15] && e[16] == s[16] && e[17] == s[17] && e[18] == s[18] && e[19] == s[19]
    ensures e == s[..20]
  {
    forall i | 0 <= i < 20 ensures e[i] == s[..20][i] {
    }
  }

  /** Serializing a parsed header reproduces the 20 bytes it was read from. */
  lemma Ipv4BytesOfParse(s: seq<Byte>)
    requires |s| >= IPV4_HEADER_MIN_LENGTH
    ensures Ipv4Bytes(ParseIpv4(s)) == s[..20]
  {
    Ipv4BytesOfParse8(s);
    Ipv4BytesOfParse16(s);
    Ipv4BytesOfParse32(s);
    EqualPrefix20(Ipv4Bytes(ParseIpv4(s)), s);
  }

  /** Serializing a parsed header into the bytes it came from changes nothing. */
  lemma Ipv4SerializeOfParse(s: seq<Byte>)
    requires |s| >= IPV4_HEADER_MIN_LENGTH
    ensures SerializeIpv4(ParseIpv4(s), s, |s|) == Ok(s)
  {
    Ipv4BytesOfParse(s);
    assert s[..20] + s[20..] == s;
  }

  /** `get_version`: `version_ihl >> 4`, the high nibble. */
  function Ipv4Version(h: Ipv4Header): (v: int)
    requires Ipv4InRange(h)
    ensures 0 <= v < 16 && v * 16 <= h.versionIhl < v * 16 + 16
  {
    h.versionIhl / 16
  }

  /** `get_header_length`: `(version_ihl & 0x0F) * 4`, the low nibble counted
      in 32-bit words. */
  function Ipv4HeaderLength(h: Ipv4Header): (n: int)
    requires Ipv4InRange(h)
    ensures 0 <= n <= 60 && n % 4 == 0
  {
    (h.versionIhl % 16) * 4
  }

  /** The two getters split `version_ihl` without losing a bit. */
  lemma Ipv4NibblesRecompose(h: Ipv4Header)
    requires Ipv4InRange(h)
    ensures Ipv4Version(h) * 16 + Ipv4HeaderLength(h) / 4 == h.versionIhl
  {
  }

  // ---------------------------------------------------------------------------
  // IPv6 fixed header
  // ---------------------------------------------------------------------------

  datatype Ipv6Header = Ipv6Header(
    versionTcFlowLabel: int, payloadLength: int, nextHeader: int, hopLimit: int,
    sourceIp: seq<Byte>, destIp: seq<Byte>)

  /** The widths of the C++ fields, and 16-byte addresses behind the pointers. */
  predicate Ipv6WellFormed(h: Ipv6Header) {
    0 <= h.versionTcFlowLabel < 0x1_0000_0000 && 0 <= h.payloadLength < 0x1_0000
    && 0 <= h.nextHeader < 0x100 && 0 <= h.hopLimit < 0x100
    && |h.sourceIp| == 16 && |h.destIp| == 16
  }

  /** The IPv6 fixed header at offset `p` of `s` (section 3 of RFC 8200):
      version/traffic class/flow label word, payload length, next header,
      hop limit, source and destination addresses. */
  function Ipv6At(s: seq<Byte>, p: nat): (h: Ipv6Header)
    requires p + IPV6_HEADER_LENGTH <= |s|
    ensures Ipv6WellFormed(h)
  {
    BeValueBound(s[p..p + 4]);
    BeValueBound(s[p + 4..p + 6]);
    Ipv6Header(BeValue(s[p..p + 4]), BeValue(s[p + 4..p + 6]), s[p + 6], s[p + 7], s[p + 8..p + 24], s[p + 24..p + 40])
  }

  datatype Ipv6Fixed = Ipv6Fixed(versionTcFlowLabel: int, payloadLength: int, nextHeader: int, hopLimit: int)

  /** Two consecutive big-endian reads of `w1` and `w2` bytes. */
  function ReadBePair(b: Buffer, w1: nat, w2: nat): (r: Result<((int, int), Buffer)>)
    requires b.Valid() && 1 <= w1 < 8 && 1 <= w2 < 8
    ensures r.Ok? <==> b.BytesLeft() >= w1 + w2
    ensures r.Err? ==> r.error.BufferReadError?
    ensures r.Ok? ==> var s, p := b.storage, b.position;
      r.value.0 == (BeValue(s[p..p + w1]), BeValue(s[p + w1..p + w1 + w2]))
    ensures r.Ok? ==> r.value.1 == b.(position := b.position + w1 + w2)
  {
    var (first, b1) :- ReadBe(b, w1);
    var (second, b2) :- ReadBe(b1, w2);
    Ok(((first, second), b2))
  }

  /** The first four reads of `IPv6Header::parse`: `ru32`, `ru16`, `ru8`, `ru8`. */
  function ParseIpv6Fixed(b: Buffer): (r: Result<(Ipv6Fixed, Buffer)>)
    requires b.Valid()
    ensures r.Ok? <==> b.BytesLeft() >= 8
    ensures r.Err? ==> r.error.BufferReadError?
    ensures r.Ok? ==> var s, p := b.storage, b.position;
      r.value.0 == Ipv6Fixed(BeValue(s[p..p + 4]), BeValue(s[p + 4..p + 6]), s[p + 6], s[p + 7])
    ensures r.Ok? ==> r.value.1 == b.(position := b.position + 8)
  {
    var (words, b1) :- ReadBePair(b, 4, 2);
    var (octets, b2) :- ReadBePair(b1, 1, 1);
    var s, p := b.storage, b.position;
    assert BeValue(s[p + 6..p + 7]) == s[p + 6];
    assert BeValue(s[p + 7..p + 8]) == s[p + 7];
    Ok((Ipv6Fixed(words.0, words.1, octets.0, octets.1), b2))
  }

  /** `IPv6Header::parse`: the fixed fields, then `rbytes(16)` twice. */
  function ParseIpv6(b: Buffer): (r: Result<(Ipv6Header, Buffer)>)
    requires b.Valid()
    ensures r.Ok? <==> b.BytesLeft() >= IPV6_HEADER_LENGTH
    ensures r.Err? ==> r.error.BufferReadError?
    ensures r.Ok? ==> r.value.0 == Ipv6At(b.storage, b.position)
    ensures r.Ok? ==> r.value.1 == b.(position := b.position + IPV6_HEADER_LENGTH)
  {
    var (fixed, b1) :- ParseIpv6Fixed(b);
    var (sourceIp, b2) :- ReadBytes(b1, 16);
    var (destIp, b3) :- ReadBytes(b2, 16);
    Ok((Ipv6Header(fixed.versionTcFlowLabel, fixed.payloadLength, fixed.nextHeader, fixed.hopLimit, sourceIp, destIp), b3))
  }

  /** The 40 bytes `serialize` stores. */
  function Ipv6Bytes(h: Ipv6Header): (r: seq<Byte>)
    requires Ipv6WellFormed(h)
    ensures |r| == IPV6_HEADER_LENGTH
  {
    BeBytes(h.versionTcFlowLabel, 4) + BeBytes(h.payloadLength, 2) + [h.nextHeader, h.hopLimit] + h.sourceIp + h.destIp
  }

  /** `IPv6Header::serialize(buffer, length)`: a `length` below 40 raises a
      `runtime_error`; otherwise the first 40 bytes are overwritten. */
  function SerializeIpv6(h: Ipv6Header, buffer: seq<Byte>, length: nat): (r: Result<seq<Byte>>)
    requires Ipv6WellFormed(h) && length <= |buffer|
    ensures r.Ok? <==> length >= IPV6_HEADER_LENGTH
    ensures r.Err? ==> r.error == RuntimeError(HeaderBufferTooSmall)
    ensures r.Ok? ==> |r.value| == |buffer| && r.value[40..] == buffer[40..] && r.value[..40] == Ipv6Bytes(h)
  {
    if length < IPV6_HEADER_LENGTH then Err(RuntimeError(HeaderBufferTooSmall))
    else Ok(Ipv6Bytes(h) + buffer[40..])
  }

  /** Parsing what `serialize` wrote gives the header back. */
  lemma Ipv6ParseOfSerialize(h: Ipv6Header, buffer: seq<Byte>, length: nat)
    requires Ipv6WellFormed(h) && IPV6_HEADER_LENGTH <= length <= |buffer|
    ensures Ipv6At(SerializeIpv6(h, buffer, length).value, 0) == h
  {
    var s := SerializeIpv6(h, buffer, length).value;
    assert s[..40] == Ipv6Bytes(h);
    assert s[0..4] == BeBytes(h.versionTcFlowLabel, 4) && s[4..6] == BeBytes(h.payloadLength, 2);
    assert s[8..24] == h.sourceIp && s[24..40] == h.destIp;
    assert Pow256(2) == 0x1_0000 && Pow256(4) == 0x1_0000_0000;
    BeRoundTripInRange(h.versionTcFlowLabel, 4);
    BeRoundTripInRange(h.payloadLength, 2);
  }

  /** Serializing a parsed header reproduces the 40 bytes it was read from. */
  lemma Ipv6SerializeOfParse(s: seq<Byte>, p: nat)
    requires p + IPV6_HEADER_LENGTH <= |s|
    ensures Ipv6Bytes(Ipv6At(s, p)) == s[p..p + IPV6_HEADER_LENGTH]
  {
    BeBytesOfValue(s[p..p + 4]);
    BeBytesOfValue(s[p + 4..p + 6]);
  }

  /** `get_version`: `(version_tc_flowlabel >> 28) & 0x0F`. */
  function Ipv6Version(h: Ipv6Header): (v: int)
    requires Ipv6WellFormed(h)
    ensures 0 <= v < 16
  {
    (h.versionTcFlowLabel / 0x1000_0000) % 16
  }

  /** The version is the high nibble of the first byte of the header. */
  lemma Ipv6VersionOfBytes(s: seq<Byte>, p: nat)
    requires p + IPV6_HEADER_LENGTH <= |s|
    ensures Ipv6Version(Ipv6At(s, p)) == s[p] / 16
  {
    var w := s[p..p + 4];
    BeValueSplitFirst(w);
    BeValueBound(w[1..]);
    assert Pow256(3) == 0x100_0000;
    var rest := BeValue(w[1..]);
    var top := s[p] as int;
    assert BeValue(w) == top * 0x100_0000 + rest;
    assert BeValue(w) == (top / 16) * 0x1000_0000 + ((top % 16) * 0x100_0000 + rest);
    DivModUnique(BeValue(w), 0x1000_0000, top / 16, (top % 16) * 0x100_0000 + rest);
  }
}

=== FILE: text_codec.dfy ===
/** Text codecs of the packet stack: bytes to and from hexadecimal text, and
    MAC addresses to and from their colon-separated form.
 */
module TextCodec {
  import opened Bytes
  import opened Errors

  /** The digit table of `string_to_hex`. */
  const UPPER_HEX: string := "0123456789ABCDEF"

  /** Digit `d` of `UPPER_HEX`. */
  function UpperDigit(d: int): char
    requires 0 <= d < 16
  {
    if d < 10 then ('0' as int + d) as char else ('A' as int + d - 10) as char
  }

  /** Digit `d` as `std::hex` prints it: lowercase. */
  function LowerDigit(d: int): char
    requires 0 <= d < 16
  {
    if d < 10 then ('0' as int + d) as char else ('a' as int + d - 10) as char
  }

  /** `ULONG_MAX` on the 64-bit target. */
  const ULONG_MAX: int := 0xFFFF_FFFF_FFFF_FFFF

  predicate IsHexChar(c: char) {
    ('0' <= c <= '9') || ('a' <= c <= 'f') || ('A' <= c <= 'F')
  }

  /** The value of a hex digit, by its position in the digit tables. */
  function HexValue(c: char): (v: int)
    requires IsHexChar(c)
    ensures 0 <= v < 16 && (c == UpperDigit(v) || c == LowerDigit(v))
  {
    if '0' <= c <= '9' then c as int - '0' as int
    else if 'a' <= c <= 'f' then c as int - 'a' as int + 10
    else c as int - 'A' as int + 10
  }

  /** `hexCharToByte`: a hex digit of either case, or `invalid_argument`. */
  function HexCharToByte(c: char): (r: Result<int>)
    ensures r.Ok? <==> IsHexChar(c)
    ensures r.Err? ==> r.error == InvalidArgument
    ensures r.Ok? ==> 0 <= r.value < 16 && (c == UpperDigit(r.value) || c == LowerDigit(r.value))
  {
    if IsHexChar(c) then Ok(HexValue(c)) else Err(InvalidArgument)
  }

  /** Every digit of both tables decodes to its own index. */
  lemma HexDigitsDecode(d: int)
    requires 0 <= d < 16
    ensures HexCharToByte(UpperDigit(d)) == Ok(d)
    ensures HexCharToByte(LowerDigit(d)) == Ok(d)
  {
  }

  /** `string_to_hex`: two uppercase digits per byte, high nibble first. */
  function StringToHex(s: seq<Byte>): (r: string)
    ensures |r| == 2 * |s|
    ensures forall i :: 0 <= i < |r| ==> IsUpperHexChar(r[i])
  {
    if |s| == 0 then []
    else
      [UpperDigit(s[0] / 16), UpperDigit(s[0] % 16)] + StringToHex(s[1..])
  }

  /** Digit `d` of the uppercase table is `UPPER_HEX[d]`. */
  lemma UpperDigitInTable(d: int)
    requires 0 <= d < 16
    ensures UpperDigit(d) == UPPER_HEX[d]
  {
  }

  /** The characters of `UPPER_HEX`. */
  predicate IsUpperHexChar(c: char) {
    ('0' <= c <= '9') || ('A' <= c <= 'F')
  }

  /** Exactly the characters of the table are uppercase hex digits. */
  lemma UpperHexTable(c: char)
    ensures IsUpperHexChar(c) <==> c in UPPER_HEX
  {
    if IsUpperHexChar(c) {
      var d := if c <= '9' then c as int - '0' as int else c as int - 'A' as int + 10;
      UpperDigitInTable(d);
    }
  }

  /** Decodes consecutive digit pairs; the first bad digit raises. */
  function HexPairs(hex: string): (r: Result<seq<Byte>>)
    requires |hex| % 2 == 0
    ensures r.Ok? <==> forall i :: 0 <= i < |hex| ==> IsHexChar(hex[i])
    ensures r.Err? ==> r.error == InvalidArgument
    ensures r.Ok? ==> 2 * |r.value| == |hex|
  {
    if |hex| == 0 then Ok([])
    else
      var hi :- HexCharToByte(hex[0]);
      var lo :- HexCharToByte(hex[1]);
      var rest :- HexPairs(hex[2..]);
      Ok([16 * hi + lo] + rest)
  }

  /** `hexStringToBytes`: an odd length raises before any digit is looked at;
      otherwise byte i is `(val(hex[2i]) << 4) | val(hex[2i+1])` and the size
      is half the length. */
  function HexStringToBytes(hex: string): (r: Result<seq<Byte>>)
    ensures |hex| % 2 != 0 ==> r == Err(InvalidArgument)
    ensures r.Ok? <==> |hex| % 2 == 0 && forall i :: 0 <= i < |hex| ==> IsHexChar(hex[i])
    ensures r.Err? ==> r.error == InvalidArgument
    ensures r.Ok? ==> |r.value| == |hex| / 2
    ensures r.Ok? ==> forall i :: 0 <= i < |r.value| ==> r.value[i] == 16 * HexValue(hex[2 * i]) + HexValue(hex[2 * i + 1])
  {
    if |hex| % 2 != 0 then Err(InvalidArgument)
    else
      HexPairsIndex(hex);
      HexPairs(hex)
  }

  /** Byte i of a successful decoding comes from digits 2i and 2i+1. */
  lemma {:induction false} HexPairsIndex(hex: string)
    requires |hex| % 2 == 0
    ensures HexPairs(hex).Ok? ==> forall i :: 0 <= i < |HexPairs(hex).value| ==>
      HexPairs(hex).value[i] == 16 * HexValue(hex[2 * i]) + HexValue(hex[2 * i + 1])
  {
    if |hex| > 0 && HexPairs(hex).Ok? {
      var r := HexPairs(hex).value;
      var t := hex[2..];
      HexPairsIndex(t);
      var rest := HexPairs(t).value;
      assert r == [16 * HexValue(hex[0]) + HexValue(hex[1])] + rest;
      forall i | 0 <= i < |r|
        ensures r[i] == 16 * HexValue(hex[2 * i]) + HexValue(hex[2 * i + 1])
      {
        if i > 0 {
          assert r[i] == rest[i - 1];
          assert t[2 * (i - 1)] == hex[2 * i] && t[2 * (i - 1) + 1] == hex[2 * i + 1];
        }
      }
    }
  }

  /** Decoding the uppercase dump of a byte string gives the bytes back. */
  lemma HexRoundTrip(s: seq<Byte>)
    ensures HexStringToBytes(StringToHex(s)) == Ok(s)
  {
    var h := StringToHex(s);
    assert |h| % 2 == 0 by {
      assert |h| == 2 * |s|;
    }
    HexPairsOfDump(s);
    assert HexStringToBytes(h) == HexPairs(h);
  }

  lemma {:induction false} HexPairsOfDump(s: seq<Byte>)
    ensures HexPairs(StringToHex(s)) == Ok(s)
  {
    if |s| > 0 {
      var t := StringToHex(s[1..]);
      assert StringToHex(s) == [UpperDigit(s[0] / 16), UpperDigit(s[0] % 16)] + t;
      HexDigitsDecode(s[0] / 16);
      HexDigitsDecode(s[0] % 16);
      HexPairsOfDump(s[1..]);
      HexPairsCons(UpperDigit(s[0] / 16), UpperDigit(s[0] % 16), t, s[0] / 16, s[0] % 16, s[1..]);
      assert [s[0]] + s[1..] == s;
    }
  }

  /** One digit pair in front of decodable pairs decodes to one more byte. */
  lemma HexPairsCons(hi: char, lo: char, t: string, x: int, y: int, rest: seq<Byte>)
    requires |t| % 2 == 0
    requires HexCharToByte(hi) == Ok(x) && HexCharToByte(lo) == Ok(y)
    requires HexPairs(t) == Ok(rest)
    ensures HexPairs([hi, lo] + t) == Ok([16 * x + y] + rest)
  {
    var h := [hi, lo] + t;
    assert h[0] == hi && h[1] == lo && h[2..] == t;
  }

  /** Two lowercase digits, zero padded, as `std::hex << setw(2) << setfill('0')` prints. */
  function LowerHexPair(x: Byte): (r: string)
    ensures |r| == 2
    ensures HexCharToByte(r[0]) == Ok(x / 16) && HexCharToByte(r[1]) == Ok(x % 16)
  {
    HexDigitsDecode(x / 16);
    HexDigitsDecode(x % 16);
    [LowerDigit(x / 16), LowerDigit(x % 16)]
  }

  /** Lowercase two-digit hex of every byte, separated by `sep`, no trailing
      separator. */
  function JoinHex(s: seq<Byte>, sep: char): (r: string)
    ensures |s| == 0 ==> r == []
    ensures |s| > 0 ==> |r| == 3 * |s| - 1
  {
    if |s| == 0 then []
    else if |s| == 1 then LowerHexPair(s[0])
    else LowerHexPair(s[0]) + [sep] + JoinHex(s[1..], sep)
  }

  /** Characters 3i and 3i+1 of the joined form are the digits of byte i,
      character 3i+2 the separator. */
  lemma {:induction false} JoinHexIndex(s: seq<Byte>, sep: char, i: nat)
    requires i < |s|
    ensures JoinHex(s, sep)[3 * i] == LowerDigit(s[i] / 16)
    ensures JoinHex(s, sep)[3 * i + 1] == LowerDigit(s[i] % 16)
    ensures i < |s| - 1 ==> JoinHex(s, sep)[3 * i + 2] == sep
  {
    if i > 0 {
      JoinHexIndex(s[1..], sep, i - 1);
      assert s[1..][i - 1] == s[i];
    }
  }

  lemma JoinHexDigits(s: seq<Byte>, sep: char)
    ensures forall i :: 0 <= i < |s| ==> JoinHex(s, sep)[3 * i] == LowerDigit(s[i] / 16) && JoinHex(s, sep)[3 * i + 1] == LowerDigit(s[i] % 16)
    ensures forall i :: 0 <= i < |s| - 1 ==> JoinHex(s, sep)[3 * i + 2] == sep
  {
    forall i | 0 <= i < |s| {
      JoinHexIndex(s, sep, i);
    }
  }

  /** `mac_to_string`: 17 characters, colon separated, each pair of
      lowercase digits decoding to its byte. */
  function MacToString(mac: seq<Byte>): (r: string)
    requires |mac| == 6
    ensures |r| == 17
    ensures forall i :: 0 <= i < 6 ==> r[3 * i] == LowerDigit(mac[i] / 16) && r[3 * i + 1] == LowerDigit(mac[i] % 16)
    ensures forall i :: 0 <= i < 6 ==> HexCharToByte(r[3 * i]) == Ok(mac[i] / 16) && HexCharToByte(r[3 * i + 1]) == Ok(mac[i] % 16)
    ensures forall i :: 0 <= i < 5 ==> r[3 * i + 2] == ':'
  {
    forall d | 0 <= d < 16 {
      HexDigitsDecode(d);
    }
    JoinHexDigits(mac, ':');
    JoinHex(mac, ':')
  }

  /** `buffer_to_hex_string`: a null pointer raises `invalid_argument`;
      otherwise the bytes in lowercase hex separated by single spaces. */
  function BufferToHexString(buffer: Option<seq<Byte>>): (r: Result<string>)
    ensures r.Err? <==> buffer.None?
    ensures r.Err? ==> r.error == InvalidArgument
    ensures r.Ok? && |buffer.value| > 0 ==> |r.value| == 3 * |buffer.value| - 1
    ensures r.Ok? ==> forall i :: 0 <= i < |buffer.value| ==>
      r.value[3 * i] == LowerDigit(buffer.value[i] / 16) && r.value[3 * i + 1] == LowerDigit(buffer.value[i] % 16)
    ensures r.Ok? ==> forall i :: 0 <= i < |buffer.value| ==>
      HexCharToByte(r.value[3 * i]) == Ok(buffer.value[i] / 16) && HexCharToByte(r.value[3 * i + 1]) == Ok(buffer.value[i] % 16)
    ensures r.Ok? ==> forall i :: 0 <= i < |buffer.value| - 1 ==> r.value[3 * i + 2] == ' '
  {
    match buffer
    case None => Err(InvalidArgument)
    case Some(bytes) =>
      forall d | 0 <= d < 16 {
        HexDigitsDecode(d);
      }
      JoinHexDigits(bytes, ' ');
      Ok(JoinHex(bytes, ' '))
  }

  // ---------------------------------------------------------------------------
  // Splitting, as repeated std::getline with a delimiter
  // ---------------------------------------------------------------------------

  /** Index of the first `d` in `s`, or `|s|`. */
  function IndexOf(s: string, d: char): (k: nat)
    ensures k <= |s| && (k < |s| ==> s[k] == d)
    ensures forall i :: 0 <= i < k ==> s[i] != d
  {
    if |s| == 0 then 0 else if s[0] == d then 0 else 1 + IndexOf(s[1..], d)
  }

  /** The pieces `std::getline(stream, piece, d)` yields until the stream is
      exhausted: a delimiter at the very end does not start another piece. */
  function Split(s: string, d: char): (r: seq<string>)
    ensures |s| == 0 <==> |r| == 0
    ensures forall k :: 0 <= k < |r| ==> d !in r[k]
    decreases |s|
  {
    if |s| == 0 then []
    else
      var k := IndexOf(s, d);
      if k == |s| then [s] else [s[..k]] + Split(s[k + 1..], d)
  }

  /** A piece without the delimiter followed by the delimiter and more text
      splits off as the first piece. */
  lemma SplitCons(piece: string, rest: string, d: char)
    requires d !in piece && |rest| > 0
    ensures Split(piece + [d] + rest, d) == [piece] + Split(rest, d)
  {
    var s := piece + [d] + rest;
    assert forall i :: 0 <= i < |piece| ==> s[i] == piece[i];
    assert s[|piece|] == d;
    var k := IndexOf(s, d);
    assert k == |piece|;
    assert s[..k] == piece && s[k + 1..] == rest;
  }

  lemma SplitNoDelimiter(s: string, d: char)
    requires d !in s && |s| > 0
    ensures Split(s, d) == [s]
  {
    assert forall i :: 0 <= i < |s| ==> s[i] != d;
    assert IndexOf(s, d) == |s|;
  }

  // ---------------------------------------------------------------------------
  // std::stoul(text, nullptr, 16)
  // ---------------------------------------------------------------------------

  predicate IsSpace(c: char) {
    c == ' ' || c == '\t' || c == '\n' || c == '\r' || c as int == 0x0C || c as int == 0x0B
  }

  function SkipSpace(s: string): (r: string)
    ensures |r| <= |s|
    ensures |r| > 0 ==> !IsSpace(r[0])
  {
    if |s| > 0 && IsSpace(s[0]) then SkipSpace(s[1..]) else s
  }

  /** Length of the leading run of hex digits. */
  function HexRun(s: string): (n: nat)
    ensures n <= |s| && (n < |s| ==> !IsHexChar(s[n]))
  {
    if |s| > 0 && IsHexChar(s[0]) then 1 + HexRun(s[1..]) else 0
  }

  /** Base-16 value of a string of hex digits (`HexRun` guarantees that only
      digits reach it; anything else would count as 0). */
  function HexNumber(s: string): (v: nat)
  {
    if |s| == 0 then 0
    else HexNumber(s[..|s| - 1]) * 16 + (if IsHexChar(s[|s| - 1]) then HexValue(s[|s| - 1]) else 0)
  }

  /** An optional leading sign is dropped. */
  function DropSign(t: string): (r: string)
    ensures |r| <= |t|
  {
    if |t| > 0 && (t[0] == '-' || t[0] == '+') then t[1..] else t
  }

  /** A `0x`/`0X` prefix counts only when a hex digit follows it. */
  function DropHexPrefix(u: string): (r: string)
    ensures |r| <= |u|
  {
    if |u| >= 3 && u[0] == '0' && (u[1] == 'x' || u[1] == 'X') && IsHexChar(u[2]) then u[2..] else u
  }

  /** The magnitude `strtoul` reads after the sign: the longest run of hex
      digits, which must be non-empty and at most `ULONG_MAX`. */
  function HexMagnitude(u: string): (r: Result<int>)
    ensures r.Ok? ==> 0 <= r.value <= ULONG_MAX
    ensures r.Err? ==> r.error == InvalidArgument || r.error == OutOfRange
  {
    var digits := DropHexPrefix(u);
    var n := HexRun(digits);
    if n == 0 then Err(InvalidArgument)
    else if HexNumber(digits[..n]) > ULONG_MAX then Err(OutOfRange)
    else Ok(HexNumber(digits[..n]))
  }

  /** `strtoul` in base 16 behind `std::stoul`: leading white space, an
      optional sign, an optional `0x` prefix, then the longest run of hex
      digits. No digit raises `invalid_argument`, a magnitude above
      `ULONG_MAX` raises `out_of_range`, and a minus sign negates modulo 2^64. */
  function Stoul16(s: string): (r: Result<int>)
    ensures r.Ok? ==> 0 <= r.value <= ULONG_MAX
    ensures r.Err? ==> r.error == InvalidArgument || r.error == OutOfRange
  {
    var t := SkipSpace(s);
    var magnitude :- HexMagnitude(DropSign(t));
    if |t| > 0 && t[0] == '-' then Ok((ULONG_MAX + 1 - magnitude) % (ULONG_MAX + 1)) else Ok(magnitude)
  }

  /** Two hex digits read back by `stoul` give their value. */
  lemma Stoul16Pair(h: char, l: char)
    requires IsHexChar(h) && IsHexChar(l)
    ensures Stoul16([h, l]) == Ok(16 * HexValue(h) + HexValue(l))
  {
    var p := [h, l];
    assert SkipSpace(p) == p;
    assert DropSign(p) == p;
    assert DropHexPrefix(p) == p;
    assert p[1..] == [l] && p[1..][1..] == [];
    assert HexRun(p) == 2;
    assert HexNumber([h]) == HexValue(h) by {
      assert [h][..0] == [];
    }
    assert HexNumber(p) == 16 * HexValue(h) + HexValue(l) by {
      assert p[..1] == [h];
    }
    assert p[..2] == p;
    assert HexMagnitude(p) == Ok(16 * HexValue(h) + HexValue(l));
  }

  /** Leading white space is skipped up to the first other character. */
  lemma {:induction false} SkipSpacePrefix(ws: string, x: string)
    requires forall i :: 0 <= i < |ws| ==> IsSpace(ws[i])
    requires |x| > 0 && !IsSpace(x[0])
    ensures SkipSpace(ws + x) == x
  {
    if |ws| > 0 {
      assert (ws + x)[1..] == ws[1..] + x;
      SkipSpacePrefix(ws[1..], x);
    } else {
      assert ws + x == x;
    }
  }

  /** Blanks are skipped and the sign is dropped in front of text that
      starts with neither. */
  lemma {:induction false} SignedText(ws: string, sign: string, u: string)
    requires forall i :: 0 <= i < |ws| ==> IsSpace(ws[i])
    requires sign == "" || sign == "+" || sign == "-"
    requires |u| > 0 && !IsSpace(u[0]) && u[0] != '+' && u[0] != '-'
    ensures SkipSpace(ws + sign + u) == sign + u
    ensures DropSign(sign + u) == u
    ensures |sign + u| > 0 && ((sign + u)[0] == '-' <==> sign == "-")
  {
    var t := sign + u;
    assert ws + sign + u == ws + t;
    if sign == "" {
      assert t == u;
    } else {
      assert t[0] == sign[0];
      assert t[1..] == u;
    }
    SkipSpacePrefix(ws, t);
  }

  /** The run of hex digits stops at the first other character. */
  lemma {:induction false} HexRunPrefix(digits: string, rest: string)
    requires forall i :: 0 <= i < |digits| ==> IsHexChar(digits[i])
    requires |rest| > 0 ==> !IsHexChar(rest[0])
    ensures HexRun(digits + rest) == |digits|
  {
    if |digits| > 0 {
      assert (digits + rest)[1..] == digits[1..] + rest;
      HexRunPrefix(digits[1..], rest);
    } else {
      assert digits + rest == rest;
    }
  }

  /** The magnitude after the sign: an optional `0x`/`0X`, a run of hex
      digits, and text that does not continue the run. The result is the
      run's value, or `out_of_range` above `ULONG_MAX`. Without the prefix, a
      lone `0` followed by `x` and a digit would read as a prefix instead,
      so that case is left to the prefixed form. */
  lemma {:induction false} HexMagnitudeReads(prefix: string, digits: string, rest: string)
    requires prefix == "" || prefix == "0x" || prefix == "0X"
    requires |digits| > 0 && forall i :: 0 <= i < |digits| ==> IsHexChar(digits[i])
    requires |rest| > 0 ==> !IsHexChar(rest[0])
    requires prefix == "" && digits == "0" && |rest| >= 2 ==> !((rest[0] == 'x' || rest[0] == 'X') && IsHexChar(rest[1]))
    ensures HexMagnitude(prefix + digits + rest)
      == if HexNumber(digits) > ULONG_MAX then Err(OutOfRange) else Ok(HexNumber(digits))
  {
    var body := digits + rest;
    assert prefix + digits + rest == prefix + body;
    DropPrefixBeforeDigits(prefix, digits, rest);
    HexRunPrefix(digits, rest);
    assert body[..|digits|] == digits;
  }

  /** The `0x`/`0X` in front of a run of hex digits is dropped, and text
      without it is kept. */
  lemma {:induction false} DropPrefixBeforeDigits(prefix: string, digits: string, rest: string)
    requires prefix == "" || prefix == "0x" || prefix == "0X"
    requires |digits| > 0 && forall i :: 0 <= i < |digits| ==> IsHexChar(digits[i])
    requires prefix == "" && digits == "0" && |rest| >= 2 ==> !((rest[0] == 'x' || rest[0] == 'X') && IsHexChar(rest[1]))
    ensures DropHexPrefix(prefix + (digits + rest)) == digits + rest
  {
    var body := digits + rest;
    if prefix != "" {
      assert (prefix + body)[2..] == body;
      assert (prefix + body)[2] == digits[0];
    } else {
      assert prefix + body == body;
      if |body| >= 3 && body[0] == '0' && (body[1] == 'x' || body[1] == 'X') {
        assert digits == "0" && body[1..] == rest;
      }
    }
  }

  /** `stoul(text, nullptr, 16)` on its full grammar: blanks, an optional
      sign, then a magnitude as `HexMagnitudeReads` describes it. The result
      is the magnitude, negated modulo 2^64 after a minus sign, or
      `out_of_range` above `ULONG_MAX`. */
  lemma {:induction false} Stoul16Reads(ws: string, sign: string, prefix: string, digits: string, rest: string)
    requires forall i :: 0 <= i < |ws| ==> IsSpace(ws[i])
    requires sign == "" || sign == "+" || sign == "-"
    requires prefix == "" || prefix == "0x" || prefix == "0X"
    requires |digits| > 0 && forall i :: 0 <= i < |digits| ==> IsHexChar(digits[i])
    requires |rest| > 0 ==> !IsHexChar(rest[0])
    requires prefix == "" && digits == "0" && |rest| >= 2 ==> !((rest[0] == 'x' || rest[0] == 'X') && IsHexChar(rest[1]))
    ensures var m := HexNumber(digits);
      Stoul16(ws + sign + (prefix + digits + rest))
      == if m > ULONG_MAX then Err(OutOfRange)
         else if sign == "-" then Ok((ULONG_MAX + 1 - m) % (ULONG_MAX + 1))
         else Ok(m)
  {
    var unsigned := prefix + digits + rest;
    assert !IsSpace(unsigned[0]) && unsigned[0] != '+' && unsigned[0] != '-' by {
      assert unsigned[0] == if prefix == "" then digits[0] else '0';
    }
    HexMagnitudeReads(prefix, digits, rest);
    Stoul16Signed(ws, sign, unsigned);
  }

  /** Blanks and a sign in front of a magnitude: the sign is applied to
      what `HexMagnitude` reads. */
  lemma {:induction false} Stoul16Signed(ws: string, sign: string, u: string)
    requires forall i :: 0 <= i < |ws| ==> IsSpace(ws[i])
    requires sign == "" || sign == "+" || sign == "-"
    requires |u| > 0 && !IsSpace(u[0]) && u[0] != '+' && u[0] != '-'
    ensures Stoul16(ws + sign + u)
      == match HexMagnitude(u)
         case Err(e) => Err(e)
         case Ok(m) => if sign == "-" then Ok((ULONG_MAX + 1 - m) % (ULONG_MAX + 1)) else Ok(m)
  {
    SignedText(ws, sign, u);
  }

  /** With only blanks and a sign before it, text that does not start with
      a hex digit raises `invalid_argument`. */
  lemma {:induction false} Stoul16NoDigits(ws: string, sign: string, rest: string)
    requires forall i :: 0 <= i < |ws| ==> IsSpace(ws[i])
    requires sign == "" || sign == "+" || sign == "-"
    requires |rest| > 0 ==> !IsHexChar(rest[0]) && !IsSpace(rest[0]) && rest[0] != '+' && rest[0] != '-'
    ensures Stoul16(ws + sign + rest) == Err(InvalidArgument)
  {
    var t := sign + rest;
    assert ws + sign + rest == ws + t;
    if |t| > 0 {
      SkipSpacePrefix(ws, t);
      assert DropSign(t) == rest by {
        if sign != "" {
          assert t[1..] == rest;
        }
      }
    } else {
      assert ws + t == ws;
      SkipSpaceAll(ws);
    }
  }

  /** Text of blanks only skips to nothing. */
  lemma {:induction false} SkipSpaceAll(ws: string)
    requires forall i :: 0 <= i < |ws| ==> IsSpace(ws[i])
    ensures SkipSpace(ws) == []
  {
    if |ws| > 0 {
      SkipSpaceAll(ws[1..]);
    }
  }

  /** `mac_string_to_bytes`: each ':'-separated piece through `stoul(.., 16)`
      and truncated to a byte. `mac_string_to_bytes` writes piece i to `macBytes[i]`
      without checking `i < 6`, so at most six pieces are allowed; with fewer
      the remaining bytes of its result are uninitialised and not modelled. */
  function MacStringToBytes(mac: string): (r: Result<seq<Byte>>)
    requires |Split(mac, ':')| <= 6
    ensures r.Ok? <==> AllParse(Split(mac, ':'))
    ensures r.Ok? ==> |r.value| == |Split(mac, ':')| && ParsedAs(Split(mac, ':'), r.value)
  {
    ParsePieces(Split(mac, ':'))
  }

  /** Every piece is accepted by `stoul`. */
  predicate AllParse(pieces: seq<string>) {
    |pieces| == 0 || (Stoul16(pieces[0]).Ok? && AllParse(pieces[1..]))
  }

  /** `bytes` holds, piece by piece, the `stoul` value truncated to a byte. */
  predicate ParsedAs(pieces: seq<string>, bytes: seq<Byte>)
    requires AllParse(pieces) && |bytes| == |pieces|
  {
    |pieces| == 0 || (bytes[0] == Stoul16(pieces[0]).value % 256 && ParsedAs(pieces[1..], bytes[1..]))
  }

  function ParsePieces(pieces: seq<string>): (r: Result<seq<Byte>>)
    ensures r.Ok? <==> AllParse(pieces)
    ensures r.Ok? ==> |r.value| == |pieces| && ParsedAs(pieces, r.value)
  {
    if |pieces| == 0 then Ok([])
    else
      var v :- Stoul16(pieces[0]);
      var rest :- ParsePieces(pieces[1..]);
      assert ([v % 256] + rest)[1..] == rest;
      Ok([v % 256] + rest)
  }

  /** Splitting the joined form recovers the two-digit pieces. */
  lemma {:induction false} SplitJoinHex(s: seq<Byte>)
    requires |s| > 0
    ensures |Split(JoinHex(s, ':'), ':')| == |s|
    ensures forall i :: 0 <= i < |s| ==> Split(JoinHex(s, ':'), ':')[i] == LowerHexPair(s[i])
  {
    var pair := LowerHexPair(s[0]);
    assert ':' !in pair;
    if |s| == 1 {
      SplitNoDelimiter(pair, ':');
    } else {
      var tail := JoinHex(s[1..], ':');
      assert JoinHex(s, ':') == pair + [':'] + tail;
      SplitCons(pair, tail, ':');
      SplitJoinHex(s[1..]);
      var r := Split(JoinHex(s, ':'), ':');
      assert r == [pair] + Split(tail, ':');
      forall i | 0 <= i < |s|
        ensures r[i] == LowerHexPair(s[i])
      {
        if i > 0 {
          assert r[i] == Split(tail, ':')[i - 1];
          assert s[1..][i - 1] == s[i];
        }
      }
    }
  }

  lemma ParsePiecesCons(p: string, rest: seq<string>, b: Byte, bs: seq<Byte>)
    requires Stoul16(p) == Ok(b as int) && ParsePieces(rest) == Ok(bs)
    ensures ParsePieces([p] + rest) == Ok([b] + bs)
  {
    var ps := [p] + rest;
    assert ps[1..] == rest && ps[0] == p;
    assert (b as int) % 256 == b;
    assert ParsePieces(ps) == Ok([b] + bs);
  }

  lemma Stoul16LowerPair(x: Byte)
    ensures Stoul16(LowerHexPair(x)) == Ok(x as int)
    ensures ':' !in LowerHexPair(x)
  {
    var p := LowerHexPair(x);
    HexDigitsDecode(x / 16);
    HexDigitsDecode(x % 16);
    assert p == [p[0], p[1]];
    Stoul16Pair(p[0], p[1]);
  }

  /** Each two-digit piece of the joined form parses back to its byte. */
  lemma {:induction false} ParseJoinHex(s: seq<Byte>)
    requires |s| > 0
    ensures ParsePieces(Split(JoinHex(s, ':'), ':')) == Ok(s)
  {
    var pair := LowerHexPair(s[0]);
    Stoul16LowerPair(s[0]);
    if |s| == 1 {
      assert JoinHex(s, ':') == pair;
      SplitNoDelimiter(pair, ':');
      assert ParsePieces([]) == Ok([]);
      ParsePiecesCons(pair, [], s[0], []);
      assert [pair] + [] == [pair] && [s[0]] + [] == s;
    } else {
      var tail := JoinHex(s[1..], ':');
      assert JoinHex(s, ':') == pair + [':'] + tail;
      SplitCons(pair, tail, ':');
      ParseJoinHex(s[1..]);
      ParsePiecesCons(pair, Split(tail, ':'), s[0], s[1..]);
      assert [s[0]] + s[1..] == s;
    }
  }

  /** MAC text round trip: parsing the rendering of six bytes gives them back. */
  lemma MacRoundTrip(mac: seq<Byte>)
    requires |mac| == 6
    ensures |Split(MacToString(mac), ':')| == 6
    ensures MacStringToBytes(MacToString(mac)) == Ok(mac)
  {
    SplitJoinHex(mac);
    ParseJoinHex(mac);
  }

  /** The text the responder compares a destination MAC with. */
  const BROADCAST_TEXT: string := "ff:ff:ff:ff:ff:ff"

  /** The Ethernet broadcast address. */
  const BROADCAST_MAC: seq<Byte> := [255, 255, 255, 255, 255, 255]

  lemma BroadcastRendering()
    ensures MacToString(BROADCAST_MAC) == BROADCAST_TEXT
  {
  }

  lemma LowerDigitInjective(a: int, b: int)
    requires 0 <= a < 16 && 0 <= b < 16 && LowerDigit(a) == LowerDigit(b)
    ensures a == b
  {
    HexDigitsDecode(a);
    HexDigitsDecode(b);
  }

  lemma BroadcastByte(mac: seq<Byte>, i: nat)
    requires |mac| == 6 && i < 6
    requires MacToString(mac) == MacToString([255, 255, 255, 255, 255, 255])
    ensures mac[i] == 255
  {
    var allOnes: seq<Byte> := [255, 255, 255, 255, 255, 255];
    assert allOnes[i] == 255;
    LowerDigitInjective(mac[i] / 16, 15);
    LowerDigitInjective(mac[i] % 16, 15);
  }

  /** The broadcast test of the responder: the rendering equals
      `"ff:ff:ff:ff:ff:ff"` exactly when every byte is 0xFF. */
  lemma MacBroadcastText(mac: seq<Byte>)
    requires |mac| == 6
    ensures MacToString(mac) == BROADCAST_TEXT <==> mac == BROADCAST_MAC
  {
    BroadcastRendering();
    assert BROADCAST_TEXT == MacToString(BROADCAST_MAC);
    if MacToString(mac) == BROADCAST_TEXT {
      forall i | 0 <= i < 6
        ensures mac[i] == 255
      {
        BroadcastByte(mac, i);
      }
      assert mac == BROADCAST_MAC;
    }
  }
}

=== FILE: traffic.dfy ===
/** The network monitor's traffic accounting: `PacketProcessor` counts the
    IPv4 payload bytes of every captured frame, per direction and per
    remote client, and `print` closes a reporting period.

    Addresses are the four bytes of an IPv4 address; `inet_ntoa` and
    `inet_ntop` render them one-to-one as dotted text, so comparing the
    texts, as `processPacket` and `getClientForIp` do, is comparing the
    bytes. */
module Traffic {
  import opened Bytes
  import opened Protocol
  import opened Errors

  type Address = seq<Byte>

  /** Offsets of the IPv4 header fields in a captured Ethernet frame. */
  const IP_VERSION_IHL_OFFSET := ETHERNET_HEADER_SIZE
  const IP_TOTAL_LENGTH_OFFSET := ETHERNET_HEADER_SIZE + 2
  const IP_SOURCE_OFFSET := ETHERNET_HEADER_SIZE + 12
  const IP_DESTINATION_OFFSET := ETHERNET_HEADER_SIZE + 16

  /** A remote client, found by `key` (its `srcIP`), with the address it
      was created with (`dstIP`) and its counters. */
  datatype Client = Client(
    key: Address,
    peer: Address,
    totalReceived: int,
    totalSent: int,
    receivedPerPeriod: int,
    sentPerPeriod: int)

  /** The state of a `PacketProcessor`. */
  datatype Monitor = Monitor(
    locals: seq<Address>,
    clients: seq<Client>,
    totalReceived: int,
    totalSent: int,
    receivedPerPeriod: int,
    sentPerPeriod: int,
    receivedPacketsPerPeriod: int,
    sentPacketsPerPeriod: int)

  /** The processor as constructed, with the IPv4 addresses of the local
      interfaces. */
  function Start(locals: seq<Address>): (m: Monitor)
    ensures m.locals == locals && m.clients == []
    ensures m.totalReceived == 0 && m.totalSent == 0
  {
    Monitor(locals, [], 0, 0, 0, 0, 0, 0)
  }

  // ---------------------------------------------------------------------------
  // isIncomingPacket and getClientForIp
  // ---------------------------------------------------------------------------

  /** `isIncomingPacket(ip)`: whether `ip` is one of the local
      addresses. */
  function IsIncoming(locals: seq<Address>, ip: Address): (r: bool)
    ensures r <==> exists i :: 0 <= i < |locals| && locals[i] == ip
  {
    if |locals| == 0 then false
    else if locals[0] == ip then true
    else
      var r := IsIncoming(locals[1..], ip);
      assert r ==> exists i :: 0 <= i < |locals| && locals[i] == ip by {
        if r {
          var i :| 0 <= i < |locals| - 1 && locals[1..][i] == ip;
          assert locals[i + 1] == ip;
        }
      }
      r
  }

  /** Index of the first client with key `key`, or `|clients|`. */
  function FindClient(clients: seq<Client>, key: Address): (k: nat)
    ensures k <= |clients| && (k < |clients| ==> clients[k].key == key)
    ensures forall i :: 0 <= i < k ==> clients[i].key != key
  {
    if |clients| == 0 then 0
    else if clients[0].key == key then 0
    else 1 + FindClient(clients[1..], key)
  }

  /** A client as `NetworkClient(srcIP, dstIP)` creates it: all counters
      zero. */
  function NewClient(key: Address, peer: Address): (c: Client)
    ensures c.key == key && c.peer == peer
    ensures c.totalReceived == 0 && c.totalSent == 0 && c.receivedPerPeriod == 0 && c.sentPerPeriod == 0
  {
    Client(key, peer, 0, 0, 0, 0)
  }

  /** `getClientForIp(srcIP, dstIP)`: the first client whose key is
      `srcIP`; when there is none, a new client is appended. The result is
      the list and the index of the client. */
  function ClientFor(clients: seq<Client>, key: Address, peer: Address): (r: (seq<Client>, nat))
    ensures r.1 < |r.0| && r.0[r.1].key == key
    ensures forall i :: 0 <= i < r.1 ==> r.0[i].key != key
    ensures (exists i :: 0 <= i < |clients| && clients[i].key == key) ==> r.0 == clients
    ensures (forall i :: 0 <= i < |clients| ==> clients[i].key != key) ==>
      r.0 == clients + [NewClient(key, peer)] && r.1 == |clients|
  {
    var k := FindClient(clients, key);
    if k < |clients| then (clients, k) else (clients + [NewClient(key, peer)], |clients|)
  }

  /** No two clients share a key. */
  predicate UniqueKeys(clients: seq<Client>) {
    forall i, j :: 0 <= i < j < |clients| ==> clients[i].key != clients[j].key
  }

  /** `getClientForIp` never creates a second client for a key. */
  lemma ClientForUnique(clients: seq<Client>, key: Address, peer: Address)
    requires UniqueKeys(clients)
    ensures UniqueKeys(ClientFor(clients, key, peer).0)
  {
    var k := FindClient(clients, key);
    if k == |clients| {
      var all := clients + [NewClient(key, peer)];
      forall i, j | 0 <= i < j < |all| ensures all[i].key != all[j].key {
        if j == |clients| {
          assert all[i] == clients[i];
        }
      }
    }
  }

  // ---------------------------------------------------------------------------
  // The IPv4 header fields
  // ---------------------------------------------------------------------------

  /** `ip_hl * 4`: the low four bits of the first header byte (the
      bit-field order of `struct ip` on a little-endian host), in 32-bit
      words. */
  function HeaderLength(frame: seq<Byte>): (n: int)
    requires |frame| > IP_VERSION_IHL_OFFSET
    ensures 0 <= n <= 60 && n % 4 == 0
  {
    (frame[IP_VERSION_IHL_OFFSET] % 16) * 4
  }

  /** `ip_len` as `processPacket` reads it: the field is in network byte order
      and is used without `ntohs`, so a little-endian host sees its two
      bytes swapped. */
  function TotalLengthAsWritten(frame: seq<Byte>): (n: int)
    requires |frame| >= IP_TOTAL_LENGTH_OFFSET + 2
    ensures 0 <= n < 0x1_0000
  {
    var low, high: int := frame[IP_TOTAL_LENGTH_OFFSET], frame[IP_TOTAL_LENGTH_OFFSET + 1];
    low + 256 * high
  }

  /** `ntohs(ip_len)`: the total length the IPv4 header declares. */
  function TotalLength(frame: seq<Byte>): (n: int)
    requires |frame| >= IP_TOTAL_LENGTH_OFFSET + 2
    ensures 0 <= n < 0x1_0000
  {
    BeValueBound(frame[IP_TOTAL_LENGTH_OFFSET..IP_TOTAL_LENGTH_OFFSET + 2]);
    BeValue(frame[IP_TOTAL_LENGTH_OFFSET..IP_TOTAL_LENGTH_OFFSET + 2])
  }

  /** `payloadLength` as written: swapped total length minus header
      length. */
  function PayloadLengthAsWritten(frame: seq<Byte>): (n: int)
    requires |frame| >= ETHERNET_HEADER_SIZE + IPV4_HEADER_MIN_LENGTH
  {
    TotalLengthAsWritten(frame) - HeaderLength(frame)
  }

  /** `payloadLength` with the total length in host order: the bytes the
      IPv4 header says follow it. */
  function PayloadLength(frame: seq<Byte>): (n: int)
    requires |frame| >= ETHERNET_HEADER_SIZE + IPV4_HEADER_MIN_LENGTH
  {
    TotalLength(frame) - HeaderLength(frame)
  }

  /** A frame whose IPv4 header declares `total` bytes and a header of
      `ihl` words. */
  predicate DeclaresLengths(frame: seq<Byte>, total: nat, ihl: nat) {
    && |frame| >= ETHERNET_HEADER_SIZE + IPV4_HEADER_MIN_LENGTH
    && total < 0x1_0000 && ihl < 16
    && frame[IP_VERSION_IHL_OFFSET] % 16 == ihl
    && frame[IP_TOTAL_LENGTH_OFFSET..IP_TOTAL_LENGTH_OFFSET + 2] == BeBytes(total, 2)
  }

  /** The payload length counted is the one the header declares: total
      length minus `4 * ihl`. */
  lemma PayloadLengthDeclared(frame: seq<Byte>, total: nat, ihl: nat)
    requires DeclaresLengths(frame, total, ihl)
    ensures PayloadLength(frame) == total - 4 * ihl
  {
    assert Pow256(2) == 0x1_0000;
    BeRoundTripInRange(total, 2);
  }

  /** The length as written is not the declared one: a 60-byte datagram
      with a 20-byte header counts 15340 bytes instead of 40. */
  lemma PayloadLengthSwapped(frame: seq<Byte>)
    requires DeclaresLengths(frame, 60, 5)
    ensures PayloadLengthAsWritten(frame) == 15340
    ensures PayloadLength(frame) == 40
  {
    PayloadLengthDeclared(frame, 60, 5);
    var field := frame[IP_TOTAL_LENGTH_OFFSET..IP_TOTAL_LENGTH_OFFSET + 2];
    assert field == BeBytes(60, 2);
    BeBytesTwo(60);
    assert frame[IP_TOTAL_LENGTH_OFFSET] == field[0] == 0;
    assert frame[IP_TOTAL_LENGTH_OFFSET + 1] == field[1] == 60;
  }

  /** The two bytes of a 16-bit value, most significant first. */
  lemma BeBytesTwo(v: nat)
    requires v < 0x1_0000
    ensures BeBytes(v, 2) == [v / 256, v % 256]
  {
  }

  // ---------------------------------------------------------------------------
  // processPacket and print
  // ---------------------------------------------------------------------------

  /** Adds `payload` to the sent counters of `c`. */
  function CreditSent(c: Client, payload: int): (r: Client)
  {
    c.(totalSent := c.totalSent + payload, sentPerPeriod := c.sentPerPeriod + payload)
  }

  /** Adds `payload` to the received counters of `c`. */
  function CreditReceived(c: Client, payload: int): (r: Client)
  {
    c.(totalReceived := c.totalReceived + payload, receivedPerPeriod := c.receivedPerPeriod + payload)
  }

  /** `processPacket` on a captured frame of `|frame|` bytes. A frame too
      short for an Ethernet and an IPv4 header, or whose EtherType is not
      IPv4, changes nothing; any other frame is credited with the payload
      length as written, from `ip_len` without `ntohs`. */
  function ProcessPacket(m: Monitor, frame: seq<Byte>): (r: Monitor)
    ensures r.locals == m.locals
    ensures r.receivedPacketsPerPeriod == m.receivedPacketsPerPeriod && r.sentPacketsPerPeriod == m.sentPacketsPerPeriod
    ensures |frame| < ETHERNET_HEADER_SIZE + IPV4_HEADER_MIN_LENGTH ==> r == m
    ensures |frame| >= ETHERNET_HEADER_SIZE + IPV4_HEADER_MIN_LENGTH && BeValue(frame[12..14]) != ETHERTYPE_IPV4 ==> r == m
  {
    if !Counted(frame) then m else Account(m, frame, PayloadLengthAsWritten(frame))
  }

  /** `processPacket` with `ntohs(ip_len)`: the same filtering, each frame
      credited with the payload length its IPv4 header declares. */
  function ProcessPacketCorrected(m: Monitor, frame: seq<Byte>): (r: Monitor)
    ensures r.locals == m.locals
    ensures r.receivedPacketsPerPeriod == m.receivedPacketsPerPeriod && r.sentPacketsPerPeriod == m.sentPacketsPerPeriod
    ensures !Counted(frame) ==> r == m
  {
    if !Counted(frame) then m else Account(m, frame, PayloadLength(frame))
  }

  /** Crediting `payload` bytes for a counted frame. A frame to a local
      address is incoming: the processor's received counters grow, and so
      do the sent counters of the client keyed by the destination address.
      Any other frame is outgoing: the sent counters grow, and so do the
      received counters of the client keyed by the source address. The
      per-period counter also counts one per frame. */
  function Account(m: Monitor, frame: seq<Byte>, payload: int): (r: Monitor)
    requires Counted(frame)
    ensures r.locals == m.locals
    ensures r.receivedPacketsPerPeriod == m.receivedPacketsPerPeriod && r.sentPacketsPerPeriod == m.sentPacketsPerPeriod
  {
    var source := frame[IP_SOURCE_OFFSET..IP_SOURCE_OFFSET + 4];
    var destination := frame[IP_DESTINATION_OFFSET..IP_DESTINATION_OFFSET + 4];
    if IsIncoming(m.locals, destination) then
      var (clients, k) := ClientFor(m.clients, destination, source);
      m.(clients := clients[k := CreditSent(clients[k], payload)],
         receivedPerPeriod := m.receivedPerPeriod + 1 + payload,
         totalReceived := m.totalReceived + payload)
    else
      var (clients, k) := ClientFor(m.clients, source, destination);
      m.(clients := clients[k := CreditReceived(clients[k], payload)],
         sentPerPeriod := m.sentPerPeriod + 1 + payload,
         totalSent := m.totalSent + payload)
  }

  /** `NetworkClient::print`: a client with nothing in this period is left
      alone; otherwise its period counters are reset. */
  function ClientPrint(c: Client): (r: Client)
    ensures r.receivedPerPeriod == 0 && r.sentPerPeriod == 0
    ensures r == c.(receivedPerPeriod := 0, sentPerPeriod := 0)
  {
    if c.sentPerPeriod == 0 && c.receivedPerPeriod == 0 then c
    else c.(receivedPerPeriod := 0, sentPerPeriod := 0)
  }

  /** `print`: every client prints, then the four per-period counters are
      reset. Totals and clients are kept. */
  function Print(m: Monitor): (r: Monitor)
    ensures r.locals == m.locals && r.totalReceived == m.totalReceived && r.totalSent == m.totalSent
    ensures r.receivedPerPeriod == 0 && r.sentPerPeriod == 0
    ensures r.receivedPacketsPerPeriod == 0 && r.sentPacketsPerPeriod == 0
    ensures |r.clients| == |m.clients|
    ensures forall i :: 0 <= i < |m.clients| ==>
      r.clients[i] == m.clients[i].(receivedPerPeriod := 0, sentPerPeriod := 0)
  {
    m.(clients := PrintClients(m.clients),
       receivedPerPeriod := 0, sentPerPeriod := 0,
       receivedPacketsPerPeriod := 0, sentPacketsPerPeriod := 0)
  }

  /** Every client's `print`, in order. */
  function PrintClients(clients: seq<Client>): (r: seq<Client>)
    ensures |r| == |clients|
    ensures forall i :: 0 <= i < |clients| ==> r[i] == ClientPrint(clients[i])
  {
    if |clients| == 0 then [] else [ClientPrint(clients[0])] + PrintClients(clients[1..])
  }

  // ---------------------------------------------------------------------------
  // What the accounting keeps
  // ---------------------------------------------------------------------------

  /** An IPv4 frame the processor counts. */
  predicate Counted(frame: seq<Byte>) {
    |frame| >= ETHERNET_HEADER_SIZE + IPV4_HEADER_MIN_LENGTH && BeValue(frame[12..14]) == ETHERTYPE_IPV4
  }

  function Source(frame: seq<Byte>): Address
    requires |frame| >= ETHERNET_HEADER_SIZE + IPV4_HEADER_MIN_LENGTH
  {
    frame[IP_SOURCE_OFFSET..IP_SOURCE_OFFSET + 4]
  }

  function Destination(frame: seq<Byte>): Address
    requires |frame| >= ETHERNET_HEADER_SIZE + IPV4_HEADER_MIN_LENGTH
  {
    frame[IP_DESTINATION_OFFSET..IP_DESTINATION_OFFSET + 4]
  }

  /** Crediting a frame to a local address: the processor's received total
      grows by the payload, its received period counter by the payload and
      one, and the client keyed by the destination address, found or
      created, has the payload added to its sent counters; nothing else
      changes. */
  lemma AccountIncoming(m: Monitor, frame: seq<Byte>, payload: int)
    requires Counted(frame) && Destination(frame) in m.locals
    ensures var r := Account(m, frame, payload);
      var (clients, k) := ClientFor(m.clients, Destination(frame), Source(frame));
      && r.totalReceived == m.totalReceived + payload && r.totalSent == m.totalSent
      && r.receivedPerPeriod == m.receivedPerPeriod + payload + 1 && r.sentPerPeriod == m.sentPerPeriod
      && r.clients == clients[k := CreditSent(clients[k], payload)]
  {
    var dst := Destination(frame);
    var i :| 0 <= i < |m.locals| && m.locals[i] == dst;
    assert IsIncoming(m.locals, dst);
  }

  /** Crediting any other frame: the processor's sent total grows by the
      payload, its sent period counter by the payload and one, and the
      client keyed by the source address, found or created, has the payload
      added to its received counters; nothing else changes. */
  lemma AccountOutgoing(m: Monitor, frame: seq<Byte>, payload: int)
    requires Counted(frame) && Destination(frame) !in m.locals
    ensures var r := Account(m, frame, payload);
      var (clients, k) := ClientFor(m.clients, Source(frame), Destination(frame));
      && r.totalSent == m.totalSent + payload && r.totalReceived == m.totalReceived
      && r.sentPerPeriod == m.sentPerPeriod + payload + 1 && r.receivedPerPeriod == m.receivedPerPeriod
      && r.clients == clients[k := CreditReceived(clients[k], payload)]
  {
    assert !IsIncoming(m.locals, Destination(frame));
  }

  /** An incoming IPv4 frame, as `processPacket` counts it: the payload
      credited is the swapped total length minus the header length. */
  lemma IncomingFrame(m: Monitor, frame: seq<Byte>)
    requires Counted(frame) && Destination(frame) in m.locals
    ensures var r, payload := ProcessPacket(m, frame), PayloadLengthAsWritten(frame);
      var (clients, k) := ClientFor(m.clients, Destination(frame), Source(frame));
      && r.totalReceived == m.totalReceived + payload && r.totalSent == m.totalSent
      && r.receivedPerPeriod == m.receivedPerPeriod + payload + 1 && r.sentPerPeriod == m.sentPerPeriod
      && r.clients == clients[k := CreditSent(clients[k], payload)]
  {
    AccountIncoming(m, frame, PayloadLengthAsWritten(frame));
  }

  /** An outgoing IPv4 frame, as `processPacket` counts it, with the same
      swapped payload length. */
  lemma OutgoingFrame(m: Monitor, frame: seq<Byte>)
    requires Counted(frame) && Destination(frame) !in m.locals
    ensures var r, payload := ProcessPacket(m, frame), PayloadLengthAsWritten(frame);
      var (clients, k) := ClientFor(m.clients, Source(frame), Destination(frame));
      && r.totalSent == m.totalSent + payload && r.totalReceived == m.totalReceived
      && r.sentPerPeriod == m.sentPerPeriod + payload + 1 && r.receivedPerPeriod == m.receivedPerPeriod
      && r.clients == clients[k := CreditReceived(clients[k], payload)]
  {
    AccountOutgoing(m, frame, PayloadLengthAsWritten(frame));
  }

  /** With `ntohs`, an incoming frame adds exactly the payload length its
      header declares to the received total. */
  lemma CorrectedCountsDeclared(m: Monitor, frame: seq<Byte>, total: nat, ihl: nat)
    requires Counted(frame) && Destination(frame) in m.locals && DeclaresLengths(frame, total, ihl)
    ensures ProcessPacketCorrected(m, frame).totalReceived == m.totalReceived + total - 4 * ihl
  {
    PayloadLengthDeclared(frame, total, ihl);
    AccountIncoming(m, frame, PayloadLength(frame));
  }

  /** An incoming 60-byte datagram with a 20-byte header: `processPacket`
      adds 15340 to the received total, where the declared payload is 40. */
  lemma ProcessPacketSwapped(m: Monitor, frame: seq<Byte>)
    requires Counted(frame) && Destination(frame) in m.locals && DeclaresLengths(frame, 60, 5)
    ensures ProcessPacket(m, frame).totalReceived == m.totalReceived + 15340
    ensures ProcessPacketCorrected(m, frame).totalReceived == m.totalReceived + 40
  {
    PayloadLengthSwapped(frame);
    IncomingFrame(m, frame);
    CorrectedCountsDeclared(m, frame, 60, 5);
  }

  /** The sum of a client counter over a list of clients. */
  function Sum(clients: seq<Client>, f: Client -> int): (total: int)
    ensures |clients| == 0 ==> total == 0
  {
    if |clients| == 0 then 0 else Sum(clients[..|clients| - 1], f) + f(clients[|clients| - 1])
  }

  /** Replacing one client changes the sum by the difference. */
  lemma {:induction false} SumUpdate(clients: seq<Client>, k: nat, c: Client, f: Client -> int)
    requires k < |clients|
    ensures Sum(clients[k := c], f) == Sum(clients, f) - f(clients[k]) + f(c)
  {
    var updated := clients[k := c];
    var n := |clients|;
    if k < n - 1 {
      assert updated[..n - 1] == clients[..n - 1][k := c];
      SumUpdate(clients[..n - 1], k, c, f);
    } else {
      assert updated[..n - 1] == clients[..n - 1];
    }
  }

  /** A new client adds its counter to the sum. */
  lemma SumAppend(clients: seq<Client>, c: Client, f: Client -> int)
    ensures Sum(clients + [c], f) == Sum(clients, f) + f(c)
  {
    assert (clients + [c])[..|clients|] == clients;
  }

  function SentOf(c: Client): int { c.totalSent }
  function ReceivedOf(c: Client): int { c.totalReceived }

  /** Every byte counted for the processor is counted for exactly one
      client: the bytes received equal the bytes the clients sent, and the
      bytes sent equal the bytes the clients received. */
  predicate Balanced(m: Monitor) {
    Sum(m.clients, SentOf) == m.totalReceived && Sum(m.clients, ReceivedOf) == m.totalSent
  }

  /** A new client adds nothing to either sum. */
  lemma ClientForSums(clients: seq<Client>, key: Address, peer: Address)
    ensures var (all, _) := ClientFor(clients, key, peer);
      Sum(all, SentOf) == Sum(clients, SentOf) && Sum(all, ReceivedOf) == Sum(clients, ReceivedOf)
  {
    var (all, k) := ClientFor(clients, key, peer);
    if all != clients {
      SumAppend(clients, NewClient(key, peer), SentOf);
      SumAppend(clients, NewClient(key, peer), ReceivedOf);
    }
  }

  /** Crediting any payload keeps the totals balanced and the client keys
      unique. */
  lemma AccountKeeps(m: Monitor, frame: seq<Byte>, payload: int)
    requires Counted(frame) && Balanced(m) && UniqueKeys(m.clients)
    ensures Balanced(Account(m, frame, payload)) && UniqueKeys(Account(m, frame, payload).clients)
  {
    var src, dst := Source(frame), Destination(frame);
    if dst in m.locals {
      AccountIncoming(m, frame, payload);
      var (clients, k) := ClientFor(m.clients, dst, src);
      ClientForSums(m.clients, dst, src);
      ClientForUnique(m.clients, dst, src);
      SumUpdate(clients, k, CreditSent(clients[k], payload), SentOf);
      SumUpdate(clients, k, CreditSent(clients[k], payload), ReceivedOf);
      UpdateKeepsKeys(clients, k, CreditSent(clients[k], payload));
    } else {
      AccountOutgoing(m, frame, payload);
      var (clients, k) := ClientFor(m.clients, src, dst);
      ClientForSums(m.clients, src, dst);
      ClientForUnique(m.clients, src, dst);
      SumUpdate(clients, k, CreditReceived(clients[k], payload), SentOf);
      SumUpdate(clients, k, CreditReceived(clients[k], payload), ReceivedOf);
      UpdateKeepsKeys(clients, k, CreditReceived(clients[k], payload));
    }
  }

  /** `processPacket` keeps the totals balanced and the client keys
      unique. */
  lemma ProcessPacketKeeps(m: Monitor, frame: seq<Byte>)
    requires Balanced(m) && UniqueKeys(m.clients)
    ensures Balanced(ProcessPacket(m, frame)) && UniqueKeys(ProcessPacket(m, frame).clients)
  {
    if Counted(frame) {
      AccountKeeps(m, frame, PayloadLengthAsWritten(frame));
    }
  }

  /** So does the corrected reading. */
  lemma ProcessPacketCorrectedKeeps(m: Monitor, frame: seq<Byte>)
    requires Balanced(m) && UniqueKeys(m.clients)
    ensures Balanced(ProcessPacketCorrected(m, frame)) && UniqueKeys(ProcessPacketCorrected(m, frame).clients)
  {
    if Counted(frame) {
      AccountKeeps(m, frame, PayloadLength(frame));
    }
  }

  /** Changing a client's counters keeps the keys unique. */
  lemma UpdateKeepsKeys(clients: seq<Client>, k: nat, c: Client)
    requires k < |clients| && c.key == clients[k].key && UniqueKeys(clients)
    ensures UniqueKeys(clients[k := c])
  {
    var all := clients[k := c];
    forall i, j | 0 <= i < j < |all| ensures all[i].key != all[j].key {
      assert all[i].key == clients[i].key && all[j].key == clients[j].key;
    }
  }

  /** `print` keeps the totals balanced and the client keys unique. */
  lemma PrintKeeps(m: Monitor)
    requires Balanced(m) && UniqueKeys(m.clients)
    ensures Balanced(Print(m)) && UniqueKeys(Print(m).clients)
  {
    PrintSums(m.clients);
  }

  /** Resetting period counters keeps the totals. */
  lemma {:induction false} PrintSums(clients: seq<Client>)
    ensures Sum(PrintClients(clients), SentOf) == Sum(clients, SentOf)
    ensures Sum(PrintClients(clients), ReceivedOf) == Sum(clients, ReceivedOf)
  {
    if |clients| > 0 {
      var printed := PrintClients(clients);
      var n := |clients|;
      assert printed[..n - 1] == PrintClients(clients[..n - 1]);
      PrintSums(clients[..n - 1]);
    }
  }

  /** From the start, any sequence of frames and prints keeps the totals
      balanced and the client keys unique. */
  lemma {:induction false} RunKeeps(m: Monitor, events: seq<Option<seq<Byte>>>)
    requires Balanced(m) && UniqueKeys(m.clients)
    ensures Balanced(Replay(m, events)) && UniqueKeys(Replay(m, events).clients)
    decreases |events|
  {
    if |events| > 0 {
      var next := match events[0] case Some(frame) => ProcessPacket(m, frame) case None => Print(m);
      match events[0] {
        case Some(frame) => ProcessPacketKeeps(m, frame);
        case None => PrintKeeps(m);
      }
      RunKeeps(next, events[1..]);
    }
  }

  /** Frames (`Some`) and prints (`None`) applied in order. */
  function Replay(m: Monitor, events: seq<Option<seq<Byte>>>): (r: Monitor)
    ensures r.locals == m.locals
    decreases |events|
  {
    if |events| == 0 then m
    else
      var next := match events[0] case Some(frame) => ProcessPacket(m, frame) case None => Print(m);
      Replay(next, events[1..])
  }

  /** The processor as constructed is balanced. */
  lemma StartBalanced(locals: seq<Address>)
    ensures Balanced(Start(locals)) && UniqueKeys(Start(locals).clients)
  {
  }
}
